=== FILE: README.md ===
# Expense and task tracker backend — a Dafny model

This project models the request handlers of a small Express/Mongoose backend
for personal expenses and to-do tasks. Users register and log in. Every other
route passes through a bearer-token middleware, which sets the caller's id.
Expenses, categories and tasks are owned by one user and are soft-deleted: an
`is_del` flag is set and the record is never removed. The dashboard turns the
caller's live expenses into reports: this month against last month, a
seven-day average, the biggest expense, the total, a per-month series, a
per-category breakdown with the top five categories and "Other", a seven-day
per-weekday series, and the five most recent expenses.

Each MongoDB collection is a `seq` of immutable records in insertion order.
Each handler is a pure function from the collection(s) and the request to the
new collection and a `Reply`. A reply is `Ok(status, data)` or `Err(status)`,
with the HTTP status the handler sends. JavaScript truthiness of request
fields is `Truthy`: a value that is present and non-empty. Things the handlers
get from outside are parameters:

- the clock reading (`now`);
- new document ids;
- bcrypt hashing and comparison;
- JWT signing and verification;
- the uploaded image URL.

Dates are modelled by an abstract local-time calendar (module `Calendar`):
millisecond timestamps with 86 400 000 ms per day, proleptic Gregorian
months, and the English month and weekday names.

Modules, one per source concern:

- `Common`: replies and statuses, truthiness, `reduce`-style sums, counts and filters.
- `Strings`: `split`/`join` with one separator.
- `Calendar`: the JavaScript `Date` arithmetic the handlers use.
- `Sorting`: stable sort by a key, ascending or descending, plus `limit`.
- `Grouping`: accumulation into an insertion-ordered object, keyed by a name.
- `Auth`: `middleware/authMiddleware.js` and the error handler of `server.js`.
- `Users`, `Expenses`, `Categories`, `Tasks`, `Dashboard`: one module per controller.

## Model

| member | source | states |
|---|---|---|
| Auth.ExtractToken | middleware/authMiddleware.js:7-12 | A token is found exactly when the header starts with the case-sensitive "Bearer ". The token holds no space, and it is the text after the prefix up to the next space or the end. |
| Auth.TokenRoundTrip | middleware/authMiddleware.js:7-12 | A space-free token written after "Bearer " is read back unchanged. |
| Auth.TokenBeforeSpace | middleware/authMiddleware.js:12 | Anything after a further space is ignored: "Bearer t x" yields t. |
| Auth.DoubleSpaceGivesEmptyToken | middleware/authMiddleware.js:12 | With two spaces after "Bearer", the token is the empty string, and it is still sent to verification. |
| Auth.UserAuth | middleware/authMiddleware.js:3-32 | The request proceeds exactly when there is a bearer header and the token verifies; both user fields then carry the payload's id. An expired token gets 406. A missing or malformed header, or any other verification error, reaches the error handler and gets 500. |
| Auth.LowercaseBearerRefused | middleware/authMiddleware.js:7-8 | "bearer " in lower case is refused with 500 before verification. |
| Users.PlainPasswordExact | controllers/userController.js:48-54 | A stored password without the "$2a$" prefix matches exactly the identical text, whatever the hash comparison would say. |
| Users.TwoBHashComparedAsText | controllers/userController.js:48-54 | A "$2b$" bcrypt hash takes the plain branch, so only the hash text itself is accepted. |
| Users.FindByEmail | controllers/userController.js:17 | Finds the first user with the email, deleted or not; none exactly when no user has it. |
| Users.FindById | controllers/userController.js:80 | Finds the first user with the caller's id; none when the id is absent or unknown. |
| Users.RegisterUser | controllers/userController.js:7-34 | A missing name, email or password gives 400. When all are given, an email already on record (even a deleted user's) gives 400. Otherwise the user is appended, live, with the hash of the password and no picture. |
| Users.RegisterKeepsEmailsUnique | controllers/userController.js:16-28 | Registration preserves the invariant that no two users share an email. |
| Users.LoginUser | controllers/userController.js:36-73 | Login succeeds exactly when the first user with the email exists and the password matches by the shared rule. The session carries that first user and the token signed for its id. Any failure is 401. |
| Users.DeletedUserCanLogIn | controllers/userController.js:41-62 | Login never reads the deletion flag: a soft-deleted user with the right password still logs in. |
| Users.ChangePassword | controllers/userController.js:75-116 | 404 exactly when the user is missing or deleted. 401 exactly when the old password does not match. Success exactly for a live user whose old password matches (with a new password given): only that user's password changes, to the hash of the new one. |
| Users.LoginAgreesWithChangePassword | controllers/userController.js:48-54 | For a live user, the password check accepts a password exactly when login accepts it. |
| Users.NewPasswordLogsIn | controllers/userController.js:91-108 | After a change, the new password logs in exactly when the shared rule accepts it against its own hash: through the hash comparison for a "$2a$" hash, by equality with the hash text otherwise. |
| Users.ChangedPasswordRefused | controllers/userController.js:91-108 | As written: when the new hash starts with "$2b$" (the bcrypt package's default) and differs from the password, login with the new password is refused with 401. |
| Users.RegisteredUserRefused | controllers/userController.js:24-54 | As written: a user registered with a "$2b$" hash of the password cannot log in with that password. |
| Users.FixedAgreesOutsideNewVersions | controllers/userController.js:48-54 | The corrected comparison agrees with the written one on plain text and on "$2a$" hashes; it differs only on "$2b$" and "$2y$" hashes. |
| Users.LoginUserFixed | controllers/userController.js:36-73 | Login with every bcrypt version recognised: success exactly when the first user with the email passes the corrected comparison. |
| Users.FixedRegisterThenLogin | controllers/userController.js:24-54 | With the corrected comparison, a registered user logs in with the password, whatever bcrypt version hashed it. |
| Users.FixedNewPasswordLogsIn | controllers/userController.js:91-108 | With the corrected comparison, the new password logs in after a change, whatever bcrypt version hashed it. |
| Users.UpdateUser | controllers/userController.js:190-214 | 404 exactly when the user is missing or deleted. 500 exactly when the new email belongs to another user, deleted or not, which the unique index on `email` (models/userModel.js) refuses. Otherwise name, email and phone take the request's values when present, and no other field or user changes. |
| Users.UpdateKeepsEmailsUnique | models/userModel.js:15-19 | A profile update preserves the invariant that no two users share an email. |
| Users.DeleteUser | controllers/userController.js:217-229 | 404 exactly when the user is missing or deleted. Otherwise only the deletion flag of that user is set. |
| Users.DeleteUserOnce | controllers/userController.js:220-224 | A second delete of the same user is refused with 404. |
| Users.PublicId | controllers/userController.js:274-278 | The public id holds no '/' or '.', and it is the start of the URL's last '/'-separated segment up to its first '.'. |
| Users.DestroyPath | controllers/userController.js:274-287 | An image is destroyed exactly when the old URL is truthy and its public id is non-empty. The path is the picture folder followed by that id. |
| Users.PublicIdOfImageUrl | controllers/userController.js:276-277 | A URL ".../id.ext" yields the public id `id`. |
| Users.TrailingSlashDestroysNothing | controllers/userController.js:277-287 | A URL ending in '/' has an empty public id, so nothing is destroyed. |
| Users.UpdateProfilePicture | controllers/userController.js:239-296 | No file gives 400. An unknown user gives 404; the deletion flag is not consulted. Success exactly for a known user with a file: the new URL is stored and returned, and the old image's path is the one destroyed. |
| Users.SecondUploadDestroysFirst | controllers/userController.js:271-290 | A second upload destroys the image the first upload stored. |
| Expenses.OwnerLive | controllers/expenseController.js:15 | Holds exactly the store's records owned by the user and not deleted. |
| Expenses.GetAllExpenses | controllers/expenseController.js:5-35 | 400 exactly when the user id is absent or not a valid ObjectId. Otherwise the answer holds exactly the caller's live expenses; an empty list is still a success. |
| Expenses.AddExpense | controllers/expenseController.js:38-62 | No user gives 401 before the fields are checked. A falsy title, amount (a JSON 0 included) or category gives 400. Success exactly when all are given: a live expense with the new id, the caller as owner and the request's fields is appended. |
| Expenses.AddThenGet | controllers/expenseController.js:48-80 | An added expense under a fresh id is what a fetch by that id returns, and it is in its owner's list. |
| Expenses.FindById | controllers/expenseController.js:102 | Finds the first record with the id, deleted or not; none exactly when none has it. |
| Expenses.GetExpenseById | controllers/expenseController.js:64-87 | Any existing id is returned, whoever owns it and even when deleted; otherwise 404. |
| Expenses.ApplyUpdate | controllers/expenseController.js:115-125 | Title, amount and category are written; the date only when present. The note keeps its value when absent, is cleared by an explicit `null`, and is set by a string. Id, owner and deletion flag are kept. |
| Expenses.UpdateExpense | controllers/expenseController.js:90-137 | 400 exactly when a field or the user is missing. Then 404 exactly when the id is unknown, then 403 exactly when the first record with the id has another owner, and success exactly when the caller owns it: only that record is rewritten. Errors leave the store unchanged. |
| Expenses.DeleteExpense | controllers/expenseController.js:139-159 | 404 exactly when the id is unknown. Then 500 exactly when there is no caller id (the `toString` of undefined throws), 403 exactly when the record has another owner, and success exactly when the caller owns it: the record is flagged deleted and kept. |
| Expenses.DeleteKeepsRecord | controllers/expenseController.js:143-153 | After a delete the record is still fetched by id, now flagged deleted. |
| Expenses.DeleteHidesFromList | controllers/expenseController.js:15 | A deleted expense no longer appears in its owner's list (ids unique). |
| Expenses.DeleteTwice | controllers/expenseController.js:143-152 | Deleting twice succeeds twice, and the second delete changes nothing. |
| Expenses.UpdateThenGet | controllers/expenseController.js:115-131 | After an update, fetching the id returns the written fields with owner and deletion flag unchanged. The fetched note is the old one when the request had none, empty after an explicit `null`, and the given one otherwise. |
| Categories.IconOrNull | controllers/categoryController.js:60 | A falsy icon is stored as null; a truthy one is kept. |
| Categories.GetCategories | controllers/categoryController.js:6-32 | No user gives 401. 404 exactly when the owner has no live category, and success exactly when it has one. The answer holds exactly the owner's live categories. |
| Categories.AddCategory | controllers/categoryController.js:46-68 | A falsy name or user gives 400. Otherwise the add succeeds exactly when the owner has never used the name (deleted categories count). The new live category is appended. |
| Categories.FindOwned | controllers/categoryController.js:94-95 | Finds the first record with the id and the caller as owner; none when there is no caller. |
| Categories.UpdateCategory | controllers/categoryController.js:88-109 | 404 exactly when the caller owns no such record. Otherwise name and icon are rewritten, with no duplicate-name check. |
| Categories.UpdateThenListed | controllers/categoryController.js:94-104 | A renamed category that is not deleted is in its owner's list under the new value. |
| Categories.RenameCanDuplicate | controllers/categoryController.js:88-104 | Renaming has no duplicate check: an owner can give a second live category the name of a first one. |
| Categories.DeleteCategory | controllers/categoryController.js:112-132 | 404 exactly when the caller owns no such record. Otherwise only the deletion flag is set. |
| Categories.DeletedNameStillBlocks | controllers/categoryController.js:55-58 | After a soft delete, the owner still cannot add a category with that name. |
| Categories.AddThenAddRejected | controllers/categoryController.js:55-58 | Adding the same name twice for one owner fails the second time. |
| Categories.NameFreeForOtherOwner | controllers/categoryController.js:55-58 | The duplicate check is per owner: a name one owner holds is refused to that owner and free for another owner who never used it. |
| Categories.AddedListedDeletedNot | controllers/categoryController.js:14 | A category just added is in its owner's list; once deleted it is not among the live ones. |
| Tasks.AddTask | controllers/taskController.js:4-30 | 400 exactly when title, description or due date is missing, or there is no user; the fields are checked first. Otherwise 201 and the new task is appended: the new id, the request's title, description, due date and comments, the caller as owner, status "Pending" (the schema default), created now and live. |
| Tasks.ViewAllTasks | controllers/taskController.js:33-57 | 400 without a user. Otherwise the answer is a permutation of the caller's live tasks in ascending due-date order. |
| Tasks.FindLive | controllers/taskController.js:70 | Finds the first task with the id that the caller owns and that is live; none exactly when there is no such task. |
| Tasks.ViewTaskDetails | controllers/taskController.js:60-84 | 400 exactly when an id is missing. 404 exactly when no live task of the caller has the id. Otherwise success with the first such task. |
| Tasks.ApplyEdit | controllers/taskController.js:96-99 | Title, description and due date are written when present. Comments keep their value when absent, are cleared by an explicit `null`, and are set by a string. Status, owner, creation time and deletion flag are kept. |
| Tasks.UpdateTask | controllers/taskController.js:87-116 | 400 exactly when an id is missing. 404 exactly when no live owned task matches, and success exactly when one does: only that task is rewritten. |
| Tasks.ChangeStatus | controllers/taskController.js:119-155 | 400 exactly when an id is missing or the status is not "Pending", "In Progress" or "Completed". 404 exactly when no live owned task matches, and success exactly when one does: only that task's status changes. |
| Tasks.DeleteTask | controllers/taskController.js:158-185 | Matches on id and owner only. 404 exactly when the caller owns no such task, and success exactly when it owns one: the task is flagged deleted and kept. |
| Tasks.AddThenView | controllers/taskController.js:18-24 | A created task, under a fresh id, is what its owner then views. |
| Tasks.UpdateThenView | controllers/taskController.js:97-109 | The task an update answers with is what a later view returns. |
| Tasks.CommentsAfterUpdate | controllers/taskController.js:96-99 | After an update, a view shows no comments if the request sent `null`, the old comments if it sent none, and the given comments otherwise. |
| Tasks.ChangeStatusThenView | controllers/taskController.js:119-155 | After a status change, a view shows the new status, and repeating the change alters nothing. |
| Tasks.DeleteIdempotent | controllers/taskController.js:163-175 | Deleting an already deleted task succeeds again and changes nothing. |
| Tasks.DeletedTaskNotFound | controllers/taskController.js:70 | After a delete, view and update answer 404 (ids unique). |
| Tasks.GetTaskSummary | controllers/taskController.js:188-215 | 401 exactly without a user. Otherwise each count is the number of the caller's live tasks in that status, and together they are at most the live tasks. |
| Tasks.StatusCountsBounded | controllers/taskController.js:193-203 | The completed, pending and in-progress counts add up to at most the number of live tasks. |
| Tasks.OverdueBounded | controllers/taskController.js:239-258 | Overdue tasks plus completed tasks are at most the live tasks. |
| Tasks.GetTaskStatistics | controllers/taskController.js:234-277 | 401 exactly without a user. The total is the number of live tasks. Each status count is the number of live tasks in that status. The overdue count is the number of live tasks not completed whose due date is before now. |
| Tasks.CountIsFilterLength | controllers/taskController.js:239-258 | Counting documents by a filter gives the length of the filtered list. |
| Tasks.StatusCountIsLength | controllers/taskController.js:201-203 | Counting the live tasks in a status gives the length of their list. |
| Tasks.AddTaskCounts | controllers/taskController.js:247-258 | A new task adds one to the total and to the pending count, and one to the overdue count exactly when it is already due. |
| Tasks.ChangeStatusMovesCount | controllers/taskController.js:136-140 | A status change moves the task from its old status count to the new one and keeps the total. |
| Tasks.GetRecentTasks | controllers/taskController.js:217-231 | 401 exactly without a user. Otherwise min(5, live count) live tasks, newest created first; none left out was created later than one returned. |
| Tasks.AddedTaskIsMostRecent | controllers/taskController.js:217-231 | A task created after every live task of its owner heads the recent list. |
| Common.SumAppend | controllers/homeController.js:41-42 | The sum that the `reduce` over amounts computes splits over a concatenation: the sum of `a + b` is the sum of `a` plus the sum of `b`. |
| Common.SumPermutation | controllers/homeController.js:142-143 | Reordering the expenses (as the date sort does) does not change their sum. |
| Common.SumFilterBounded | controllers/homeController.js:28-42 | With non-negative amounts, a filtered part sums to at most the whole. |
| Calendar.DayZeroIsLastOfMonth | controllers/homeController.js:18 | `new Date(y, m + 1, 0)` is the last day of month m, December included. |
| Calendar.CivilRoundTrip | controllers/homeController.js:16-25 | Converting a valid date to its day number and back gives the date. |
| Calendar.WeekdaysDistinct | controllers/homeController.js:274-278 | Seven consecutive days fall on seven different weekdays. |
| Calendar.MidnightsWindow | controllers/homeController.js:30 | An instant lies between the midnights starting two days exactly when it lies on those days, and on the last day only at midnight. |
| Grouping.GroupBy | controllers/homeController.js:149-161 | Keys appear in the order they are first seen, each once. Each amount is the total of its key. The amounts add up to the sum of the input. |
| Grouping.LookupGroupBy | controllers/homeController.js:281 | Looking a name up in the grouping gives that name's total, 0 when absent. |
| Grouping.KeyTotalsCover | controllers/homeController.js:273-282 | The totals of distinct names that cover every key add up to the whole sum. |
| Grouping.KeyTotalPermutation | controllers/homeController.js:142-155 | A key's total does not depend on the order of the input. |
| Sorting.SortAscending | controllers/taskController.js:47 | The result is in ascending key order and is a permutation of the input. |
| Sorting.SortDescending | controllers/homeController.js:201-202 | The result is in descending key order and is a permutation of the input. |
| Sorting.TopBy | controllers/homeController.js:304-306 | The first n in descending order. A sub-multiset of the input, and no element left out has a larger key than one kept. |
| Dashboard.PreviousMonth | controllers/homeController.js:21-22 | January goes back to December of the previous year. The previous month's last day is the day before the first of the month. |
| Dashboard.MonthWindow | controllers/homeController.js:17-25 | The filter runs from midnight on the first to midnight on the last day of the month. |
| Dashboard.MonthWindowMeaning | controllers/homeController.js:28-38 | An instant is in a month's window exactly when it is in that month, and on the last day only at midnight. |
| Dashboard.MonthTotalFromWindow | controllers/homeController.js:28-42 | The window total is the total of the expenses counted in the month. |
| Dashboard.MonthWindowsDisjoint | controllers/homeController.js:17-25 | Last month's window ends before this month's begins, so no expense counts twice. |
| Dashboard.LastDayAfternoonUncounted | controllers/homeController.js:25-36 | An expense after midnight on the previous month's last day is in neither total. |
| Dashboard.MonthlyExpense | controllers/homeController.js:7-53 | 401 without a user. Otherwise the totals of the current and the previous calendar month of `now`. |
| Dashboard.RoundedWeekAverage | controllers/homeController.js:72-74 | The result is within half of total/7, halves rounded up, as `Math.round` does. |
| Dashboard.DailyAverage | controllers/homeController.js:56-86 | 401 without a user. Otherwise the total of the last seven days, divided by 7 and rounded. |
| Dashboard.SingleExpenseAverage | controllers/homeController.js:72-74 | A single expense of 70 in the week averages to 10. |
| Dashboard.FindCategory | controllers/homeController.js:99 | Finds any category with the id, whoever owns it; none exactly when no category has it. |
| Dashboard.BiggestExpense | controllers/homeController.js:89-110 | 401 without a user. 500 exactly when the caller has no live expense (the code reads a field of undefined). Otherwise a live expense whose amount no other reaches, with its category lookup. |
| Dashboard.TotalExpenses | controllers/homeController.js:113-131 | 401 without a user. Otherwise the sum of the live amounts, 0 when there are none. |
| Dashboard.RecentExpenses | controllers/homeController.js:297-319 | 401 without a user. min(5, live count) live expenses, newest first; none left out is newer than one returned. |
| Dashboard.PerMonthExpense | controllers/homeController.js:134-173 | 401 without a user. Month names appear in order of first occurrence by date, each once, at most 12. Each amount is that month's total across years. The entries add up to the total. |
| Dashboard.PerMonthFacts | controllers/homeController.js:142-161 | The grouping of the date-sorted expenses has at most 12 month names. Its amounts are the totals of the unsorted live expenses, and they add up to the total. |
| Dashboard.SameMonthSameEntry | controllers/homeController.js:150 | Expenses in the same month of different years share one entry. |
| Dashboard.Percentage | controllers/homeController.js:214 | Finite exactly when the total is non-zero, and then percentage × total = amount × 100. A zero total gives NaN for 0 and an infinity otherwise. |
| Dashboard.ExpensePerCategory | controllers/homeController.js:177-239 | 401 without a user. 500 exactly when some live expense's category is missing. Otherwise the breakdown holds the total, the top five category totals in descending order, and "Other" exactly when the remainder is positive. |
| Dashboard.BreakdownOf | controllers/homeController.js:187-224 | See `AssembleMeetsSpec`. |
| Dashboard.AssembleMeetsSpec | controllers/homeController.js:200-224 | The shown categories are distinct and each carries its total. No category left out totals more than one shown. "Other" carries exactly the rest when it is positive. Each percentage is taken of the total. |
| Dashboard.OtherIsRemainder | controllers/homeController.js:204-208 | The categories after the top five add up to the total minus the shown amounts. |
| Dashboard.LeftOutNotLarger | controllers/homeController.js:201-205 | No category outside the top five has a larger total than one inside. |
| Dashboard.PercentagesSumTo100 | controllers/homeController.js:208-224 | With non-negative amounts and a positive total, the percentages add up to exactly 100 before rounding. |
| Dashboard.EmptyBreakdown | controllers/homeController.js:187-224 | No expenses give no shares and a zero total. |
| Dashboard.LastSevenDayNames | controllers/homeController.js:273-278 | The names of the six days before today and of today, oldest first. |
| Dashboard.LastSevenDayNamesDistinct | controllers/homeController.js:273-278 | The seven names are all different. |
| Dashboard.PerDayExpense | controllers/homeController.js:242-294 | 401 without a user. Exactly 7 entries, oldest first and ending with today's weekday, the names all different. Each amount is the weekday's total in the window, 0 for a day without expenses. The entries add up to the window total. |
| Dashboard.WeekdaysCovered | controllers/homeController.js:249-258 | Every expense in the six-day window falls on one of the seven named days. |
| Dashboard.ReportsAgree | controllers/homeController.js:7-173 | The total equals the sum of the per-month entries. With non-negative amounts, this month, last month and the per-day series each come to at most the total. |

## Left out

- Schema validation (required fields, enums, types) and Mongoose casting. A malformed ObjectId raises a CastError (500), which is not modelled. Ids are plain strings, and "valid ObjectId" means 24 hexadecimal digits; the 12-character form is not modelled.
- Express wiring, routers, CORS, the database connection and logging. The contact route and the unauthenticated lookups (`getallCategories`, `getcatid`, `getAllUsers`, `getUserById`, `validatetoken`) are not modelled.
- bcrypt, JWT and Cloudinary are parameters: `hash`, `compare`, `sign`, `verify` and the uploaded URL. A failed upload (500) is not modelled.
- Expenses.AddExpense: only JSON request bodies are modelled, where the amount is a number and 0 is falsy. The add and update routes also accept multipart and URL-encoded bodies, where every field is a string. There an amount of "0" is truthy, and Mongoose casts it to the number 0 or fails with 500. The model answers 400 for amount 0 in every case.
- Expenses.UpdateExpense: the same JSON-only restriction applies. With a string body, the source can accept an amount the model refuses.
- Login and password change with an absent `email`, `password`, `oldPassword` or `newPassword` field: the model takes strings, so `undefined` is not distinguished from text.
- Users.ChangePassword: when `newPassword` is absent, `bcrypt.hash` throws, and the source answers 500 with nothing stored. The model has no absent new password, so it does not cover this 500.
- Mongoose version: the model assumes Mongoose 6. Two behaviours depend on it. First, an update field that is `undefined` is stripped from `findByIdAndUpdate`/`findOneAndUpdate`, so the field keeps its value; Mongoose 5 writes it as null instead. This covers `Expenses.ApplyUpdate` (note, date), `Tasks.ApplyEdit`, `Categories.UpdateCategory` (name) and `Users.UpdateUser`. An explicit `null` is not stripped: it is written. Second, `mongoose.Types.ObjectId(user_id)` without `new` in the expense list works; from Mongoose 7 on it throws, and the list answers 500.
- Tasks.ApplyEdit, Expenses.ApplyUpdate, Categories.UpdateCategory: an explicit JSON `null` is written by the source, and these updates run no validators. The model covers this only for the nullable fields, task comments and expense note, which `null` clears. For the task's title, description and due date, the expense's date and the category's name, the model stores non-nullable values and treats `null` like an absent field, keeping the old value. The source writes null there: a task or category without a title or name, or an expense without a date. For the expense's title, amount and category, `null` is falsy and both answer 400.
- Users.UpdateUser: this update runs validators, and name, email and phone are required. An explicit `null` for any of them therefore fails with 500, which the model does not cover; it treats `null` like an absent field.
- Time zones, daylight saving and locales. A day is always 86 400 000 ms, and month and weekday names are the English long names.
- Floating point: amounts are integers. `toFixed(2)` is not modelled, so percentages are exact rationals. NaN and the infinities appear only as the tags of `Percent`.
- Dashboard.ExpensePerCategory: the totals object is a plain JavaScript object, modelled as an insertion-ordered map from any name to a number. The model does not cover category names that the object treats specially. Integer-like names are listed first by `Object.entries`. Assigning a number to "__proto__" is ignored, so that category is dropped while its amount stays in the total. Inherited names such as "toString" or "constructor" start from a function, not from 0, and the sum turns into text. For such names the percentages need not add up to 100, and "Other" need not equal the rest of the total. Category names are chosen by users, so such names can occur.
- Grouping.GroupBy: the same plain-object caveat applies to the per-month and per-day series. Their keys are English month and weekday names, which are never special.
- MongoDB returns documents with equal sort keys in an unspecified order. The model uses a stable sort over insertion order.
- `populate` in the recent-expenses and expense lists is not modelled; categories are referenced by id.
- The expense schema file is not part of this model. The stored `date` is taken as given by the request; any schema default for it is not modelled.
- Dashboard.BreakdownOf: its contract lives in `BreakdownSpec`, proved through `AssembleMeetsSpec`. It states the top categories as a set of largest totals, not their exact order among equal totals.

## Findings

| source | as written | input that shows it | evidently intended | confidence | as-written member | corrected member |
|---|---|---|---|---|---|---|
| controllers/userController.js:48-54 | A stored password counts as a bcrypt hash only when it starts with "$2a$". Anything else is compared by equality. | Register or change a password. `bcrypt.hash(p, 10)` produces a "$2b$…" hash by default. Logging in with `p` then compares `p` with the hash text, and login is refused with 401. | Every bcrypt version prefix ("$2a$", "$2b$", "$2y$") goes to `bcrypt.compare`, so the password that was hashed logs in. | not executed; the "$2b$" default is that of the bcrypt package | Users.ChangedPasswordRefused, Users.RegisteredUserRefused | Users.LoginUserFixed, Users.FixedRegisterThenLogin, Users.FixedNewPasswordLogsIn |

The handlers `Users.LoginUser` and `Users.ChangePassword` keep the comparison as written, because they model the code. `Users.PasswordMatchesFixed` is the corrected comparison, `Users.LoginUserFixed` is the login that uses it, and `Users.FixedAgreesOutsideNewVersions` shows that the fix changes only the "$2b$" and "$2y$" cases.

=== FILE: auth.dfy ===
/**
 * The bearer-token middleware of middleware/authMiddleware.js. Token
 * verification (signature, secret, expiry) is an abstract function from the
 * token text to its outcome.
 */
module Auth {
  import opened Common
  import Strings

  const BearerPrefix: string := "Bearer "

  /** The header is present and begins with the exact, case-sensitive "Bearer ". */
  predicate HasBearer(header: Option<string>) {
    Truthy(header) && StartsWith(header.value, BearerPrefix)
  }

  /** `authHeader.split(' ')[1]`: the text after "Bearer " up to the next space. */
  function ExtractToken(header: Option<string>): (r: Option<string>)
    ensures r.Some? <==> HasBearer(header)
    ensures r.Some? ==> ' ' !in r.value
    ensures r.Some? ==> var rest := header.value[|BearerPrefix|..];
                        && |r.value| <= |rest| && rest[..|r.value|] == r.value
                        && (|r.value| == |rest| || rest[|r.value|] == ' ')
  {
    if !HasBearer(header) then None
    else
      var rest := header.value[|BearerPrefix|..];
      assert header.value == "Bearer" + [' '] + rest;
      Strings.SplitAfter("Bearer", ' ', rest);
      Strings.FirstPiece(rest, ' ');
      Some(Strings.Split(header.value, ' ')[1])
  }

  /** A space-free token written alone after "Bearer " is read back. */
  lemma TokenRoundTrip(token: string)
    requires ' ' !in token
    ensures ExtractToken(Some(BearerPrefix + token)) == Some(token)
  {
    var h := BearerPrefix + token;
    assert h == "Bearer" + [' '] + token;
    Strings.SplitAfter("Bearer", ' ', token);
  }

  /** Whatever follows the token after a further space is ignored. */
  lemma TokenBeforeSpace(token: string, trailer: string)
    requires ' ' !in token
    ensures ExtractToken(Some(BearerPrefix + token + [' '] + trailer)) == Some(token)
  {
    var rest := token + [' '] + trailer;
    var h := BearerPrefix + token + [' '] + trailer;
    assert h == "Bearer" + [' '] + rest;
    assert HasBearer(Some(h)) by { assert h[..|BearerPrefix|] == BearerPrefix; }
    Strings.SplitAfter("Bearer", ' ', rest);
    Strings.SplitAfter(token, ' ', trailer);
    assert Strings.Split(h, ' ')[1] == Strings.Split(rest, ' ')[0] == token;
  }

  /** With two spaces after "Bearer" the token is empty. */
  lemma DoubleSpaceGivesEmptyToken(rest: string)
    ensures ExtractToken(Some(BearerPrefix + " " + rest)) == Some("")
  {
    var h := BearerPrefix + " " + rest;
    assert h[..|BearerPrefix|] == BearerPrefix;
    assert h[|BearerPrefix|..][0] == ' ';
  }

  /** What `JWT.verify` does with a token: a payload, or a thrown error's name. */
  datatype Verification = Verified(userId: Option<Id>) | Failed(errorName: string)

  /** The request fields the middleware sets: `req.user.userId` and `req.userId`. */
  datatype Identity = Identity(user: Option<Id>, userId: Option<Id>)

  /** Either the request continues to its handler, or it ends with a response. */
  datatype AuthOutcome = Proceed(identity: Identity) | Respond(status: Status, message: string)

  const NoTokenMessage: string := "Auth failed: No token provided or token format is incorrect"
  const InvalidTokenMessage: string := "Auth failed: Invalid token"
  const ExpiredMessage: string := "Token has expired"
  const ExpiredErrorName: string := "TokenExpiredError"

  /** `userAuth`. Errors passed to `next` reach the application's error handler,
      which answers 500 with the error's message. */
  function UserAuth(header: Option<string>, verify: string -> Verification): (r: AuthOutcome)
    ensures !HasBearer(header) ==> r == Respond(ServerError, NoTokenMessage)
    ensures r.Proceed? <==> HasBearer(header) && verify(ExtractToken(header).value).Verified?
    ensures r.Proceed? ==> r.identity.user == r.identity.userId == verify(ExtractToken(header).value).userId
    ensures r == Respond(NotAcceptable, ExpiredMessage)
            <==> HasBearer(header) && verify(ExtractToken(header).value) == Failed(ExpiredErrorName)
    ensures r.Respond? && r.status == ServerError <==>
            !HasBearer(header) || (verify(ExtractToken(header).value).Failed? && verify(ExtractToken(header).value).errorName != ExpiredErrorName)
  {
    match ExtractToken(header)
    case None => Respond(ServerError, NoTokenMessage)
    case Some(token) =>
      match verify(token)
      case Verified(uid) => Proceed(Identity(uid, uid))
      case Failed(name) =>
        if name == ExpiredErrorName then Respond(NotAcceptable, ExpiredMessage)
        else Respond(ServerError, InvalidTokenMessage)
  }

  /** A header whose prefix differs only in letter case is refused before any
      verification. */
  lemma LowercaseBearerRefused(token: string, verify: string -> Verification)
    ensures UserAuth(Some("bearer " + token), verify) == Respond(ServerError, NoTokenMessage)
  {
    assert ("bearer " + token)[0] == 'b';
  }
}

=== FILE: calendar.dfy ===
/**
 * An abstract local-time calendar standing in for JavaScript `Date`.
 *
 * A timestamp counts milliseconds from local midnight of 1970-01-01 with no
 * daylight-saving shifts, so every day is 86 400 000 ms long. Day numbers
 * count days from 1970-01-01 (day 0). Years follow the proleptic Gregorian
 * calendar. Months are numbered 0..11 and weekdays 0..6 from Sunday, as
 * `getMonth()` and `getDay()` number them, and their names come from the
 * fixed English tables `toLocaleString("default", …)` produces in the
 * default locale.
 */
module Calendar {

  type Timestamp = int

  const MsPerDay: int := 86400000

  /** The day number a timestamp falls on (floor division). */
  function DayOf(t: Timestamp): int {
    t / MsPerDay
  }

  /** Local midnight at the start of day `d`. */
  function StartOfDay(d: int): Timestamp {
    d * MsPerDay
  }

  lemma DayOfBounds(t: Timestamp)
    ensures StartOfDay(DayOf(t)) <= t < StartOfDay(DayOf(t) + 1)
  {
  }

  /** Every timestamp in day `d` has day number `d`. */
  lemma DayOfWithin(t: Timestamp, d: int)
    requires StartOfDay(d) <= t < StartOfDay(d + 1)
    ensures DayOf(t) == d
  {
    DayOfBounds(t);
  }

  /** Shifting a timestamp by whole days shifts its day number by as many. */
  lemma DayOfShift(t: Timestamp, k: int)
    ensures DayOf(t + k * MsPerDay) == DayOf(t) + k
  {
    DayOfBounds(t);
    DayOfWithin(t + k * MsPerDay, DayOf(t) + k);
  }

  /** Later timestamps never fall on earlier days. */
  lemma DayOfMonotone(a: Timestamp, b: Timestamp)
    requires a <= b
    ensures DayOf(a) <= DayOf(b)
  {
    DayOfBounds(a);
    DayOfBounds(b);
  }

  /** An instant lies between the midnights that start days `first` and `last`
      exactly when its day is between them and, on day `last`, it is that
      midnight itself. */
  lemma MidnightsWindow(t: Timestamp, first: int, last: int)
    ensures StartOfDay(first) <= t <= StartOfDay(last)
            <==> first <= DayOf(t) <= last && (DayOf(t) < last || t == StartOfDay(DayOf(t)))
  {
    DayOfBounds(t);
  }

  predicate IsLeapYear(y: int) {
    (y % 4 == 0 && y % 100 != 0) || y % 400 == 0
  }

  function DaysInYear(y: int): int {
    if IsLeapYear(y) then 366 else 365
  }

  function DaysInMonth(y: int, m: int): (n: int)
    requires 0 <= m < 12
    ensures 28 <= n <= 31
  {
    if m == 1 then (if IsLeapYear(y) then 29 else 28)
    else if m == 3 || m == 5 || m == 8 || m == 10 then 30
    else 31
  }

  /** Days from 1970-01-01 to January 1 of year `y` (negative before 1970). */
  function DaysBeforeYear(y: int): int
    decreases if y < 1970 then 1970 - y else y - 1970
  {
    if y == 1970 then 0
    else if y > 1970 then DaysBeforeYear(y - 1) + DaysInYear(y - 1)
    else DaysBeforeYear(y + 1) - DaysInYear(y)
  }

  lemma YearStep(y: int)
    ensures DaysBeforeYear(y + 1) == DaysBeforeYear(y) + DaysInYear(y)
  {
  }

  /** Later years start later: the whole of year `a` lies before year `b`. */
  lemma {:induction false} YearsOrdered(a: int, b: int)
    requires a < b
    ensures DaysBeforeYear(a + 1) <= DaysBeforeYear(b)
    decreases b - a
  {
    if a + 1 < b {
      YearsOrdered(a + 1, b);
      YearStep(a + 1);
    }
  }

  /** Days from January 1 of year `y` to the first of month `m`. */
  function DaysBeforeMonth(y: int, m: int): (n: int)
    requires 0 <= m <= 12
    ensures 28 * m <= n <= 31 * m
  {
    if m == 0 then 0 else DaysBeforeMonth(y, m - 1) + DaysInMonth(y, m - 1)
  }

  /** The twelve months make up the year. */
  lemma MonthsFillYear(y: int)
    ensures DaysBeforeMonth(y, 12) == DaysInYear(y)
  {
    var feb := DaysInMonth(y, 1);
    assert DaysBeforeMonth(y, 1) == 31;
    assert DaysBeforeMonth(y, 2) == 31 + feb;
    assert DaysBeforeMonth(y, 3) == 62 + feb;
    assert DaysBeforeMonth(y, 4) == 92 + feb;
    assert DaysBeforeMonth(y, 5) == 123 + feb;
    assert DaysBeforeMonth(y, 6) == 153 + feb;
    assert DaysBeforeMonth(y, 7) == 184 + feb;
    assert DaysBeforeMonth(y, 8) == 215 + feb;
    assert DaysBeforeMonth(y, 9) == 245 + feb;
    assert DaysBeforeMonth(y, 10) == 276 + feb;
    assert DaysBeforeMonth(y, 11) == 306 + feb;
    assert DaysBeforeMonth(y, 12) == 337 + feb;
  }

  /** Later months start later: the whole of month `a` lies before month `b`. */
  lemma {:induction false} MonthsOrdered(y: int, a: int, b: int)
    requires 0 <= a < b <= 12
    ensures DaysBeforeMonth(y, a + 1) <= DaysBeforeMonth(y, b)
    decreases b - a
  {
    if a + 1 < b {
      MonthsOrdered(y, a + 1, b);
    }
  }

  predicate ValidDate(y: int, m: int, d: int) {
    0 <= m < 12 && 1 <= d <= DaysInMonth(y, m)
  }

  /** The day number of day-of-month `d` of month `m` in year `y`; `d` may run
      outside the month, counting on from its first day. */
  function CivilDay(y: int, m: int, d: int): int
    requires 0 <= m < 12
  {
    DaysBeforeYear(y) + DaysBeforeMonth(y, m) + d - 1
  }

  /** `new Date(y, m, d)` as a day number: a month outside 0..11 carries into
      the year, and day 0 is the day before the first. */
  function MakeDay(y: int, m: int, d: int): int {
    CivilDay(y + m / 12, m % 12, d)
  }

  /** A month inside 0..11 carries nothing into the year. */
  lemma MakeDayInRange(y: int, m: int, d: int)
    requires 0 <= m < 12
    ensures MakeDay(y, m, d) == CivilDay(y, m, d)
  {
    assert m / 12 == 0 && m % 12 == m;
  }

  /** `new Date(y, m + 1, 0)` is the last day of month `m`, also in December. */
  lemma DayZeroIsLastOfMonth(y: int, m: int)
    requires 0 <= m < 12
    ensures MakeDay(y, m + 1, 0) == CivilDay(y, m, DaysInMonth(y, m))
  {
    if m == 11 {
      assert 12 / 12 == 1 && 12 % 12 == 0;
      assert MakeDay(y, 12, 0) == CivilDay(y + 1, 0, 0);
      YearStep(y);
      MonthsFillYear(y);
    } else {
      MakeDayInRange(y, m + 1, 0);
    }
  }

  datatype CivilDate = CivilDate(year: int, month: int, day: int)

  function YearUp(n: int, y: int): (r: int)
    requires DaysBeforeYear(y) <= n
    ensures DaysBeforeYear(r) <= n < DaysBeforeYear(r + 1)
    decreases n - DaysBeforeYear(y)
  {
    YearStep(y);
    if n < DaysBeforeYear(y + 1) then y else YearUp(n, y + 1)
  }

  function YearDown(n: int, y: int): (r: int)
    requires n < DaysBeforeYear(y + 1)
    ensures DaysBeforeYear(r) <= n < DaysBeforeYear(r + 1)
    decreases DaysBeforeYear(y + 1) - n
  {
    YearStep(y);
    if DaysBeforeYear(y) <= n then y else YearDown(n, y - 1)
  }

  /** The year containing day `n`. */
  function YearOfDay(n: int): (y: int)
    ensures DaysBeforeYear(y) <= n < DaysBeforeYear(y + 1)
  {
    if n >= 0 then YearUp(n, 1970) else YearDown(n, 1969)
  }

  function MonthFrom(y: int, offset: int, m: int): (r: int)
    requires 0 <= m < 12 && DaysBeforeMonth(y, m) <= offset < DaysInYear(y)
    ensures m <= r < 12 && DaysBeforeMonth(y, r) <= offset < DaysBeforeMonth(y, r + 1)
    decreases 12 - m
  {
    MonthsFillYear(y);
    if offset < DaysBeforeMonth(y, m + 1) then m else MonthFrom(y, offset, m + 1)
  }

  /** The calendar date of day `n`: a valid date whose day number is `n`. */
  function CivilOf(n: int): (c: CivilDate)
    ensures ValidDate(c.year, c.month, c.day)
    ensures CivilDay(c.year, c.month, c.day) == n
  {
    var y := YearOfDay(n);
    YearStep(y);
    var m := MonthFrom(y, n - DaysBeforeYear(y), 0);
    CivilDate(y, m, n - DaysBeforeYear(y) - DaysBeforeMonth(y, m) + 1)
  }

  /** A valid date lies inside its year. */
  lemma DateInYear(y: int, m: int, d: int)
    requires ValidDate(y, m, d)
    ensures DaysBeforeYear(y) <= CivilDay(y, m, d) < DaysBeforeYear(y + 1)
  {
    YearStep(y);
    MonthsFillYear(y);
    MonthsOrdered(y, m, 12);
    assert DaysBeforeMonth(y, m + 1) == DaysBeforeMonth(y, m) + DaysInMonth(y, m);
  }

  /** Reading back the date of a valid date's day number gives the date. */
  lemma CivilRoundTrip(y: int, m: int, d: int)
    requires ValidDate(y, m, d)
    ensures CivilOf(CivilDay(y, m, d)) == CivilDate(y, m, d)
  {
    var n := CivilDay(y, m, d);
    var c := CivilOf(n);
    DateInYear(y, m, d);
    DateInYear(c.year, c.month, c.day);
    if c.year < y {
      YearsOrdered(c.year, y);
    } else if c.year > y {
      YearsOrdered(y, c.year);
    }
    assert c.year == y;
    if c.month < m {
      MonthsOrdered(y, c.month, m);
    } else if c.month > m {
      MonthsOrdered(y, m, c.month);
    }
  }

  /** `getDay()`: 0 is Sunday; 1970-01-01 was a Thursday. */
  function Weekday(n: int): (w: int)
    ensures 0 <= w < 7
  {
    (n + 4) % 7
  }

  /** Seven consecutive days fall on seven different weekdays. */
  lemma WeekdaysDistinct(n: int, i: int, j: int)
    requires 0 <= i < j < 7
    ensures Weekday(n + i) != Weekday(n + j)
  {
    var a, b := n + i + 4, n + j + 4;
    assert a == 7 * (a / 7) + a % 7;
    assert b == 7 * (b / 7) + b % 7;
  }

  const MonthNames: seq<string> := ["January", "February", "March", "April", "May", "June",
                                    "July", "August", "September", "October", "November", "December"]

  const WeekdayNames: seq<string> := ["Sunday", "Monday", "Tuesday", "Wednesday", "Thursday", "Friday", "Saturday"]

  /** `new Date(t).toLocaleString("default", { month: "long" })` */
  function MonthName(t: Timestamp): (name: string)
    ensures name in MonthNames
  {
    MonthNames[CivilOf(DayOf(t)).month]
  }

  /** The name of the weekday of day number `n`. */
  function WeekdayNameOfDay(n: int): (name: string)
    ensures name in WeekdayNames
  {
    WeekdayNames[Weekday(n)]
  }

  /** `new Date(t).toLocaleString("default", { weekday: "long" })` */
  function WeekdayName(t: Timestamp): (name: string)
    ensures name in WeekdayNames
  {
    WeekdayNameOfDay(DayOf(t))
  }

  /** The weekday table has no repeated name, so different weekdays have different names. */
  lemma WeekdayNamesInjective(i: int, j: int)
    requires 0 <= i < 7 && 0 <= j < 7 && i != j
    ensures WeekdayNames[i] != WeekdayNames[j]
  {
  }
}

=== FILE: categories.dfy ===
/**
 * The category store behind controllers/categoryController.js: per-owner
 * categories with a duplicate-name rule on creation and soft delete.
 */
module Categories {
  import opened Common

  datatype Category = Category(id: Id, name: string, icon: Option<string>, userId: Id, isDel: bool)

  /** `icon || null`: a falsy icon is stored as null. */
  function IconOrNull(icon: Option<string>): (r: Option<string>)
    ensures r.Some? <==> Truthy(icon)
    ensures r.Some? ==> r == icon
  {
    if Truthy(icon) then icon else None
  }

  /** The owner's non-deleted categories, in store order. */
  function OwnerLive(store: seq<Category>, uid: Id): (r: seq<Category>)
    ensures forall c :: c in r <==> c in store && c.userId == uid && !c.isDel
  {
    Filter(store, (c: Category) => c.userId == uid && !c.isDel)
  }

  /** GET /api/categories/my_categories: 401 without a user, 404 when the owner
      has no live category. */
  function GetCategories(store: seq<Category>, caller: Option<Id>): (r: Reply<seq<Category>>)
    ensures !Truthy(caller) ==> r == Err(Unauthorized)
    ensures Truthy(caller) ==>
              (r == Err(NotFound) <==> forall c :: c in store ==> c.userId != caller.value || c.isDel)
    ensures r.Ok? <==> Truthy(caller) && exists c :: c in store && c.userId == caller.value && !c.isDel
    ensures r.Ok? ==> r.status == OK && |r.data| > 0
    ensures r.Ok? ==> forall c :: c in r.data <==> c in store && c.userId == caller.value && !c.isDel
  {
    if !Truthy(caller) then Err(Unauthorized)
    else
      var live := OwnerLive(store, caller.value);
      if |live| == 0 then Err(NotFound)
      else
        assert live[0] in live;
        Ok(OK, live)
  }

  /** `Category.findOne({ name, userId })`: any record, deleted or not. */
  predicate NameTaken(store: seq<Category>, name: string, uid: Id) {
    exists i :: 0 <= i < |store| && store[i].name == name && store[i].userId == uid
  }

  /** POST /api/categories/add: a missing name or user → 400; a name the owner
      already used → 400, even when that category is soft-deleted. */
  function AddCategory(store: seq<Category>, caller: Option<Id>, name: Option<string>, icon: Option<string>, newId: Id): (r: (seq<Category>, Reply<Category>))
    ensures (!Truthy(name) || !Truthy(caller)) ==> r.1 == Err(BadRequest)
    ensures Truthy(name) && Truthy(caller) ==> (r.1.Ok? <==> !NameTaken(store, name.value, caller.value))
    ensures r.1.Err? ==> r.0 == store && r.1.status == BadRequest
    ensures r.1.Ok? ==> r.1.status == Created && r.0 == store + [r.1.data]
    ensures r.1.Ok? ==> r.1.data == Category(newId, name.value, IconOrNull(icon), caller.value, false)
  {
    if !Truthy(name) || !Truthy(caller) then (store, Err(BadRequest))
    else if NameTaken(store, name.value, caller.value) then (store, Err(BadRequest))
    else
      var c := Category(newId, name.value, IconOrNull(icon), caller.value, false);
      (store + [c], Ok(Created, c))
  }

  /** `findOneAndUpdate({ _id, userId }, …)`: the first record with that id and
      owner; deleted records match too. */
  function FindOwned(store: seq<Category>, caller: Option<Id>, categoryId: Id): (r: Option<nat>)
    ensures r.Some? ==> r.value < |store| && store[r.value].id == categoryId && caller.Some? && store[r.value].userId == caller.value
    ensures r.None? <==> caller.None? || forall i :: 0 <= i < |store| ==> store[i].id != categoryId || store[i].userId != caller.value
  {
    if caller.None? then None
    else FirstWhere(store, (c: Category) => c.id == categoryId && c.userId == caller.value)
  }

  /** PUT /api/categories/update/:categoryId: renames without a duplicate check,
      and always rewrites the icon (to null when falsy). */
  function UpdateCategory(store: seq<Category>, caller: Option<Id>, categoryId: Id, name: Option<string>, icon: Option<string>): (r: (seq<Category>, Reply<Category>))
    ensures r.1.Err? <==> FindOwned(store, caller, categoryId).None?
    ensures r.1.Err? ==> r.1.status == NotFound && r.0 == store
    ensures r.1.Ok? ==> r.1.status == OK
    ensures r.1.Ok? ==> var i := FindOwned(store, caller, categoryId).value;
                        && r.0 == store[i := r.1.data]
                        && r.1.data.id == store[i].id && r.1.data.userId == store[i].userId && r.1.data.isDel == store[i].isDel
                        && r.1.data.name == (if name.Some? then name.value else store[i].name)
                        && r.1.data.icon == IconOrNull(icon)
  {
    match FindOwned(store, caller, categoryId)
    case None => (store, Err(NotFound))
    case Some(i) =>
      var c := store[i].(name := if name.Some? then name.value else store[i].name, icon := IconOrNull(icon));
      (store[i := c], Ok(OK, c))
  }

  /** DELETE /api/categories/delete/:categoryId: sets `is_del` and nothing else. */
  function DeleteCategory(store: seq<Category>, caller: Option<Id>, categoryId: Id): (r: (seq<Category>, Reply<Category>))
    ensures r.1.Err? <==> FindOwned(store, caller, categoryId).None?
    ensures r.1.Err? ==> r.1.status == NotFound && r.0 == store
    ensures r.1.Ok? ==> var i := FindOwned(store, caller, categoryId).value;
                        r.1.status == OK && r.1.data == store[i].(isDel := true) && r.0 == store[i := r.1.data]
  {
    match FindOwned(store, caller, categoryId)
    case None => (store, Err(NotFound))
    case Some(i) =>
      var c := store[i].(isDel := true);
      (store[i := c], Ok(OK, c))
  }

  /** A soft-deleted name still blocks reuse by the same owner. */
  lemma DeletedNameStillBlocks(store: seq<Category>, caller: Option<Id>, categoryId: Id, icon: Option<string>, newId: Id)
    requires DeleteCategory(store, caller, categoryId).1.Ok?
    ensures var deleted := DeleteCategory(store, caller, categoryId);
            var name := deleted.1.data.name;
            name != "" ==> AddCategory(deleted.0, caller, Some(name), icon, newId).1 == Err(BadRequest)
  {
    var i := FindOwned(store, caller, categoryId).value;
    var deleted := DeleteCategory(store, caller, categoryId);
    assert deleted.0[i].name == deleted.1.data.name && deleted.0[i].userId == caller.value;
  }

  /** The duplicate check is per owner: a name another owner already uses is
      still free, as long as this owner has never used it. */
  lemma NameFreeForOtherOwner(store: seq<Category>, name: string, owner: Id, other: Id, icon: Option<string>, newId: Id)
    requires name != "" && other != "" && other != owner
    requires NameTaken(store, name, owner)
    requires forall c :: c in store ==> !(c.userId == other && c.name == name)
    ensures AddCategory(store, Some(other), Some(name), icon, newId).1.Ok?
    ensures AddCategory(store, Some(owner), Some(name), icon, newId).1 == Err(BadRequest)
  {
  }

  /** After a successful add, the same owner cannot add the name again. */
  lemma AddThenAddRejected(store: seq<Category>, caller: Option<Id>, name: Option<string>, icon: Option<string>, id1: Id, id2: Id)
    requires AddCategory(store, caller, name, icon, id1).1.Ok?
    ensures AddCategory(AddCategory(store, caller, name, icon, id1).0, caller, name, icon, id2).1 == Err(BadRequest)
  {
    var s' := AddCategory(store, caller, name, icon, id1).0;
    assert s'[|store|].name == name.value && s'[|store|].userId == caller.value;
  }

  /** A category just added is listed for its owner, and a deleted one is not. */
  lemma AddedListedDeletedNot(store: seq<Category>, caller: Option<Id>, name: Option<string>, icon: Option<string>, newId: Id)
    requires AddCategory(store, caller, name, icon, newId).1.Ok?
    ensures var added := AddCategory(store, caller, name, icon, newId);
            var listed := GetCategories(added.0, caller);
            listed.Ok? && added.1.data in listed.data
    ensures var added := AddCategory(store, caller, name, icon, newId);
            var deleted := DeleteCategory(added.0, caller, newId);
            deleted.1.Ok? ==> deleted.1.data !in OwnerLive(deleted.0, caller.value)
  {
    var added := AddCategory(store, caller, name, icon, newId);
    assert added.0[|store|] == added.1.data;
    assert added.1.data in added.0;
  }

  /** A renamed category that is not deleted is listed under its new name. */
  lemma UpdateThenListed(store: seq<Category>, caller: Option<Id>, categoryId: Id, name: Option<string>, icon: Option<string>)
    requires UpdateCategory(store, caller, categoryId, name, icon).1.Ok?
    requires !UpdateCategory(store, caller, categoryId, name, icon).1.data.isDel
    ensures var r := UpdateCategory(store, caller, categoryId, name, icon);
            Truthy(caller) ==> GetCategories(r.0, caller).Ok? && r.1.data in GetCategories(r.0, caller).data
  {
    var r := UpdateCategory(store, caller, categoryId, name, icon);
    var i := FindOwned(store, caller, categoryId).value;
    assert r.0[i] == r.1.data;
    assert r.1.data in r.0;
  }

  /** Renaming skips the duplicate check: an owner can give a second category
      the name of a first one, and both are then live under that name. */
  lemma RenameCanDuplicate(store: seq<Category>, caller: Option<Id>, categoryId: Id, k: nat, icon: Option<string>)
    requires FindOwned(store, caller, categoryId).Some?
    requires k < |store| && k != FindOwned(store, caller, categoryId).value
    requires store[k].userId == caller.value && !store[k].isDel
    requires !store[FindOwned(store, caller, categoryId).value].isDel
    ensures var j := FindOwned(store, caller, categoryId).value;
            var r := UpdateCategory(store, caller, categoryId, Some(store[k].name), icon);
            && r.1.Ok?
            && r.0[k] in OwnerLive(r.0, caller.value) && r.0[j] in OwnerLive(r.0, caller.value)
            && r.0[k].name == r.0[j].name
  {
    var j := FindOwned(store, caller, categoryId).value;
    var r := UpdateCategory(store, caller, categoryId, Some(store[k].name), icon);
    assert r.0[k] == store[k];
    assert r.0[k] in r.0 && r.0[j] in r.0;
  }
}

=== FILE: common.dfy ===
/**
 * Shared vocabulary of the backend model: optional values, HTTP outcomes,
 * JavaScript truthiness of request fields, and the folds (sums, counts,
 * filters, first-match search) that the controllers' queries reduce to.
 */
module Common {

  datatype Option<T> = None | Some(value: T)

  /** Document ids and user ids are opaque strings compared by equality. */
  type Id = string

  /** HTTP status codes the controllers answer with. */
  datatype Status = OK | Created | BadRequest | Unauthorized | Forbidden | NotFound | NotAcceptable | ServerError
  {
    function Code(): int {
      match this
      case OK => 200
      case Created => 201
      case BadRequest => 400
      case Unauthorized => 401
      case Forbidden => 403
      case NotFound => 404
      case NotAcceptable => 406
      case ServerError => 500
    }
  }

  /** A handler's answer: a success status with a payload, or an error status. */
  datatype Reply<T> = Ok(status: Status, data: T) | Err(status: Status)

  /** A field of a JSON update body. An absent field is `undefined`, which
      Mongoose strips from the update, so the stored value stays; an explicit
      `null` is cast and written, clearing a nullable field. */
  datatype Patch<T> = Absent | Null | Given(value: T)

  /** The stored value of a nullable field after the update writes `p`. */
  function Patched<T>(stored: Option<T>, p: Patch<T>): Option<T> {
    match p
    case Absent => stored
    case Null => None
    case Given(v) => Some(v)
  }

  /** `!x` is false for a string field: it is present and not the empty string. */
  predicate Truthy(s: Option<string>) {
    s.Some? && s.value != ""
  }

  function SumOf<T>(s: seq<T>, f: T -> int): int {
    if |s| == 0 then 0 else f(s[0]) + SumOf(s[1..], f)
  }

  function CountOf<T>(s: seq<T>, p: T -> bool): (n: nat)
    ensures n <= |s|
  {
    if |s| == 0 then 0 else (if p(s[0]) then 1 else 0) + CountOf(s[1..], p)
  }

  /** The order-preserving selection of the elements satisfying `p`. */
  function Filter<T>(s: seq<T>, p: T -> bool): (r: seq<T>)
    ensures |r| <= |s|
    ensures forall i :: 0 <= i < |r| ==> p(r[i]) && r[i] in s
    ensures forall x :: x in s && p(x) ==> x in r
  {
    if |s| == 0 then []
    else if p(s[0]) then [s[0]] + Filter(s[1..], p)
    else Filter(s[1..], p)
  }

  /** The position of the first element satisfying `p`, as `findOne` picks it. */
  function FirstWhere<T>(s: seq<T>, p: T -> bool): (r: Option<nat>)
    ensures r.Some? ==> r.value < |s| && p(s[r.value])
    ensures r.Some? ==> forall j :: 0 <= j < r.value ==> !p(s[j])
    ensures r.None? <==> forall j :: 0 <= j < |s| ==> !p(s[j])
  {
    if |s| == 0 then None
    else if p(s[0]) then Some(0)
    else match FirstWhere(s[1..], p)
      case None => None
      case Some(i) => Some(i + 1)
  }

  lemma {:induction false} SumAppend<T>(a: seq<T>, b: seq<T>, f: T -> int)
    ensures SumOf(a + b, f) == SumOf(a, f) + SumOf(b, f)
  {
    if |a| == 0 {
      assert a + b == b;
    } else {
      assert (a + b)[1..] == a[1..] + b;
      SumAppend(a[1..], b, f);
    }
  }

  lemma {:induction false} CountAppend<T>(a: seq<T>, b: seq<T>, p: T -> bool)
    ensures CountOf(a + b, p) == CountOf(a, p) + CountOf(b, p)
  {
    if |a| == 0 {
      assert a + b == b;
    } else {
      assert (a + b)[1..] == a[1..] + b;
      CountAppend(a[1..], b, p);
    }
  }

  /** Replacing one element changes a count only by what that element
      contributed before and after. */
  lemma {:induction false} CountUpdate<T>(s: seq<T>, i: nat, x: T, p: T -> bool)
    requires i < |s|
    ensures CountOf(s[i := x], p) == CountOf(s, p) - (if p(s[i]) then 1 else 0) + (if p(x) then 1 else 0)
  {
    if i == 0 {
      assert s[i := x][1..] == s[1..];
    } else {
      assert s[i := x][1..] == s[1..][i - 1 := x];
      CountUpdate(s[1..], i - 1, x, p);
    }
  }

  /** Removing one element from a sum subtracts its value. */
  lemma SumRemove<T>(b: seq<T>, i: nat, f: T -> int)
    requires i < |b|
    ensures SumOf(b, f) == f(b[i]) + SumOf(b[..i] + b[i+1..], f)
  {
    var rest := b[i+1..];
    assert b == b[..i] + ([b[i]] + rest);
    assert ([b[i]] + rest)[1..] == rest;
    assert SumOf([b[i]] + rest, f) == f(b[i]) + SumOf(rest, f);
    SumAppend(b[..i], [b[i]] + rest, f);
    SumAppend(b[..i], rest, f);
  }

  /** Sums do not depend on the order of the summands. */
  lemma {:induction false} SumPermutation<T>(a: seq<T>, b: seq<T>, f: T -> int)
    requires multiset(a) == multiset(b)
    ensures SumOf(a, f) == SumOf(b, f)
    decreases |a|
  {
    if |a| == 0 {
      assert |b| == |multiset(b)| == 0;
    } else {
      var x := a[0];
      assert x in multiset(b);
      var i :| 0 <= i < |b| && b[i] == x;
      var b' := b[..i] + b[i+1..];
      assert b == b[..i] + [x] + b[i+1..];
      assert a == [x] + a[1..];
      assert multiset(a[1..]) == multiset(b') by {
        assert multiset(b) == multiset(b[..i] + [x]) + multiset(b[i+1..]);
        assert multiset(b[..i] + [x]) == multiset(b[..i]) + multiset{x};
        assert multiset(b') == multiset(b[..i]) + multiset(b[i+1..]);
        assert multiset(a) == multiset{x} + multiset(a[1..]);
        assert multiset(b) == multiset{x} + multiset(b');
        forall y
          ensures multiset(a[1..])[y] == multiset(b')[y]
        {
          assert multiset(a)[y] == multiset{x}[y] + multiset(a[1..])[y];
          assert multiset(b)[y] == multiset{x}[y] + multiset(b')[y];
        }
      }
      SumPermutation(a[1..], b', f);
      SumRemove(b, i, f);
    }
  }

  /** A filter and its complement split a sum. */
  lemma {:induction false} SumFilterSplit<T>(s: seq<T>, p: T -> bool, f: T -> int)
    ensures SumOf(s, f) == SumOf(Filter(s, p), f) + SumOf(Filter(s, x => !p(x)), f)
  {
    if |s| > 0 {
      SumFilterSplit(s[1..], p, f);
    }
  }

  lemma {:induction false} SumNonNegative<T>(s: seq<T>, f: T -> int)
    requires forall i :: 0 <= i < |s| ==> f(s[i]) >= 0
    ensures SumOf(s, f) >= 0
  {
    if |s| > 0 {
      SumNonNegative(s[1..], f);
    }
  }

  /** With non-negative values, a filtered part never sums to more than the whole. */
  lemma SumFilterBounded<T>(s: seq<T>, p: T -> bool, f: T -> int)
    requires forall i :: 0 <= i < |s| ==> f(s[i]) >= 0
    ensures 0 <= SumOf(Filter(s, p), f) <= SumOf(s, f)
  {
    var np := x => !p(x);
    SumFilterSplit(s, p, f);
    var kept := Filter(s, p);
    var dropped := Filter(s, np);
    forall i | 0 <= i < |kept| ensures f(kept[i]) >= 0 {
      assert kept[i] in s;
    }
    forall i | 0 <= i < |dropped| ensures f(dropped[i]) >= 0 {
      assert dropped[i] in s;
    }
    SumNonNegative(kept, f);
    SumNonNegative(dropped, f);
  }

  /** Counting with a predicate that implies another never counts more. */
  lemma {:induction false} CountMonotone<T>(s: seq<T>, p: T -> bool, q: T -> bool)
    requires forall x :: p(x) ==> q(x)
    ensures CountOf(s, p) <= CountOf(s, q)
  {
    if |s| > 0 {
      CountMonotone(s[1..], p, q);
    }
  }

  /** Counts of three mutually exclusive predicates add up to at most the count of their union. */
  lemma {:induction false} CountDisjoint3<T>(s: seq<T>, p: T -> bool, q: T -> bool, r: T -> bool, u: T -> bool)
    requires forall x :: !(p(x) && q(x)) && !(p(x) && r(x)) && !(q(x) && r(x))
    requires forall x :: (p(x) || q(x) || r(x)) ==> u(x)
    ensures CountOf(s, p) + CountOf(s, q) + CountOf(s, r) <= CountOf(s, u)
  {
    if |s| > 0 {
      CountDisjoint3(s[1..], p, q, r, u);
    }
  }

  /** Two predicates that never hold together count at most the elements satisfying their union. */
  lemma {:induction false} CountDisjoint2<T>(s: seq<T>, p: T -> bool, q: T -> bool, u: T -> bool)
    requires forall x :: !(p(x) && q(x))
    requires forall x :: (p(x) || q(x)) ==> u(x)
    ensures CountOf(s, p) + CountOf(s, q) <= CountOf(s, u)
  {
    if |s| > 0 {
      CountDisjoint2(s[1..], p, q, u);
    }
  }

  /** Every element satisfies the predicate: the count is the whole length. */
  lemma {:induction false} CountAll<T>(s: seq<T>, p: T -> bool)
    requires forall i :: 0 <= i < |s| ==> p(s[i])
    ensures CountOf(s, p) == |s|
  {
    if |s| > 0 {
      CountAll(s[1..], p);
    }
  }

  /** `s.startsWith(prefix)` */
  predicate StartsWith(s: string, prefix: string) {
    |prefix| <= |s| && s[..|prefix|] == prefix
  }

  /** Filters by two predicates that agree on every element select the same elements. */
  lemma {:induction false} FilterCongruent<T>(s: seq<T>, p: T -> bool, q: T -> bool)
    requires forall i :: 0 <= i < |s| ==> p(s[i]) == q(s[i])
    ensures Filter(s, p) == Filter(s, q)
  {
    if |s| > 0 {
      FilterCongruent(s[1..], p, q);
    }
  }
}

=== FILE: dashboard.dfy ===
/**
 * The dashboard reports of controllers/homeController.js. Every handler
 * answers 401 without a user; otherwise it reads the caller's non-deleted
 * expenses and folds them into one report. `now` stands for the clock reading
 * `new Date()`.
 */
module Dashboard {
  import opened Common
  import opened Calendar
  import Sorting
  import opened Grouping
  import Expenses
  import Categories

  type Expense = Expenses.Expense

  /** `Expense.find({ user_id, is_del: false })` */
  function Live(store: seq<Expense>, uid: Id): seq<Expense> {
    Expenses.OwnerLive(store, uid)
  }

  /** A closed interval of timestamps, as a `$gte`/`$lte` date filter. */
  datatype Window = Window(lo: Timestamp, hi: Timestamp)

  predicate InWindow(w: Window, t: Timestamp) {
    w.lo <= t <= w.hi
  }

  /** The sum of the amounts of the expenses dated inside `w`. */
  function WindowTotal(live: seq<Expense>, w: Window): int {
    SumOf(Filter(live, (e: Expense) => InWindow(w, e.date)), Expenses.Amount)
  }

  // ---------------------------------------------------------------------
  // This month and last month

  /** The month before month `m` of year `y`; January goes back to December of
      the year before. Its last day is the day before the first of `m`. */
  function PreviousMonth(y: int, m: int): (r: (int, int))
    requires 0 <= m < 12
    ensures 0 <= r.1 < 12
    ensures CivilDay(r.0, r.1, DaysInMonth(r.0, r.1)) + 1 == CivilDay(y, m, 1)
  {
    if m == 0 then
      MonthsFillYear(y - 1);
      YearStep(y - 1);
      (y - 1, 11)
    else
      (y, m - 1)
  }

  /** The date filter for month `m` of year `y`: from local midnight of the first
      to local midnight of `new Date(y, m + 1, 0)`, the last day. */
  function MonthWindow(y: int, m: int): (w: Window)
    requires 0 <= m < 12
    ensures w.lo == StartOfDay(CivilDay(y, m, 1))
    ensures w.hi == StartOfDay(CivilDay(y, m, DaysInMonth(y, m)))
  {
    DayZeroIsLastOfMonth(y, m);
    MakeDayInRange(y, m, 1);
    Window(StartOfDay(MakeDay(y, m, 1)), StartOfDay(MakeDay(y, m + 1, 0)))
  }

  /** What a month total counts, in calendar terms: instants on the days of the
      month, except that of the last day only its first instant counts. */
  predicate CountedInMonth(t: Timestamp, y: int, m: int)
    requires 0 <= m < 12
  {
    var c := CivilOf(DayOf(t));
    c.year == y && c.month == m && (c.day < DaysInMonth(y, m) || t == StartOfDay(DayOf(t)))
  }

  /** The month window selects exactly the instants `CountedInMonth` describes. */
  lemma MonthWindowMeaning(y: int, m: int, t: Timestamp)
    requires 0 <= m < 12
    ensures InWindow(MonthWindow(y, m), t) <==> CountedInMonth(t, y, m)
  {
    var d := DayOf(t);
    var first, last := CivilDay(y, m, 1), CivilDay(y, m, DaysInMonth(y, m));
    MidnightsWindow(t, first, last);
    if first <= d <= last {
      var day := d - first + 1;
      assert ValidDate(y, m, day) && CivilDay(y, m, day) == d;
      CivilRoundTrip(y, m, day);
    }
    if CountedInMonth(t, y, m) {
      assert CivilDay(y, m, CivilOf(d).day) == d;
    }
  }

  /** The month total as specified: the amounts of the expenses `CountedInMonth`. */
  function MonthTotal(live: seq<Expense>, y: int, m: int): int
    requires 0 <= m < 12
  {
    SumOf(Filter(live, (e: Expense) => CountedInMonth(e.date, y, m)), Expenses.Amount)
  }

  lemma MonthTotalFromWindow(live: seq<Expense>, y: int, m: int)
    requires 0 <= m < 12
    ensures WindowTotal(live, MonthWindow(y, m)) == MonthTotal(live, y, m)
  {
    var w := MonthWindow(y, m);
    forall i | 0 <= i < |live|
      ensures InWindow(w, live[i].date) == CountedInMonth(live[i].date, y, m)
    {
      MonthWindowMeaning(y, m, live[i].date);
    }
    FilterCongruent(live, (e: Expense) => InWindow(w, e.date), (e: Expense) => CountedInMonth(e.date, y, m));
  }

  /** The previous month's window ends before this month's begins, so no expense
      is counted in both totals. */
  lemma MonthWindowsDisjoint(y: int, m: int)
    requires 0 <= m < 12
    ensures var p := PreviousMonth(y, m); MonthWindow(p.0, p.1).hi < MonthWindow(y, m).lo
  {
  }

  /** An expense dated after midnight on the last day of the previous month falls
      in neither total. */
  lemma LastDayAfternoonUncounted(y: int, m: int, k: int)
    requires 0 <= m < 12 && 0 < k < MsPerDay
    ensures var p := PreviousMonth(y, m);
            var t := StartOfDay(CivilDay(p.0, p.1, DaysInMonth(p.0, p.1))) + k;
            !InWindow(MonthWindow(y, m), t) && !InWindow(MonthWindow(p.0, p.1), t)
  {
  }

  datatype MonthlyTotals = MonthlyTotals(thisMonthAmount: int, lastMonthAmount: int)

  /** GET /api/home/monthly: the totals of the current and the previous month. */
  function MonthlyExpense(store: seq<Expense>, caller: Option<Id>, now: Timestamp): (r: Reply<MonthlyTotals>)
    ensures r.Err? <==> !Truthy(caller)
    ensures r.Err? ==> r.status == Unauthorized
    ensures r.Ok? ==> var c := CivilOf(DayOf(now));
                      var p := PreviousMonth(c.year, c.month);
                      && r.status == OK
                      && r.data.thisMonthAmount == MonthTotal(Live(store, caller.value), c.year, c.month)
                      && r.data.lastMonthAmount == MonthTotal(Live(store, caller.value), p.0, p.1)
  {
    if !Truthy(caller) then Err(Unauthorized)
    else
      var live := Live(store, caller.value);
      var c := CivilOf(DayOf(now));
      var p := PreviousMonth(c.year, c.month);
      MonthTotalFromWindow(live, c.year, c.month);
      MonthTotalFromWindow(live, p.0, p.1);
      Ok(OK, MonthlyTotals(WindowTotal(live, MonthWindow(c.year, c.month)), WindowTotal(live, MonthWindow(p.0, p.1))))
  }

  // ---------------------------------------------------------------------
  // Daily average

  /** `Math.round(total / 7)`: the nearest integer, halves rounded up. */
  function RoundedWeekAverage(total: int): (r: int)
    ensures (r as real) - 0.5 <= (total as real) / 7.0 < (r as real) + 0.5
  {
    var q := (2 * total + 7) / 14;
    assert 14 * q <= 2 * total + 7 < 14 * q + 14;
    q
  }

  /** From the same time of day seven days ago up to now. */
  function SevenDayWindow(now: Timestamp): Window {
    Window(now - 7 * MsPerDay, now)
  }

  /** GET /api/home/daily-average: the window total divided by 7, however many
      days had expenses. */
  function DailyAverage(store: seq<Expense>, caller: Option<Id>, now: Timestamp): (r: Reply<int>)
    ensures r.Err? <==> !Truthy(caller)
    ensures r.Err? ==> r.status == Unauthorized
    ensures r.Ok? ==> var total := WindowTotal(Live(store, caller.value), SevenDayWindow(now));
                      && r.status == OK
                      && (r.data as real) - 0.5 <= (total as real) / 7.0 < (r.data as real) + 0.5
  {
    if !Truthy(caller) then Err(Unauthorized)
    else Ok(OK, RoundedWeekAverage(WindowTotal(Live(store, caller.value), SevenDayWindow(now))))
  }

  /** A single expense of 70 in the week averages to 10. */
  lemma SingleExpenseAverage(e: Expense, now: Timestamp)
    requires e.amount == 70 && !e.isDel && e.userId != ""
    requires InWindow(SevenDayWindow(now), e.date)
    ensures DailyAverage([e], Some(e.userId), now) == Ok(OK, 10)
  {
    var live := Live([e], e.userId);
    assert live == [e];
    assert [e][1..] == [];
    assert SumOf([e], Expenses.Amount) == 70;
    assert WindowTotal(live, SevenDayWindow(now)) == 70;
    assert RoundedWeekAverage(70) == 10;
  }

  // ---------------------------------------------------------------------
  // Biggest, total and recent expenses

  /** `Category.findById(id)`: any category with that id, whoever owns it. */
  function FindCategory(categories: seq<Categories.Category>, id: Id): (r: Option<Categories.Category>)
    ensures r.Some? ==> r.value in categories && r.value.id == id
    ensures r.None? <==> forall c :: c in categories ==> c.id != id
  {
    match FirstWhere(categories, (c: Categories.Category) => c.id == id)
    case None => None
    case Some(i) => Some(categories[i])
  }

  datatype BiggestReport = BiggestReport(expense: Expense, category: Option<Categories.Category>)

  /** GET /api/home/biggest: the live expense with the largest amount and its
      category; with no expense, `expenses[0]` is undefined and the handler fails
      with 500. */
  function BiggestExpense(store: seq<Expense>, categories: seq<Categories.Category>, caller: Option<Id>): (r: Reply<BiggestReport>)
    ensures r.Err? && r.status == Unauthorized <==> !Truthy(caller)
    ensures Truthy(caller) ==> (r.Err? <==> forall e :: e in store ==> !Expenses.LiveFor(e, caller.value))
    ensures r.Err? ==> r.status in {Unauthorized, ServerError}
    ensures r.Ok? ==> && r.status == OK
                      && r.data.expense in store && Expenses.LiveFor(r.data.expense, caller.value)
                      && (forall e :: e in store && Expenses.LiveFor(e, caller.value) ==> e.amount <= r.data.expense.amount)
                      && r.data.category == FindCategory(categories, r.data.expense.category)
  {
    if !Truthy(caller) then Err(Unauthorized)
    else
      var live := Live(store, caller.value);
      var top := Sorting.TopBy(live, Expenses.Amount, 1);
      if |top| == 0 then Err(ServerError)
      else
        var b := top[0];
        assert b in multiset(live) by { assert b in multiset(top); }
        forall e | e in live
          ensures e.amount <= b.amount
        {
          if e != b {
            assert multiset(top)[e] == 0 by { assert top == [b]; }
            assert e in multiset(live) - multiset(top);
          }
        }
        Ok(OK, BiggestReport(b, FindCategory(categories, b.category)))
  }

  /** GET /api/home/total: the sum of all live amounts, 0 when there are none. */
  function TotalExpenses(store: seq<Expense>, caller: Option<Id>): (r: Reply<int>)
    ensures r.Err? <==> !Truthy(caller)
    ensures r.Err? ==> r.status == Unauthorized
    ensures r.Ok? ==> r.status == OK && r.data == SumOf(Live(store, caller.value), Expenses.Amount)
    ensures r.Ok? && (forall e :: e in store ==> !Expenses.LiveFor(e, caller.value)) ==> r.data == 0
  {
    if !Truthy(caller) then Err(Unauthorized)
    else
      var live := Live(store, caller.value);
      assert |live| > 0 ==> live[0] in live;
      Ok(OK, SumOf(live, Expenses.Amount))
  }

  /** GET /api/home/recent: at most five live expenses, newest first, and none
      left out is newer than one returned. */
  function RecentExpenses(store: seq<Expense>, caller: Option<Id>): (r: Reply<seq<Expense>>)
    ensures r.Err? <==> !Truthy(caller)
    ensures r.Err? ==> r.status == Unauthorized
    ensures r.Ok? ==> && r.status == OK && |r.data| <= 5
                      && |r.data| == (if |Live(store, caller.value)| < 5 then |Live(store, caller.value)| else 5)
                      && Sorting.Descending(r.data, Expenses.DateOf)
                      && multiset(r.data) <= multiset(Live(store, caller.value))
    ensures r.Ok? ==> forall e, i :: (e in multiset(Live(store, caller.value)) - multiset(r.data) && 0 <= i < |r.data|)
                                     ==> e.date <= r.data[i].date
  {
    if !Truthy(caller) then Err(Unauthorized)
    else Ok(OK, Sorting.TopBy(Live(store, caller.value), Expenses.DateOf, 5))
  }

  // ---------------------------------------------------------------------
  // Per-month grouping

  /** The long month name of an expense's date. */
  function MonthOf(e: Expense): string {
    MonthName(e.date)
  }

  /** GET /api/home/per-month: live expenses by ascending date, grouped by month
      name in order of first appearance. The same month of different years shares
      one entry, so there are at most twelve. */
  function PerMonthExpense(store: seq<Expense>, caller: Option<Id>): (r: Reply<seq<Group>>)
    ensures r.Err? <==> !Truthy(caller)
    ensures r.Err? ==> r.status == Unauthorized
    ensures r.Ok? ==> var live := Live(store, caller.value);
                      && r.status == OK
                      && FirstSeenOrder(Keys(r.data), KeysOf(Sorting.SortAscending(live, Expenses.DateOf), MonthOf))
                      && |r.data| <= 12
                      && (forall i :: 0 <= i < |r.data| ==> r.data[i].key in MonthNames)
                      && (forall i :: 0 <= i < |r.data| ==> r.data[i].amount == KeyTotal(live, r.data[i].key, MonthOf, Expenses.Amount))
                      && SumOf(r.data, GroupAmount) == SumOf(live, Expenses.Amount)
  {
    if !Truthy(caller) then Err(Unauthorized)
    else
      var live := Live(store, caller.value);
      var sorted := Sorting.SortAscending(live, Expenses.DateOf);
      var g := MonthGroups(sorted);
      PerMonthFacts(live, sorted);
      Ok(OK, g)
  }

  /** The per-month grouping of a list of expenses. */
  function MonthGroups(s: seq<Expense>): seq<Group> {
    GroupBy(s, MonthOf, Expenses.Amount)
  }

  lemma PerMonthFacts(live: seq<Expense>, sorted: seq<Expense>)
    requires multiset(sorted) == multiset(live)
    ensures |MonthGroups(sorted)| <= 12
    ensures forall i :: 0 <= i < |MonthGroups(sorted)| ==> MonthGroups(sorted)[i].key in MonthNames
    ensures forall i :: 0 <= i < |MonthGroups(sorted)| ==>
              MonthGroups(sorted)[i].amount == KeyTotal(live, MonthGroups(sorted)[i].key, MonthOf, Expenses.Amount)
    ensures SumOf(MonthGroups(sorted), GroupAmount) == SumOf(live, Expenses.Amount)
  {
    var g := MonthGroups(sorted);
    PerMonthNames(sorted);
    DistinctBound(Keys(g), MonthNames);
    PerMonthAmounts(live, sorted);
    SumPermutation(sorted, live, Expenses.Amount);
  }

  lemma PerMonthNames(sorted: seq<Expense>)
    ensures forall k :: k in Keys(MonthGroups(sorted)) ==> k in MonthNames
    ensures forall i :: 0 <= i < |MonthGroups(sorted)| ==> MonthGroups(sorted)[i].key in MonthNames
  {
    var g := MonthGroups(sorted);
    var names := KeysOf(sorted, MonthOf);
    forall k | k in Keys(g)
      ensures k in MonthNames
    {
      var j :| 0 <= j < |names| && names[j] == k;
      assert names[j] == MonthName(sorted[j].date);
    }
    forall i | 0 <= i < |g|
      ensures g[i].key in MonthNames
    {
      assert g[i].key in Keys(g);
    }
  }

  lemma PerMonthAmounts(live: seq<Expense>, sorted: seq<Expense>)
    requires multiset(sorted) == multiset(live)
    ensures forall i :: 0 <= i < |MonthGroups(sorted)| ==>
              MonthGroups(sorted)[i].amount == KeyTotal(live, MonthGroups(sorted)[i].key, MonthOf, Expenses.Amount)
  {
    var g := MonthGroups(sorted);
    forall i | 0 <= i < |g|
      ensures g[i].amount == KeyTotal(live, g[i].key, MonthOf, Expenses.Amount)
    {
      KeyTotalPermutation(sorted, live, g[i].key, MonthOf, Expenses.Amount);
    }
  }

  /** Expenses in the same month of different years land in the same entry. */
  lemma SameMonthSameEntry(a: Expense, b: Expense)
    requires CivilOf(DayOf(a.date)).month == CivilOf(DayOf(b.date)).month
    ensures MonthOf(a) == MonthOf(b)
  {
  }

  // ---------------------------------------------------------------------
  // Per-category breakdown

  /** The name a populated category reference shows; a dangling reference has
      none. */
  function CategoryNameOf(categories: seq<Categories.Category>): Expense -> string {
    (e: Expense) => match FindCategory(categories, e.category)
                    case Some(c) => c.name
                    case None => ""
  }

  /** Every expense's category reference resolves, so `expense.category.name`
      does not throw. */
  predicate AllCategorised(live: seq<Expense>, categories: seq<Categories.Category>) {
    forall i :: 0 <= i < |live| ==> FindCategory(categories, live[i].category).Some?
  }

  /** A JavaScript number produced by `(amount / total) * 100`. */
  datatype Percent = Finite(value: real) | NaN | Infinity | NegInfinity

  function Percentage(amount: int, total: int): (p: Percent)
    ensures p.Finite? <==> total != 0
    ensures total != 0 ==> p.value * (total as real) == (amount as real) * 100.0
    ensures total == 0 ==> (p == NaN <==> amount == 0)
  {
    if total != 0 then Finite((amount as real) / (total as real) * 100.0)
    else if amount == 0 then NaN
    else if amount > 0 then Infinity
    else NegInfinity
  }

  datatype Share = Share(category: string, amount: int, percentage: Percent)

  function ShareAmount(s: Share): int {
    s.amount
  }

  datatype Breakdown = Breakdown(shares: seq<Share>, totalExpense: int)

  const OtherCategory: string := "Other"
  const TopCount: nat := 5

  function SharesOf(top: seq<Group>, total: int): (r: seq<Share>)
    ensures |r| == |top|
    ensures forall i :: 0 <= i < |top| ==> r[i] == Share(top[i].key, top[i].amount, Percentage(top[i].amount, total))
  {
    if |top| == 0 then [] else [Share(top[0].key, top[0].amount, Percentage(top[0].amount, total))] + SharesOf(top[1..], total)
  }

  /** The per-category totals, in order of first appearance. */
  function CategoryTotals(live: seq<Expense>, categories: seq<Categories.Category>): seq<Group> {
    GroupBy(live, CategoryNameOf(categories), Expenses.Amount)
  }

  /** `shown` lists categories of `live` with their totals, each once, largest
      first, and no category left out has a larger total than one shown. */
  ghost predicate ShowsLargest(live: seq<Expense>, nameOf: Expense -> string, shown: seq<Share>) {
    && (forall i :: 0 <= i < |shown| ==> shown[i].category in KeysOf(live, nameOf)
                                         && shown[i].amount == KeyTotal(live, shown[i].category, nameOf, Expenses.Amount))
    && (forall i, j :: 0 <= i < j < |shown| ==> shown[i].category != shown[j].category && shown[i].amount >= shown[j].amount)
    && (forall x, i :: x in KeysOf(live, nameOf) && 0 <= i < |shown| && (forall j :: 0 <= j < |shown| ==> shown[j].category != x)
                       ==> KeyTotal(live, x, nameOf, Expenses.Amount) <= shown[i].amount)
  }

  /** What the per-category report promises: the grand total; the five largest
      categories (fewer when there are fewer); then "Other" with the remainder
      exactly when the remainder is positive; and every percentage taken of the
      grand total. */
  ghost predicate BreakdownSpec(live: seq<Expense>, categories: seq<Categories.Category>, b: Breakdown) {
    var nameOf := CategoryNameOf(categories);
    var n := |CategoryTotals(live, categories)|;
    var k := if n < TopCount then n else TopCount;
    var shares := b.shares;
    && b.totalExpense == SumOf(live, Expenses.Amount)
    && (|shares| == k || |shares| == k + 1)
    && ShowsLargest(live, nameOf, shares[..k])
    && (|shares| == k + 1 <==> b.totalExpense - SumOf(shares[..k], ShareAmount) > 0)
    && (|shares| == k + 1 ==> shares[k].category == OtherCategory
                              && shares[k].amount == b.totalExpense - SumOf(shares[..k], ShareAmount))
    && (forall i :: 0 <= i < |shares| ==> shares[i].percentage == Percentage(shares[i].amount, b.totalExpense))
  }

  /** GET /api/home/per-category: up to five largest category totals with their
      percentages of the grand total, then "Other" for the rest when that rest is
      positive. A dangling category reference makes the handler fail with 500. */
  function ExpensePerCategory(store: seq<Expense>, categories: seq<Categories.Category>, caller: Option<Id>): (r: Reply<Breakdown>)
    ensures r.Err? && r.status == Unauthorized <==> !Truthy(caller)
    ensures Truthy(caller) ==> (r.Err? <==> !AllCategorised(Live(store, caller.value), categories))
    ensures r.Err? ==> r.status in {Unauthorized, ServerError}
    ensures r.Ok? ==> r.status == OK && BreakdownSpec(Live(store, caller.value), categories, r.data)
  {
    if !Truthy(caller) then Err(Unauthorized)
    else
      var live := Live(store, caller.value);
      if !AllCategorised(live, categories) then Err(ServerError)
      else Ok(OK, BreakdownOf(live, categories))
  }

  /** The report built from the category totals. */
  function BreakdownOf(live: seq<Expense>, categories: seq<Categories.Category>): (b: Breakdown)
    ensures BreakdownSpec(live, categories, b)
  {
    var nameOf := CategoryNameOf(categories);
    var groups := CategoryTotals(live, categories);
    var total := SumOf(live, Expenses.Amount);
    var sorted := Sorting.SortDescending(groups, GroupAmount);
    var top := Sorting.TopBy(groups, GroupAmount, TopCount);
    var rest := sorted[|top|..];
    var otherTotal := SumOf(rest, GroupAmount);
    var topShares := SharesOf(top, total);
    OtherIsRemainder(groups, sorted, top, rest, total, live, nameOf);
    TopSharesFacts(live, nameOf, groups, top, topShares, total);
    var n := |groups|;
    AssembleMeetsSpec(live, categories, n, topShares, otherTotal, total);
    Breakdown(Assemble(topShares, otherTotal, total), total)
  }

  /** The shown categories followed by "Other" when the remainder is positive. */
  function Assemble(topShares: seq<Share>, otherTotal: int, total: int): (shares: seq<Share>)
    ensures |shares| == |topShares| + (if otherTotal > 0 then 1 else 0)
    ensures shares[..|topShares|] == topShares
    ensures otherTotal > 0 ==> shares[|topShares|] == Share(OtherCategory, otherTotal, Percentage(otherTotal, total))
  {
    topShares + (if otherTotal > 0 then [Share(OtherCategory, otherTotal, Percentage(otherTotal, total))] else [])
  }

  lemma AssembleMeetsSpec(live: seq<Expense>, categories: seq<Categories.Category>, n: nat,
                          topShares: seq<Share>, otherTotal: int, total: int)
    requires n == |CategoryTotals(live, categories)|
    requires |topShares| == if n < TopCount then n else TopCount
    requires ShowsLargest(live, CategoryNameOf(categories), topShares)
    requires total == SumOf(live, Expenses.Amount)
    requires otherTotal == total - SumOf(topShares, ShareAmount)
    requires forall i :: 0 <= i < |topShares| ==> topShares[i].percentage == Percentage(topShares[i].amount, total)
    ensures BreakdownSpec(live, categories, Breakdown(Assemble(topShares, otherTotal, total), total))
  {
    var shares := Assemble(topShares, otherTotal, total);
    var k := |topShares|;
    assert shares[..k] == topShares;
    forall i | 0 <= i < |shares|
      ensures shares[i].percentage == Percentage(shares[i].amount, total)
    {
      if i < k {
        assert shares[i] == shares[..k][i];
      }
    }
  }

  /** The "Other" amount is the grand total less the shown categories. */
  lemma OtherIsRemainder(groups: seq<Group>, sorted: seq<Group>, top: seq<Group>, rest: seq<Group>, total: int,
                         live: seq<Expense>, nameOf: Expense -> string)
    requires groups == GroupBy(live, nameOf, Expenses.Amount)
    requires total == SumOf(live, Expenses.Amount)
    requires sorted == Sorting.SortDescending(groups, GroupAmount)
    requires top == Sorting.TopBy(groups, GroupAmount, TopCount)
    requires rest == sorted[|top|..]
    ensures SumOf(rest, GroupAmount) == total - SumOf(SharesOf(top, total), ShareAmount)
  {
    assert top == Sorting.Limit(sorted, TopCount);
    assert top == sorted[..|top|];
    assert sorted == top + rest;
    SumAppend(top, rest, GroupAmount);
    SumPermutation(sorted, groups, GroupAmount);
    SharesKeepAmounts(top, total);
  }

  lemma {:induction false} SharesKeepAmounts(top: seq<Group>, total: int)
    ensures SumOf(SharesOf(top, total), ShareAmount) == SumOf(top, GroupAmount)
  {
    if |top| > 0 {
      SharesKeepAmounts(top[1..], total);
    }
  }

  /** The shown categories are the largest totals, each once. */
  lemma TopSharesFacts(live: seq<Expense>, nameOf: Expense -> string, groups: seq<Group>, top: seq<Group>,
                       shares: seq<Share>, total: int)
    requires groups == GroupBy(live, nameOf, Expenses.Amount)
    requires top == Sorting.TopBy(groups, GroupAmount, TopCount)
    requires shares == SharesOf(top, total)
    ensures |shares| == if |groups| < TopCount then |groups| else TopCount
    ensures ShowsLargest(live, nameOf, shares)
  {
    TopFromGroups(live, nameOf, groups, top, shares, total);
    TopKeysDistinct(groups, top, shares, total);
    forall k | k in KeysOf(live, nameOf)
      ensures k in Keys(groups)
    {
    }
    LeftOutNotLarger(live, nameOf, groups, top, shares, total);
  }

  lemma TopFromGroups(live: seq<Expense>, nameOf: Expense -> string, groups: seq<Group>, top: seq<Group>,
                      shares: seq<Share>, total: int)
    requires groups == GroupBy(live, nameOf, Expenses.Amount)
    requires multiset(top) <= multiset(groups)
    requires shares == SharesOf(top, total)
    ensures forall i :: 0 <= i < |shares| ==> shares[i].category in KeysOf(live, nameOf)
                                              && shares[i].amount == KeyTotal(live, shares[i].category, nameOf, Expenses.Amount)
  {
    forall i | 0 <= i < |shares|
      ensures shares[i].category in KeysOf(live, nameOf)
      ensures shares[i].amount == KeyTotal(live, shares[i].category, nameOf, Expenses.Amount)
    {
      assert top[i] in multiset(top);
      var gi :| 0 <= gi < |groups| && groups[gi] == top[i];
      assert groups[gi].key in Keys(groups);
    }
  }

  lemma TopKeysDistinct(groups: seq<Group>, top: seq<Group>, shares: seq<Share>, total: int)
    requires DistinctKeys(groups)
    requires multiset(top) <= multiset(groups)
    requires Sorting.Descending(top, GroupAmount)
    requires shares == SharesOf(top, total)
    ensures forall i, j :: 0 <= i < j < |shares| ==> shares[i].category != shares[j].category && shares[i].amount >= shares[j].amount
  {
    forall i, j | 0 <= i < j < |shares|
      ensures shares[i].category != shares[j].category && shares[i].amount >= shares[j].amount
    {
      TopDistinct(groups, top, i, j);
    }
  }

  lemma LeftOutNotLarger(live: seq<Expense>, nameOf: Expense -> string, groups: seq<Group>, top: seq<Group>,
                         shares: seq<Share>, total: int)
    requires forall k :: k in KeysOf(live, nameOf) ==> k in Keys(groups)
    requires forall i :: 0 <= i < |groups| ==> groups[i].amount == KeyTotal(live, groups[i].key, nameOf, Expenses.Amount)
    requires forall x, i :: x in multiset(groups) - multiset(top) && 0 <= i < |top| ==> x.amount <= top[i].amount
    requires shares == SharesOf(top, total)
    ensures forall x, i :: x in KeysOf(live, nameOf) && 0 <= i < |shares| && (forall j :: 0 <= j < |shares| ==> shares[j].category != x)
                           ==> KeyTotal(live, x, nameOf, Expenses.Amount) <= shares[i].amount
  {
    forall x, i | x in KeysOf(live, nameOf) && 0 <= i < |shares| && (forall j :: 0 <= j < |shares| ==> shares[j].category != x)
      ensures KeyTotal(live, x, nameOf, Expenses.Amount) <= shares[i].amount
    {
      assert x in Keys(groups);
      var gi :| 0 <= gi < |groups| && groups[gi].key == x;
      LeftOutGroup(groups, top, gi, i, shares, total);
    }
  }

  lemma LeftOutGroup(groups: seq<Group>, top: seq<Group>, gi: int, i: int, shares: seq<Share>, total: int)
    requires 0 <= gi < |groups| && 0 <= i < |top|
    requires forall x, i :: x in multiset(groups) - multiset(top) && 0 <= i < |top| ==> x.amount <= top[i].amount
    requires shares == SharesOf(top, total)
    requires forall j :: 0 <= j < |shares| ==> shares[j].category != groups[gi].key
    ensures groups[gi].amount <= top[i].amount
  {
    var gx := groups[gi];
    assert gx !in top by {
      forall j | 0 <= j < |top| ensures top[j] != gx {
        assert shares[j].category == top[j].key;
      }
    }
    assert gx in multiset(groups);
    assert gx in multiset(groups) - multiset(top);
  }

  /** Two positions of the top list hold different groups of a grouping, hence
      different keys. */
  lemma TopDistinct(groups: seq<Group>, top: seq<Group>, i: int, j: int)
    requires DistinctKeys(groups)
    requires multiset(top) <= multiset(groups)
    requires 0 <= i < j < |top|
    ensures top[i].key != top[j].key
  {
    assert top[i] in multiset(top) && top[j] in multiset(top);
    var a :| 0 <= a < |groups| && groups[a] == top[i];
    var b :| 0 <= b < |groups| && groups[b] == top[j];
    if a == b {
      MultisetTwice(top, i, j);
      DistinctKeysOnce(groups, a);
    }
  }

  /** An element at two positions occurs at least twice. */
  lemma MultisetTwice<T>(s: seq<T>, i: int, j: int)
    requires 0 <= i < j < |s| && s[i] == s[j]
    ensures multiset(s)[s[i]] >= 2
  {
    assert s == s[..i] + [s[i]] + s[i + 1..];
    assert s[i + 1..][j - i - 1] == s[j];
    assert multiset(s)[s[i]] == multiset(s[..i])[s[i]] + 1 + multiset(s[i + 1..])[s[i]];
  }

  /** In a grouping with distinct keys each group occurs once. */
  lemma DistinctKeysOnce(groups: seq<Group>, a: int)
    requires DistinctKeys(groups)
    requires 0 <= a < |groups|
    ensures multiset(groups)[groups[a]] == 1
  {
    var g := groups[a];
    assert groups == groups[..a] + [g] + groups[a + 1..];
    assert g !in groups[..a] by {
      forall x | x in groups[..a] ensures x != g {
        var b :| 0 <= b < a && groups[..a][b] == x;
        assert groups[b].key != g.key;
      }
    }
    var tail := groups[a + 1..];
    assert g !in tail by {
      forall x | x in tail ensures x != g {
        var b :| 0 <= b < |tail| && tail[b] == x;
        assert groups[a + 1 + b].key != g.key;
      }
    }
  }

  /** The percentages that are finite numbers, added up. */
  function PercentSum(shares: seq<Share>): real {
    if |shares| == 0 then 0.0
    else (if shares[0].percentage.Finite? then shares[0].percentage.value else 0.0) + PercentSum(shares[1..])
  }

  /** Percentages of a non-zero total add up like the amounts they are taken of. */
  lemma {:induction false} PercentSumLinear(shares: seq<Share>, total: int)
    requires total != 0
    requires forall i :: 0 <= i < |shares| ==> shares[i].percentage == Percentage(shares[i].amount, total)
    ensures PercentSum(shares) * (total as real) == (SumOf(shares, ShareAmount) as real) * 100.0
  {
    if |shares| > 0 {
      PercentSumLinear(shares[1..], total);
      var p := shares[0].percentage.value;
      assert p * (total as real) == (shares[0].amount as real) * 100.0;
      assert PercentSum(shares) * (total as real) == p * (total as real) + PercentSum(shares[1..]) * (total as real);
    }
  }

  /** With non-negative amounts and a positive total, the percentages of the
      per-category report add up to exactly 100 (before rounding to two
      decimals): either "Other" carries the remainder, or there is none. */
  lemma PercentagesSumTo100(live: seq<Expense>, categories: seq<Categories.Category>)
    requires forall e :: e in live ==> e.amount >= 0
    requires SumOf(live, Expenses.Amount) > 0
    ensures PercentSum(BreakdownOf(live, categories).shares) == 100.0
  {
    var b := BreakdownOf(live, categories);
    var n := |CategoryTotals(live, categories)|;
    var k := if n < TopCount then n else TopCount;
    NothingHidden(live, categories);
    SpecRemainder(live, categories, b, k);
    SharesAddUp(b.shares, k, b.totalExpense);
    SpecPercentages(live, categories, b);
    PercentSumOfWhole(b.shares, b.totalExpense);
  }

  /** Shares that make up a non-zero total have percentages adding up to 100. */
  lemma PercentSumOfWhole(shares: seq<Share>, total: int)
    requires total != 0 && SumOf(shares, ShareAmount) == total
    requires forall i :: 0 <= i < |shares| ==> shares[i].percentage == Percentage(shares[i].amount, total)
    ensures PercentSum(shares) == 100.0
  {
    PercentSumLinear(shares, total);
    CancelFactor(PercentSum(shares), total as real, SumOf(shares, ShareAmount) as real);
  }

  lemma CancelFactor(x: real, t: real, s: real)
    requires t != 0.0 && s == t && x * t == s * 100.0
    ensures x == 100.0
  {
    assert (x - 100.0) * t == 0.0;
  }

  /** The parts of the report's description that say how the rest is shown. */
  lemma SpecRemainder(live: seq<Expense>, categories: seq<Categories.Category>, b: Breakdown, k: nat)
    requires BreakdownSpec(live, categories, b)
    requires var n := |CategoryTotals(live, categories)|; k == if n < TopCount then n else TopCount
    ensures |b.shares| == k || |b.shares| == k + 1
    ensures |b.shares| == k + 1 <==> b.totalExpense - SumOf(b.shares[..k], ShareAmount) > 0
    ensures |b.shares| == k + 1 ==> b.shares[k].amount == b.totalExpense - SumOf(b.shares[..k], ShareAmount)
    ensures b.totalExpense == SumOf(live, Expenses.Amount)
  {
  }

  /** The part of the report's description that says how percentages are taken. */
  lemma SpecPercentages(live: seq<Expense>, categories: seq<Categories.Category>, b: Breakdown)
    requires BreakdownSpec(live, categories, b)
    ensures forall i :: 0 <= i < |b.shares| ==> b.shares[i].percentage == Percentage(b.shares[i].amount, b.totalExpense)
  {
  }

  /** When nothing is left over below zero, the shares add up to the total. */
  lemma SharesAddUp(shares: seq<Share>, k: nat, total: int)
    requires |shares| == k || |shares| == k + 1
    requires total - SumOf(shares[..k], ShareAmount) >= 0
    requires |shares| == k + 1 <==> total - SumOf(shares[..k], ShareAmount) > 0
    requires |shares| == k + 1 ==> shares[k].amount == total - SumOf(shares[..k], ShareAmount)
    ensures SumOf(shares, ShareAmount) == total
  {
    if |shares| == k + 1 {
      assert shares == shares[..k] + [shares[k]];
      SumAppend(shares[..k], [shares[k]], ShareAmount);
    } else {
      assert shares == shares[..k];
    }
  }

  /** With non-negative amounts the categories left out of the top five never
      total less than zero. */
  lemma NothingHidden(live: seq<Expense>, categories: seq<Categories.Category>)
    requires forall e :: e in live ==> e.amount >= 0
    ensures var b := BreakdownOf(live, categories);
            var n := |CategoryTotals(live, categories)|;
            var k := if n < TopCount then n else TopCount;
            b.totalExpense - SumOf(b.shares[..k], ShareAmount) >= 0
  {
    var nameOf := CategoryNameOf(categories);
    var groups := CategoryTotals(live, categories);
    var total := SumOf(live, Expenses.Amount);
    var sorted := Sorting.SortDescending(groups, GroupAmount);
    var top := Sorting.TopBy(groups, GroupAmount, TopCount);
    var rest := sorted[|top|..];
    OtherIsRemainder(groups, sorted, top, rest, total, live, nameOf);
    forall i | 0 <= i < |rest|
      ensures rest[i].amount >= 0
    {
      assert rest[i] in multiset(sorted) by { assert rest[i] == sorted[|top| + i]; }
      var gi :| 0 <= gi < |groups| && groups[gi] == rest[i];
      KeyTotalNonNegative(live, groups[gi].key, nameOf, Expenses.Amount);
    }
    SumNonNegative(rest, GroupAmount);
  }

  /** No expenses: no shares and a zero total. */
  lemma EmptyBreakdown(categories: seq<Categories.Category>)
    ensures BreakdownOf([], categories) == Breakdown([], 0)
  {
    var b := BreakdownOf([], categories);
    assert CategoryTotals([], categories) == [];
  }

  // ---------------------------------------------------------------------
  // Per-day series

  datatype DayTotal = DayTotal(day: string, amount: int)

  function DayTotalAmount(d: DayTotal): int {
    d.amount
  }

  /** The long weekday name of an expense's date. */
  function WeekdayOf(e: Expense): string {
    WeekdayName(e.date)
  }

  /** From the same time of day six days ago up to now. */
  function SixDayWindow(now: Timestamp): Window {
    Window(now - 6 * MsPerDay, now)
  }

  /** The live expenses the per-day query returns. */
  function WeekExpenses(live: seq<Expense>, now: Timestamp): seq<Expense> {
    Filter(live, (e: Expense) => InWindow(SixDayWindow(now), e.date))
  }

  /** The names of the seven days ending on day `today`, oldest first. */
  function LastSevenDayNames(today: int): (names: seq<string>)
    ensures |names| == 7
    ensures forall k :: 0 <= k < 7 ==> names[k] == WeekdayNameOfDay(today - 6 + k)
  {
    seq(7, k => WeekdayNameOfDay(today - 6 + k))
  }

  /** Seven consecutive days have seven different names. */
  lemma LastSevenDayNamesDistinct(today: int)
    ensures Distinct(LastSevenDayNames(today))
  {
    var names := LastSevenDayNames(today);
    forall i, j | 0 <= i < j < 7
      ensures names[i] != names[j]
    {
      WeekdaysDistinct(today - 6, i, j);
      assert today - 6 + i == (today - 6) + i && today - 6 + j == (today - 6) + j;
      WeekdayNamesInjective(Weekday(today - 6 + i), Weekday(today - 6 + j));
    }
  }

  /** One entry per name, with the amount found in the grouping or 0. */
  function Fill(names: seq<string>, g: seq<Group>): (r: seq<DayTotal>)
    ensures |r| == |names|
    ensures forall k :: 0 <= k < |names| ==> r[k] == DayTotal(names[k], Lookup(g, names[k]))
  {
    if |names| == 0 then [] else [DayTotal(names[0], Lookup(g, names[0]))] + Fill(names[1..], g)
  }

  /** GET /api/home/per-day: one entry for each of the last seven days, oldest
      first and ending today, each with the total of that weekday's expenses in
      the window and 0 for a day without any. */
  function PerDayExpense(store: seq<Expense>, caller: Option<Id>, now: Timestamp): (r: Reply<seq<DayTotal>>)
    ensures r.Err? <==> !Truthy(caller)
    ensures r.Err? ==> r.status == Unauthorized
    ensures r.Ok? ==> var w := WeekExpenses(Live(store, caller.value), now);
                      && r.status == OK && |r.data| == 7
                      && (forall k :: 0 <= k < 7 ==> r.data[k].day == WeekdayNameOfDay(DayOf(now) - 6 + k))
                      && r.data[6].day == WeekdayName(now)
                      && (forall i, j :: 0 <= i < j < 7 ==> r.data[i].day != r.data[j].day)
                      && (forall k :: 0 <= k < 7 ==> r.data[k].amount == KeyTotal(w, r.data[k].day, WeekdayOf, Expenses.Amount))
                      && (forall k :: 0 <= k < 7 && r.data[k].day !in KeysOf(w, WeekdayOf) ==> r.data[k].amount == 0)
                      && SumOf(r.data, DayTotalAmount) == SumOf(w, Expenses.Amount)
  {
    if !Truthy(caller) then Err(Unauthorized)
    else
      var w := WeekExpenses(Live(store, caller.value), now);
      var names := LastSevenDayNames(DayOf(now));
      var days := Fill(names, DayGroups(w));
      LastSevenDayNamesDistinct(DayOf(now));
      PerDayAmounts(w, names);
      WeekdaysCovered(w, now, names);
      FillSum(names, w);
      KeyTotalsCover(names, w, WeekdayOf, Expenses.Amount);
      Ok(OK, days)
  }

  /** The per-weekday grouping of the window's expenses. */
  function DayGroups(w: seq<Expense>): seq<Group> {
    GroupBy(w, WeekdayOf, Expenses.Amount)
  }

  lemma PerDayAmounts(w: seq<Expense>, names: seq<string>)
    ensures forall k :: 0 <= k < |names| ==> Fill(names, DayGroups(w))[k].amount == KeyTotal(w, names[k], WeekdayOf, Expenses.Amount)
    ensures forall k :: 0 <= k < |names| && names[k] !in KeysOf(w, WeekdayOf) ==> Fill(names, DayGroups(w))[k].amount == 0
  {
    var days := Fill(names, DayGroups(w));
    forall k | 0 <= k < |names|
      ensures days[k].amount == KeyTotal(w, names[k], WeekdayOf, Expenses.Amount)
      ensures names[k] !in KeysOf(w, WeekdayOf) ==> days[k].amount == 0
    {
      LookupGroupBy(w, names[k], WeekdayOf, Expenses.Amount);
      if names[k] !in KeysOf(w, WeekdayOf) {
        KeyTotalAbsent(w, names[k], WeekdayOf, Expenses.Amount);
      }
    }
  }

  /** Every expense in the window falls on one of the seven named days. */
  lemma WeekdaysCovered(w: seq<Expense>, now: Timestamp, names: seq<string>)
    requires forall i :: 0 <= i < |w| ==> InWindow(SixDayWindow(now), w[i].date)
    requires names == LastSevenDayNames(DayOf(now))
    ensures forall i :: 0 <= i < |w| ==> WeekdayOf(w[i]) in names
  {
    DayOfShift(now, -6);
    forall i | 0 <= i < |w|
      ensures WeekdayOf(w[i]) in names
    {
      var t := w[i].date;
      DayOfMonotone(now + (-6) * MsPerDay, t);
      DayOfMonotone(t, now);
      var k := DayOf(t) - (DayOf(now) - 6);
      assert 0 <= k < 7;
      assert names[k] == WeekdayNameOfDay(DayOf(t));
    }
  }

  /** The filled entries add up to the totals of their names. */
  lemma {:induction false} FillSum(names: seq<string>, w: seq<Expense>)
    ensures SumOf(Fill(names, DayGroups(w)), DayTotalAmount) == SumKeyTotals(names, w, WeekdayOf, Expenses.Amount)
  {
    if |names| > 0 {
      var g := DayGroups(w);
      FillSum(names[1..], w);
      LookupGroupBy(w, names[0], WeekdayOf, Expenses.Amount);
      assert Fill(names, g)[1..] == Fill(names[1..], g);
    }
  }

  // ---------------------------------------------------------------------
  // How the reports relate

  /** The total is what the per-month report adds up to; with non-negative
      amounts, this month, last month and the last seven days each account for
      no more than the total. */
  lemma ReportsAgree(store: seq<Expense>, caller: Option<Id>, now: Timestamp)
    requires Truthy(caller)
    ensures TotalExpenses(store, caller).data == SumOf(PerMonthExpense(store, caller).data, GroupAmount)
    ensures (forall e :: e in store ==> e.amount >= 0) ==>
              var total := TotalExpenses(store, caller).data;
              var m := MonthlyExpense(store, caller, now).data;
              && 0 <= m.thisMonthAmount <= total
              && 0 <= m.lastMonthAmount <= total
              && 0 <= SumOf(PerDayExpense(store, caller, now).data, DayTotalAmount) <= total
  {
    var live := Live(store, caller.value);
    if forall e :: e in store ==> e.amount >= 0 {
      assert forall i :: 0 <= i < |live| ==> Expenses.Amount(live[i]) >= 0 by {
        forall i | 0 <= i < |live| ensures Expenses.Amount(live[i]) >= 0 {
          assert live[i] in store;
        }
      }
      var c := CivilOf(DayOf(now));
      var p := PreviousMonth(c.year, c.month);
      SumFilterBounded(live, (e: Expense) => CountedInMonth(e.date, c.year, c.month), Expenses.Amount);
      SumFilterBounded(live, (e: Expense) => CountedInMonth(e.date, p.0, p.1), Expenses.Amount);
      SumFilterBounded(live, (e: Expense) => InWindow(SixDayWindow(now), e.date), Expenses.Amount);
    }
  }
}

=== FILE: expenses.dfy ===
/**
 * The expense store behind controllers/expenseController.js: an owner-checked,
 * soft-delete collection of expense records. Each handler maps the store and
 * the request to the new store and the reply.
 */
module Expenses {
  import opened Common
  import Calendar

  datatype Expense = Expense(
    id: Id,
    userId: Id,
    title: string,
    amount: int,
    category: Id,
    note: Option<string>,
    date: Calendar.Timestamp,
    isDel: bool)

  function Amount(e: Expense): int {
    e.amount
  }

  function DateOf(e: Expense): int {
    e.date
  }

  /** The query filter `{ user_id: userId, is_del: false }`. */
  predicate LiveFor(e: Expense, uid: Id) {
    e.userId == uid && !e.isDel
  }

  /** The owner's non-deleted expenses, in store order. */
  function OwnerLive(store: seq<Expense>, uid: Id): (r: seq<Expense>)
    ensures forall e :: e in r <==> e in store && LiveFor(e, uid)
  {
    Filter(store, e => LiveFor(e, uid))
  }

  /** A number used as a boolean: absent and 0 are falsy. */
  predicate AmountTruthy(a: Option<int>) {
    a.Some? && a.value != 0
  }

  predicate IsHexDigit(c: char) {
    '0' <= c <= '9' || 'a' <= c <= 'f' || 'A' <= c <= 'F'
  }

  /** `mongoose.Types.ObjectId.isValid` on a string: 24 hexadecimal digits. */
  predicate IsValidObjectId(s: string) {
    |s| == 24 && forall i :: 0 <= i < |s| ==> IsHexDigit(s[i])
  }

  /** GET /api/expenses: the caller's live expenses; an empty list is still a success. */
  function GetAllExpenses(store: seq<Expense>, caller: Option<Id>): (r: Reply<seq<Expense>>)
    ensures r.Err? <==> !Truthy(caller) || !IsValidObjectId(caller.value)
    ensures r.Err? ==> r.status == BadRequest
    ensures r.Ok? ==> r.status == OK
    ensures r.Ok? ==> forall e :: e in r.data <==> e in store && e.userId == caller.value && !e.isDel
  {
    if !Truthy(caller) || !IsValidObjectId(caller.value) then Err(BadRequest)
    else Ok(OK, OwnerLive(store, caller.value))
  }

  datatype ExpenseInput = ExpenseInput(
    title: Option<string>,
    amount: Option<int>,
    category: Option<Id>,
    note: Option<string>,
    date: Calendar.Timestamp)

  /** POST /api/expenses/add: authentication is checked before the fields, and
      an amount of 0 counts as missing. */
  function AddExpense(store: seq<Expense>, caller: Option<Id>, input: ExpenseInput, newId: Id): (r: (seq<Expense>, Reply<Expense>))
    ensures !Truthy(caller) ==> r.1 == Err(Unauthorized)
    ensures Truthy(caller) && (!Truthy(input.title) || !AmountTruthy(input.amount) || !Truthy(input.category)) ==> r.1 == Err(BadRequest)
    ensures r.1.Err? ==> r.0 == store
    ensures r.1.Ok? ==> r.1.status == Created && r.0 == store + [r.1.data]
    ensures r.1.Ok? ==> && r.1.data.id == newId && r.1.data.userId == caller.value && !r.1.data.isDel
                        && r.1.data.title == input.title.value && r.1.data.amount == input.amount.value
                        && r.1.data.category == input.category.value && r.1.data.note == input.note
                        && r.1.data.date == input.date && r.1.data.amount != 0
    ensures r.1.Ok? <==> Truthy(caller) && Truthy(input.title) && AmountTruthy(input.amount) && Truthy(input.category)
  {
    if !Truthy(caller) then (store, Err(Unauthorized))
    else if !Truthy(input.title) || !AmountTruthy(input.amount) || !Truthy(input.category) then (store, Err(BadRequest))
    else
      var e := Expense(newId, caller.value, input.title.value, input.amount.value, input.category.value, input.note, input.date, false);
      (store + [e], Ok(Created, e))
  }

  /** `Expense.findById(id)`: the first record with that id, deleted or not. */
  function FindById(store: seq<Expense>, expenseId: Id): (r: Option<nat>)
    ensures r.Some? ==> r.value < |store| && store[r.value].id == expenseId
    ensures r.None? <==> forall i :: 0 <= i < |store| ==> store[i].id != expenseId
  {
    FirstWhere(store, (e: Expense) => e.id == expenseId)
  }

  /** GET /api/expenses/:expenseId: any existing id is returned, whoever owns it
      and whether or not it is deleted. */
  function GetExpenseById(store: seq<Expense>, caller: Option<Id>, expenseId: Id): (r: Reply<Expense>)
    ensures r.Ok? <==> exists i :: 0 <= i < |store| && store[i].id == expenseId
    ensures r.Ok? ==> r.status == OK && r.data in store && r.data.id == expenseId
    ensures r.Err? ==> r.status == NotFound
  {
    match FindById(store, expenseId)
    case None => Err(NotFound)
    case Some(i) => Ok(OK, store[i])
  }

  datatype ExpenseUpdate = ExpenseUpdate(
    title: Option<string>,
    amount: Option<int>,
    category: Option<Id>,
    note: Patch<string>,
    date: Option<Calendar.Timestamp>)

  /** The fields an update writes; a field absent from the request is left as
      it was, and a `null` note clears the note. */
  function ApplyUpdate(e: Expense, u: ExpenseUpdate): (e': Expense)
    requires u.title.Some? && u.amount.Some? && u.category.Some?
    ensures e'.id == e.id && e'.userId == e.userId && e'.isDel == e.isDel
    ensures e'.title == u.title.value && e'.amount == u.amount.value && e'.category == u.category.value
    ensures u.note.Absent? ==> e'.note == e.note
    ensures u.note.Null? ==> e'.note == None
    ensures u.note.Given? ==> e'.note == Some(u.note.value)
    ensures e'.date == (if u.date.Some? then u.date.value else e.date)
  {
    e.(title := u.title.value, amount := u.amount.value, category := u.category.value,
       note := Patched(e.note, u.note),
       date := if u.date.Some? then u.date.value else e.date)
  }

  /** The check that opens an update: a required field or the user id is falsy. */
  predicate MissingUpdateFields(caller: Option<Id>, u: ExpenseUpdate) {
    !Truthy(u.title) || !AmountTruthy(u.amount) || !Truthy(u.category) || !Truthy(caller)
  }

  /** PUT /api/expenses/update/:expenseId: missing field or user → 400, then
      unknown id → 404, then another owner's record → 403, and only then the
      update. Deleted records can be updated. */
  function UpdateExpense(store: seq<Expense>, caller: Option<Id>, expenseId: Id, u: ExpenseUpdate): (r: (seq<Expense>, Reply<Expense>))
    ensures MissingUpdateFields(caller, u) <==> r.1 == Err(BadRequest)
    ensures r.1 == Err(NotFound) <==> !MissingUpdateFields(caller, u) && FindById(store, expenseId).None?
    ensures r.1 == Err(Forbidden) <==> && !MissingUpdateFields(caller, u) && FindById(store, expenseId).Some?
                                       && store[FindById(store, expenseId).value].userId != caller.value
    ensures r.1.Ok? <==> && !MissingUpdateFields(caller, u) && FindById(store, expenseId).Some?
                         && store[FindById(store, expenseId).value].userId == caller.value
    ensures r.1.Err? ==> r.0 == store
    ensures r.1.Ok? ==> r.1.status == OK
    ensures r.1.Ok? ==> exists i :: 0 <= i < |store| && store[i].id == expenseId && store[i].userId == caller.value
                                  && r.0 == store[i := r.1.data] && r.1.data == ApplyUpdate(store[i], u)
  {
    if MissingUpdateFields(caller, u) then (store, Err(BadRequest))
    else match FindById(store, expenseId)
      case None => (store, Err(NotFound))
      case Some(i) =>
        if store[i].userId != caller.value then (store, Err(Forbidden))
        else
          var e' := ApplyUpdate(store[i], u);
          (store[i := e'], Ok(OK, e'))
  }

  /** DELETE /api/expenses/delete/:expenseId: unknown id → 404, another owner's
      record → 403, otherwise `is_del` is set and the record stays. A request
      without a user id fails on `userId.toString()` → 500. */
  function DeleteExpense(store: seq<Expense>, caller: Option<Id>, expenseId: Id): (r: (seq<Expense>, Reply<()>))
    ensures r.1 == Err(NotFound) <==> forall i :: 0 <= i < |store| ==> store[i].id != expenseId
    ensures r.1.Err? ==> r.0 == store
    ensures r.1.Ok? ==> r.1.status == OK && caller.Some?
    ensures r.1.Ok? ==> exists i :: 0 <= i < |store| && store[i].id == expenseId && store[i].userId == caller.value
                                  && r.0 == store[i := store[i].(isDel := true)]
    ensures r.1 == Err(ServerError) <==> caller.None? && FindById(store, expenseId).Some?
    ensures r.1 == Err(Forbidden) <==> && caller.Some? && FindById(store, expenseId).Some?
                                       && store[FindById(store, expenseId).value].userId != caller.value
    ensures r.1.Ok? <==> && caller.Some? && FindById(store, expenseId).Some?
                         && store[FindById(store, expenseId).value].userId == caller.value
  {
    match FindById(store, expenseId)
    case None => (store, Err(NotFound))
    case Some(i) =>
      if caller.None? then (store, Err(ServerError))
      else if store[i].userId != caller.value then (store, Err(Forbidden))
      else (store[i := store[i].(isDel := true)], Ok(OK, ()))
  }

  /** Deleting keeps the record: it can still be fetched by id, now flagged. */
  lemma DeleteKeepsRecord(store: seq<Expense>, caller: Option<Id>, expenseId: Id)
    requires DeleteExpense(store, caller, expenseId).1.Ok?
    ensures |DeleteExpense(store, caller, expenseId).0| == |store|
    ensures GetExpenseById(DeleteExpense(store, caller, expenseId).0, caller, expenseId).Ok?
    ensures GetExpenseById(DeleteExpense(store, caller, expenseId).0, caller, expenseId).data.isDel
  {
    var i := FindById(store, expenseId).value;
    var s' := DeleteExpense(store, caller, expenseId).0;
    assert s'[i].id == expenseId;
    assert FindById(s', expenseId) == Some(i) by {
      assert forall j :: 0 <= j < i ==> s'[j] == store[j];
    }
  }

  /** A deleted expense disappears from its owner's list. */
  lemma DeleteHidesFromList(store: seq<Expense>, caller: Option<Id>, expenseId: Id)
    requires forall i, j :: 0 <= i < j < |store| ==> store[i].id != store[j].id
    requires DeleteExpense(store, caller, expenseId).1.Ok?
    requires Truthy(caller) && IsValidObjectId(caller.value)
    ensures forall e :: e in GetAllExpenses(DeleteExpense(store, caller, expenseId).0, caller).data ==> e.id != expenseId
  {
    var s' := DeleteExpense(store, caller, expenseId).0;
    var i := FindById(store, expenseId).value;
    forall e | e in GetAllExpenses(s', caller).data
      ensures e.id != expenseId
    {
      var j :| 0 <= j < |s'| && s'[j] == e;
      if j != i {
        assert store[j].id != store[i].id;
      }
    }
  }

  /** Soft delete does not look at `is_del`: deleting twice succeeds twice and
      leaves the same store. */
  lemma DeleteTwice(store: seq<Expense>, caller: Option<Id>, expenseId: Id)
    requires DeleteExpense(store, caller, expenseId).1.Ok?
    ensures DeleteExpense(DeleteExpense(store, caller, expenseId).0, caller, expenseId).1.Ok?
    ensures DeleteExpense(DeleteExpense(store, caller, expenseId).0, caller, expenseId).0
         == DeleteExpense(store, caller, expenseId).0
  {
    var i := FindById(store, expenseId).value;
    var s' := DeleteExpense(store, caller, expenseId).0;
    assert FindById(s', expenseId) == Some(i) by {
      assert s'[i].id == expenseId;
      assert forall j :: 0 <= j < i ==> s'[j] == store[j];
    }
  }

  /** After a successful update, fetching by id returns the written fields and
      the untouched owner and deletion flag. */
  lemma UpdateThenGet(store: seq<Expense>, caller: Option<Id>, expenseId: Id, u: ExpenseUpdate)
    requires UpdateExpense(store, caller, expenseId, u).1.Ok?
    ensures var got := GetExpenseById(UpdateExpense(store, caller, expenseId, u).0, caller, expenseId);
            && got.Ok?
            && got.data.title == u.title.value && got.data.amount == u.amount.value
            && got.data.category == u.category.value
            && (u.note.Absent? ==> got.data.note == store[FindById(store, expenseId).value].note)
            && (u.note.Null? ==> got.data.note == None)
            && (u.note.Given? ==> got.data.note == Some(u.note.value))
            && got.data.userId == caller.value
            && got.data.isDel == store[FindById(store, expenseId).value].isDel
  {
    var i := FindById(store, expenseId).value;
    var s' := UpdateExpense(store, caller, expenseId, u).0;
    assert FindById(s', expenseId) == Some(i) by {
      assert s'[i].id == expenseId;
      assert forall j :: 0 <= j < i ==> s'[j] == store[j];
    }
  }

  /** A new expense under a fresh id is fetched by that id, and it is listed
      for its owner. */
  lemma AddThenGet(store: seq<Expense>, caller: Option<Id>, input: ExpenseInput, newId: Id)
    requires forall e :: e in store ==> e.id != newId
    requires AddExpense(store, caller, input, newId).1.Ok?
    ensures var r := AddExpense(store, caller, input, newId);
            GetExpenseById(r.0, caller, newId) == Ok(OK, r.1.data)
    ensures var r := AddExpense(store, caller, input, newId);
            IsValidObjectId(caller.value) ==> r.1.data in GetAllExpenses(r.0, caller).data
  {
    var r := AddExpense(store, caller, input, newId);
    assert r.0[|store|] == r.1.data;
    assert FindById(r.0, newId) == Some(|store|) by {
      assert forall j :: 0 <= j < |store| ==> r.0[j] == store[j];
    }
  }
}

=== FILE: grouping.dfy ===
/**
 * Grouping by a string key, as the dashboard does with plain JavaScript
 * objects: `if (!acc[k]) acc[k] = 0; acc[k] += amount` over the records in
 * order, then `Object.keys`/`Object.entries`. The object is an association
 * list here, kept in insertion order.
 */
module Grouping {
  import opened Common

  datatype Group = Group(key: string, amount: int)

  function GroupAmount(g: Group): int {
    g.amount
  }

  function Keys(g: seq<Group>): (ks: seq<string>)
    ensures |ks| == |g|
    ensures forall i :: 0 <= i < |g| ==> ks[i] == g[i].key
  {
    seq(|g|, i requires 0 <= i < |g| => g[i].key)
  }

  ghost predicate Distinct<T>(s: seq<T>) {
    forall i, j :: 0 <= i < j < |s| ==> s[i] != s[j]
  }

  /** No two groups share a key. */
  ghost predicate DistinctKeys(g: seq<Group>) {
    forall i, j :: 0 <= i < j < |g| ==> g[i].key != g[j].key
  }

  /** The key of every record, in record order. */
  function KeysOf<T>(s: seq<T>, keyOf: T -> string): (ks: seq<string>)
    ensures |ks| == |s|
    ensures forall i :: 0 <= i < |s| ==> ks[i] == keyOf(s[i])
  {
    seq(|s|, i requires 0 <= i < |s| => keyOf(s[i]))
  }

  /** The sum of the amounts of the records whose key is `k`. */
  function KeyTotal<T>(s: seq<T>, k: string, keyOf: T -> string, amt: T -> int): int {
    if |s| == 0 then 0
    else KeyTotal(s[..|s| - 1], k, keyOf, amt) + (if keyOf(s[|s| - 1]) == k then amt(s[|s| - 1]) else 0)
  }

  /** The position where key `k` first occurs. */
  function FirstIndex(xs: seq<string>, k: string): (i: nat)
    requires k in xs
    ensures i < |xs| && xs[i] == k
    ensures forall j :: 0 <= j < i ==> xs[j] != k
  {
    if xs[0] == k then 0 else 1 + FirstIndex(xs[1..], k)
  }

  /** `ks` lists each key of `xs` once, ordered by where it first occurs in `xs`. */
  ghost predicate FirstSeenOrder(ks: seq<string>, xs: seq<string>) {
    && Distinct(ks)
    && (forall k :: k in xs <==> k in ks)
    && forall i, j :: 0 <= i < j < |ks| ==> ks[i] in xs && ks[j] in xs && FirstIndex(xs, ks[i]) < FirstIndex(xs, ks[j])
  }

  /** One step of the fold: add `a` to the group of `k`, opening it at the end when new. */
  function Accumulate(g: seq<Group>, k: string, a: int): (r: seq<Group>)
    requires DistinctKeys(g)
    ensures |r| == if k in Keys(g) then |g| else |g| + 1
    ensures forall i :: 0 <= i < |g| ==> r[i] == Group(g[i].key, g[i].amount + (if g[i].key == k then a else 0))
    ensures |r| > |g| ==> r[|g|] == Group(k, a)
  {
    if |g| == 0 then [Group(k, a)]
    else if g[0].key == k then
      AccumulateHead(g, k);
      [Group(k, g[0].amount + a)] + g[1..]
    else
      var tail := Accumulate(g[1..], k, a);
      KeysCons(g);
      [g[0]] + tail
  }

  /** A key at the head occurs nowhere else. */
  lemma AccumulateHead(g: seq<Group>, k: string)
    requires DistinctKeys(g) && |g| > 0 && g[0].key == k
    ensures k in Keys(g)
    ensures forall i :: 1 <= i < |g| ==> g[i].key != k
  {
    assert Keys(g)[0] == k;
  }

  /** The keys of a non-empty list are its head's key then the tail's keys. */
  lemma KeysCons(g: seq<Group>)
    requires |g| > 0
    ensures Keys(g) == [g[0].key] + Keys(g[1..])
    ensures forall k :: k in Keys(g) <==> k == g[0].key || k in Keys(g[1..])
  {
    assert Keys(g) == [g[0].key] + Keys(g[1..]);
  }

  lemma AccumulateKeys(g: seq<Group>, k: string, a: int)
    requires DistinctKeys(g)
    ensures k in Keys(g) ==> Keys(Accumulate(g, k, a)) == Keys(g)
    ensures k !in Keys(g) ==> Keys(Accumulate(g, k, a)) == Keys(g) + [k]
    ensures DistinctKeys(Accumulate(g, k, a))
  {
  }

  /** Accumulating `a` adds `a` to the grand total. */
  lemma {:induction false} AccumulateSum(g: seq<Group>, k: string, a: int)
    requires DistinctKeys(g)
    ensures SumOf(Accumulate(g, k, a), GroupAmount) == SumOf(g, GroupAmount) + a
  {
    var r := Accumulate(g, k, a);
    if |g| > 0 {
      if g[0].key == k {
        assert r == [Group(k, g[0].amount + a)] + g[1..];
        assert r[1..] == g[1..];
      } else {
        assert Keys(g) == [g[0].key] + Keys(g[1..]);
        var tail := Accumulate(g[1..], k, a);
        assert r == [g[0]] + tail;
        assert r[1..] == tail;
        AccumulateSum(g[1..], k, a);
      }
    }
  }

  lemma FirstIndexOfPrefix(xs: seq<string>, y: string, k: string)
    requires k in xs
    ensures FirstIndex(xs + [y], k) == FirstIndex(xs, k)
  {
    var i := FirstIndex(xs, k);
    var r := FirstIndex(xs + [y], k);
    assert (xs + [y])[i] == k;
  }

  lemma FirstIndexOfNew(xs: seq<string>, y: string)
    requires y !in xs
    ensures FirstIndex(xs + [y], y) == |xs|
  {
    assert (xs + [y])[|xs|] == y;
  }

  /** The insertion-ordered grouping of `s` by `keyOf`, summing `amt`. */
  function GroupBy<T>(s: seq<T>, keyOf: T -> string, amt: T -> int): (g: seq<Group>)
    ensures FirstSeenOrder(Keys(g), KeysOf(s, keyOf))
    ensures DistinctKeys(g)
    ensures forall i :: 0 <= i < |g| ==> g[i].amount == KeyTotal(s, g[i].key, keyOf, amt)
    ensures SumOf(g, GroupAmount) == SumOf(s, amt)
  {
    if |s| == 0 then []
    else
      var p, x := s[..|s| - 1], s[|s| - 1];
      var g0 := GroupBy(p, keyOf, amt);
      var g := Accumulate(g0, keyOf(x), amt(x));
      assert s == p + [x];
      GroupByStep(p, x, keyOf, amt, g0, g);
      g
  }

  /** One more record keeps every property of the fold. */
  lemma GroupByStep<T>(p: seq<T>, x: T, keyOf: T -> string, amt: T -> int, g0: seq<Group>, g: seq<Group>)
    requires FirstSeenOrder(Keys(g0), KeysOf(p, keyOf))
    requires DistinctKeys(g0)
    requires forall i :: 0 <= i < |g0| ==> g0[i].amount == KeyTotal(p, g0[i].key, keyOf, amt)
    requires SumOf(g0, GroupAmount) == SumOf(p, amt)
    requires g == Accumulate(g0, keyOf(x), amt(x))
    ensures FirstSeenOrder(Keys(g), KeysOf(p + [x], keyOf))
    ensures DistinctKeys(g)
    ensures forall i :: 0 <= i < |g| ==> g[i].amount == KeyTotal(p + [x], g[i].key, keyOf, amt)
    ensures SumOf(g, GroupAmount) == SumOf(p + [x], amt)
  {
    AccumulateKeys(g0, keyOf(x), amt(x));
    AccumulateSum(g0, keyOf(x), amt(x));
    GroupStep(p, x, keyOf, g0, g);
    GroupAmounts(p, x, keyOf, amt, g0, g);
    SumAppend(p, [x], amt);
  }

  lemma KeyTotalSnoc<T>(p: seq<T>, x: T, k: string, keyOf: T -> string, amt: T -> int)
    ensures KeyTotal(p + [x], k, keyOf, amt) == KeyTotal(p, k, keyOf, amt) + (if keyOf(x) == k then amt(x) else 0)
  {
    assert (p + [x])[..|p|] == p;
  }

  /** Adding one record to the fold keeps each group's amount its key total. */
  lemma GroupAmounts<T>(p: seq<T>, x: T, keyOf: T -> string, amt: T -> int, g0: seq<Group>, g: seq<Group>)
    requires DistinctKeys(g0)
    requires forall k :: k in KeysOf(p, keyOf) ==> k in Keys(g0)
    requires forall i :: 0 <= i < |g0| ==> g0[i].amount == KeyTotal(p, g0[i].key, keyOf, amt)
    requires g == Accumulate(g0, keyOf(x), amt(x))
    ensures forall i :: 0 <= i < |g| ==> g[i].amount == KeyTotal(p + [x], g[i].key, keyOf, amt)
  {
    forall i | 0 <= i < |g|
      ensures g[i].amount == KeyTotal(p + [x], g[i].key, keyOf, amt)
    {
      KeyTotalSnoc(p, x, g[i].key, keyOf, amt);
      if i == |g0| {
        KeyTotalAbsent(p, keyOf(x), keyOf, amt);
      }
    }
  }

  /** Adding one record to the fold keeps the keys in first-seen order. */
  lemma GroupStep<T>(p: seq<T>, x: T, keyOf: T -> string, g0: seq<Group>, g: seq<Group>)
    requires FirstSeenOrder(Keys(g0), KeysOf(p, keyOf))
    requires keyOf(x) in Keys(g0) ==> Keys(g) == Keys(g0)
    requires keyOf(x) !in Keys(g0) ==> Keys(g) == Keys(g0) + [keyOf(x)]
    ensures FirstSeenOrder(Keys(g), KeysOf(p + [x], keyOf))
  {
    var xs, k := KeysOf(p, keyOf), keyOf(x);
    assert KeysOf(p + [x], keyOf) == xs + [k];
    var ks0, ks := Keys(g0), Keys(g);
    forall i | 0 <= i < |ks0|
      ensures FirstIndex(xs + [k], ks0[i]) == FirstIndex(xs, ks0[i])
    {
      FirstIndexOfPrefix(xs, k, ks0[i]);
    }
    if k !in ks0 {
      FirstIndexOfNew(xs, k);
      forall i, j | 0 <= i < j < |ks|
        ensures ks[i] in xs + [k] && ks[j] in xs + [k] && FirstIndex(xs + [k], ks[i]) < FirstIndex(xs + [k], ks[j])
      {
        if j == |ks0| {
          assert FirstIndex(xs + [k], ks[i]) == FirstIndex(xs, ks0[i]) < |xs|;
        } else {
          assert ks[i] == ks0[i] && ks[j] == ks0[j];
        }
      }
    }
  }

  lemma KeyTotalAbsent<T>(s: seq<T>, k: string, keyOf: T -> string, amt: T -> int)
    requires k !in KeysOf(s, keyOf)
    ensures KeyTotal(s, k, keyOf, amt) == 0
  {
    if |s| > 0 {
      assert KeysOf(s[..|s| - 1], keyOf) == KeysOf(s, keyOf)[..|s| - 1];
      KeyTotalAbsent(s[..|s| - 1], k, keyOf, amt);
    }
  }

  /** The amount of the group of `k`, or 0 when there is none: `acc[k] || 0`. */
  function Lookup(g: seq<Group>, k: string): int {
    if |g| == 0 then 0 else if g[0].key == k then g[0].amount else Lookup(g[1..], k)
  }

  /** Looking a key up in a grouping gives that key's total, and 0 for a key
      no record has. */
  lemma LookupGroupBy<T>(s: seq<T>, k: string, keyOf: T -> string, amt: T -> int)
    ensures Lookup(GroupBy(s, keyOf, amt), k) == KeyTotal(s, k, keyOf, amt)
  {
    var g := GroupBy(s, keyOf, amt);
    LookupFinds(g, k);
    if k !in Keys(g) {
      KeyTotalAbsent(s, k, keyOf, amt);
    }
  }

  lemma {:induction false} LookupFinds(g: seq<Group>, k: string)
    ensures k !in Keys(g) ==> Lookup(g, k) == 0
    ensures forall i :: 0 <= i < |g| && g[i].key == k && (forall j :: 0 <= j < i ==> g[j].key != k) ==> Lookup(g, k) == g[i].amount
  {
    if |g| > 0 {
      assert Keys(g) == [g[0].key] + Keys(g[1..]);
      LookupFinds(g[1..], k);
      forall i | 0 < i < |g| && g[i].key == k && (forall j :: 0 <= j < i ==> g[j].key != k)
        ensures Lookup(g, k) == g[i].amount
      {
        assert g[1..][i - 1] == g[i];
      }
    }
  }

  /** Distinct elements drawn from `universe` are no more than `universe` holds. */
  lemma DistinctBound<T>(s: seq<T>, universe: seq<T>)
    requires Distinct(s)
    requires forall x :: x in s ==> x in universe
    ensures |s| <= |universe|
  {
    DistinctCard(s);
    CardSeq(universe);
    var a := set x | x in s;
    var b := set x | x in universe;
    SubsetCard(a, b);
  }

  lemma {:induction false} SubsetCard<T>(a: set<T>, b: set<T>)
    requires a <= b
    ensures |a| <= |b|
    decreases a
  {
    if a != {} {
      var x :| x in a;
      SubsetCard(a - {x}, b - {x});
    }
  }

  lemma {:induction false} DistinctCard<T>(s: seq<T>)
    requires Distinct(s)
    ensures |set x | x in s| == |s|
  {
    if |s| > 0 {
      DistinctCard(s[1..]);
      assert (set x | x in s) == {s[0]} + (set x | x in s[1..]);
    }
  }

  lemma {:induction false} CardSeq<T>(s: seq<T>)
    ensures |set x | x in s| <= |s|
  {
    if |s| > 0 {
      CardSeq(s[1..]);
      assert (set x | x in s) == {s[0]} + (set x | x in s[1..]);
    }
  }

  /** The key totals of the names in `names`, added up. */
  function SumKeyTotals<T>(names: seq<string>, s: seq<T>, keyOf: T -> string, amt: T -> int): int {
    if |names| == 0 then 0 else KeyTotal(s, names[0], keyOf, amt) + SumKeyTotals(names[1..], s, keyOf, amt)
  }

  lemma {:induction false} SumKeyTotalsStep<T>(names: seq<string>, p: seq<T>, x: T, keyOf: T -> string, amt: T -> int)
    requires Distinct(names)
    ensures SumKeyTotals(names, p + [x], keyOf, amt)
         == SumKeyTotals(names, p, keyOf, amt) + (if keyOf(x) in names then amt(x) else 0)
  {
    if |names| > 0 {
      assert (p + [x])[..|p + [x]| - 1] == p;
      SumKeyTotalsStep(names[1..], p, x, keyOf, amt);
      assert names == [names[0]] + names[1..];
    }
  }

  /** When every record's key is one of `names` and no name repeats, the key
      totals of `names` add up to the total of all records. */
  lemma {:induction false} KeyTotalsCover<T>(names: seq<string>, s: seq<T>, keyOf: T -> string, amt: T -> int)
    requires Distinct(names)
    requires forall i :: 0 <= i < |s| ==> keyOf(s[i]) in names
    ensures SumKeyTotals(names, s, keyOf, amt) == SumOf(s, amt)
  {
    if |s| == 0 {
      ZeroKeyTotals(names, s, keyOf, amt);
    } else {
      var p, x := s[..|s| - 1], s[|s| - 1];
      assert s == p + [x];
      KeyTotalsCover(names, p, keyOf, amt);
      SumKeyTotalsStep(names, p, x, keyOf, amt);
      SumAppend(p, [x], amt);
    }
  }

  lemma {:induction false} ZeroKeyTotals<T>(names: seq<string>, s: seq<T>, keyOf: T -> string, amt: T -> int)
    requires |s| == 0
    ensures SumKeyTotals(names, s, keyOf, amt) == 0
  {
    if |names| > 0 {
      ZeroKeyTotals(names[1..], s, keyOf, amt);
    }
  }

  /** A key total is the sum of the amounts masked to that key. */
  function Masked<T>(k: string, keyOf: T -> string, amt: T -> int): T -> int {
    x => if keyOf(x) == k then amt(x) else 0
  }

  lemma {:induction false} KeyTotalIsMaskedSum<T>(s: seq<T>, k: string, keyOf: T -> string, amt: T -> int)
    ensures KeyTotal(s, k, keyOf, amt) == SumOf(s, Masked(k, keyOf, amt))
  {
    if |s| > 0 {
      var p, x := s[..|s| - 1], s[|s| - 1];
      KeyTotalIsMaskedSum(p, k, keyOf, amt);
      assert s == p + [x];
      SumAppend(p, [x], Masked(k, keyOf, amt));
    }
  }

  /** Reordering the records does not change any key total. */
  lemma KeyTotalPermutation<T>(a: seq<T>, b: seq<T>, k: string, keyOf: T -> string, amt: T -> int)
    requires multiset(a) == multiset(b)
    ensures KeyTotal(a, k, keyOf, amt) == KeyTotal(b, k, keyOf, amt)
  {
    KeyTotalIsMaskedSum(a, k, keyOf, amt);
    KeyTotalIsMaskedSum(b, k, keyOf, amt);
    SumPermutation(a, b, Masked(k, keyOf, amt));
  }

  /** With non-negative amounts every key total is non-negative. */
  lemma {:induction false} KeyTotalNonNegative<T>(s: seq<T>, k: string, keyOf: T -> string, amt: T -> int)
    requires forall i :: 0 <= i < |s| ==> amt(s[i]) >= 0
    ensures KeyTotal(s, k, keyOf, amt) >= 0
  {
    if |s| > 0 {
      KeyTotalNonNegative(s[..|s| - 1], k, keyOf, amt);
    }
  }
}

=== FILE: sorting.dfy ===
/**
 * The `.sort({ key: 1 })`, `.sort({ key: -1 })` and `.limit(n)` steps of the
 * store queries, and the stable `Array.prototype.sort` on category totals.
 * Sorting is a stable insertion sort on an integer key. Where the store
 * leaves the order of equal keys open, the stable order is one admissible
 * answer.
 */
module Sorting {

  /** The keys never decrease along `s`. */
  ghost predicate Ascending<T>(s: seq<T>, key: T -> int) {
    forall i, j :: 0 <= i < j < |s| ==> key(s[i]) <= key(s[j])
  }

  /** The keys never increase along `s`. */
  ghost predicate Descending<T>(s: seq<T>, key: T -> int) {
    forall i, j :: 0 <= i < j < |s| ==> key(s[i]) >= key(s[j])
  }

  /** Inserts `x` in front of the first element whose key is not smaller, so that
      elements with equal keys keep their relative order. */
  function Insert<T>(x: T, s: seq<T>, key: T -> int): (r: seq<T>)
    requires Ascending(s, key)
    ensures Ascending(r, key)
    ensures multiset(r) == multiset{x} + multiset(s)
    ensures forall i :: 0 <= i < |r| ==> r[i] == x || r[i] in s
  {
    if |s| == 0 then [x]
    else if key(x) <= key(s[0]) then
      assert forall j :: 0 <= j < |s| ==> key(x) <= key(s[j]);
      PrependAscending(x, s, key);
      [x] + s
    else
      var rest := Insert(x, s[1..], key);
      assert s == [s[0]] + s[1..];
      forall j | 0 <= j < |rest|
        ensures key(s[0]) <= key(rest[j])
      {
        if rest[j] != x {
          var k :| 0 <= k < |s[1..]| && s[1..][k] == rest[j];
          assert s[k + 1] == rest[j];
        }
      }
      PrependAscending(s[0], rest, key);
      [s[0]] + rest
  }

  /** An element no larger than everything in an ascending sequence can go in front. */
  lemma PrependAscending<T>(y: T, r: seq<T>, key: T -> int)
    requires Ascending(r, key)
    requires forall j :: 0 <= j < |r| ==> key(y) <= key(r[j])
    ensures Ascending([y] + r, key)
  {
    var t := [y] + r;
    forall i, j | 0 <= i < j < |t|
      ensures key(t[i]) <= key(t[j])
    {
      assert t[j] == r[j - 1];
      if i > 0 {
        assert t[i] == r[i - 1];
      }
    }
  }

  /** Stable ascending sort by `key`. */
  function SortAscending<T>(s: seq<T>, key: T -> int): (r: seq<T>)
    ensures Ascending(r, key)
    ensures multiset(r) == multiset(s)
    ensures |r| == |s|
  {
    if |s| == 0 then []
    else
      assert s == [s[0]] + s[1..];
      var r := Insert(s[0], SortAscending(s[1..], key), key);
      assert |r| == |multiset(r)| == |s|;
      r
  }

  function Negated<T>(key: T -> int): T -> int {
    x => -key(x)
  }

  /** Stable descending sort by `key`: the ascending sort on the negated key. */
  function SortDescending<T>(s: seq<T>, key: T -> int): (r: seq<T>)
    ensures Descending(r, key)
    ensures multiset(r) == multiset(s)
    ensures |r| == |s|
  {
    var r := SortAscending(s, Negated(key));
    assert forall i, j :: 0 <= i < j < |r| ==> Negated(key)(r[i]) <= Negated(key)(r[j]);
    r
  }

  /** `.limit(n)` */
  function Limit<T>(s: seq<T>, n: nat): (r: seq<T>)
    ensures |r| <= n && |r| <= |s|
    ensures r == s[..|r|]
    ensures |s| <= n ==> r == s
  {
    if |s| <= n then s else s[..n]
  }

  /** The first `n` of `s` by descending key: at most `n` elements, in
      descending order, drawn from `s`, and no element left out has a
      larger key than an element kept. */
  function TopBy<T>(s: seq<T>, key: T -> int, n: nat): (r: seq<T>)
    ensures |r| == if |s| < n then |s| else n
    ensures Descending(r, key)
    ensures multiset(r) <= multiset(s)
    ensures forall x, i :: x in multiset(s) - multiset(r) && 0 <= i < |r| ==> key(x) <= key(r[i])
  {
    var sorted := SortDescending(s, key);
    var r := Limit(sorted, n);
    PrefixParts(sorted, r);
    LeftOutNotAbove(sorted, r, key);
    r
  }

  /** A prefix is part of the whole, and what is not in it is the suffix. */
  lemma PrefixParts<T>(sorted: seq<T>, r: seq<T>)
    requires |r| <= |sorted| && r == sorted[..|r|]
    ensures multiset(r) <= multiset(sorted)
    ensures multiset(sorted) - multiset(r) == multiset(sorted[|r|..])
  {
    assert sorted == r + sorted[|r|..];
    assert multiset(sorted) == multiset(r) + multiset(sorted[|r|..]);
  }

  /** In a descending sequence, nothing after a prefix has a larger key than
      anything in the prefix. */
  lemma LeftOutNotAbove<T>(sorted: seq<T>, r: seq<T>, key: T -> int)
    requires Descending(sorted, key)
    requires |r| <= |sorted| && r == sorted[..|r|]
    ensures forall x, i :: x in multiset(sorted[|r|..]) && 0 <= i < |r| ==> key(x) <= key(r[i])
  {
    var rest := sorted[|r|..];
    forall x, i | x in multiset(rest) && 0 <= i < |r|
      ensures key(x) <= key(r[i])
    {
      assert x in rest;
      var j :| 0 <= j < |rest| && rest[j] == x;
      assert r[i] == sorted[i] && rest[j] == sorted[|r| + j];
    }
  }
}

=== FILE: strings.dfy ===
/**
 * JavaScript `String.prototype.split` with a one-character separator, and its
 * inverse `Array.prototype.join`.
 */
module Strings {

  /** The position of the first `c` in `s`. */
  function IndexOf(s: string, c: char): (i: nat)
    requires c in s
    ensures i < |s| && s[i] == c && c !in s[..i]
  {
    if s[0] == c then 0
    else
      assert c in s[1..] by { var k :| 0 <= k < |s| && s[k] == c; assert s[1..][k - 1] == c; }
      var j := IndexOf(s[1..], c);
      assert s[..j + 1] == [s[0]] + s[1..][..j];
      j + 1
  }

  /** `parts.join(c)` */
  function Join(parts: seq<string>, c: char): string
    requires |parts| >= 1
  {
    if |parts| == 1 then parts[0] else parts[0] + [c] + Join(parts[1..], c)
  }

  /** `s.split(c)`: the maximal pieces between separators, never empty as a list,
      and joining them again gives back `s`. */
  function Split(s: string, c: char): (r: seq<string>)
    ensures |r| >= 1
    ensures forall i :: 0 <= i < |r| ==> c !in r[i]
    ensures Join(r, c) == s
    decreases |s|
  {
    if c !in s then [s]
    else
      var i := IndexOf(s, c);
      var rest := Split(s[i + 1..], c);
      assert s == s[..i] + [c] + s[i + 1..];
      [s[..i]] + rest
  }

  /** Splitting a join of separator-free pieces gives the pieces back. */
  lemma {:induction false} SplitJoin(parts: seq<string>, c: char)
    requires |parts| >= 1
    requires forall i :: 0 <= i < |parts| ==> c !in parts[i]
    ensures Split(Join(parts, c), c) == parts
  {
    if |parts| > 1 {
      var s := Join(parts, c);
      var tail := Join(parts[1..], c);
      assert s == parts[0] + [c] + tail;
      assert s[|parts[0]|] == c;
      assert s[..|parts[0]|] == parts[0];
      assert IndexOf(s, c) == |parts[0]|;
      assert s[|parts[0]| + 1..] == tail;
      SplitJoin(parts[1..], c);
    }
  }

  /** The first piece of a split is the text before the first separator. */
  lemma FirstPiece(s: string, c: char)
    ensures c !in s ==> Split(s, c)[0] == s
    ensures c in s ==> Split(s, c)[0] == s[..IndexOf(s, c)]
  {
  }

  /** A prefix followed by the separator contributes exactly one piece. */
  lemma SplitAfter(p: string, c: char, s: string)
    requires c !in p
    ensures Split(p + [c] + s, c) == [p] + Split(s, c)
  {
    var t := p + [c] + s;
    assert t[|p|] == c;
    assert t[..|p|] == p;
    assert IndexOf(t, c) == |p|;
    assert t[|p| + 1..] == s;
  }

  /** The last element of a join is a suffix of the joined text, and when there
      are several pieces it is preceded by the separator. */
  lemma {:induction false} JoinEndsWithLast(parts: seq<string>, c: char)
    requires |parts| >= 1
    ensures var last := parts[|parts| - 1];
            var s := Join(parts, c);
            && |last| <= |s| && s[|s| - |last|..] == last
            && (|parts| > 1 ==> |last| < |s| && s[|s| - |last| - 1] == c)
  {
    if |parts| > 1 {
      var last := parts[|parts| - 1];
      var tail := Join(parts[1..], c);
      var s := Join(parts, c);
      JoinEndsWithLast(parts[1..], c);
      assert parts[1..][|parts| - 2] == last;
      assert s == parts[0] + [c] + tail;
      assert s[|s| - |last|..] == tail[|tail| - |last|..];
      if |parts| == 2 {
        assert tail == last;
        assert s[|s| - |last| - 1] == c;
      } else {
        assert s[|s| - |last| - 1] == tail[|tail| - |last| - 1];
      }
    }
  }

  /** `s.split(c)` followed by taking the last element: the text after the last
      separator, or all of `s` when there is none. */
  function LastPiece(s: string, c: char): (r: string)
    ensures c !in r
    ensures |r| <= |s| && s[|s| - |r|..] == r
    ensures |r| < |s| ==> s[|s| - |r| - 1] == c
  {
    var parts := Split(s, c);
    JoinEndsWithLast(parts, c);
    parts[|parts| - 1]
  }

  /** `s.split(c)[0]`: the text before the first separator, or all of `s`. */
  function FirstPieceOf(s: string, c: char): (r: string)
    ensures c !in r
    ensures |r| <= |s| && s[..|r|] == r
    ensures |r| < |s| ==> s[|r|] == c
  {
    FirstPiece(s, c);
    Split(s, c)[0]
  }

  /** Text after the last separator: appending a separator and separator-free
      text makes that text the last piece. The three facts `LastPiece` promises
      pin the piece down. */
  lemma LastPieceAfter(x: string, c: char, t: string)
    requires c !in t
    ensures LastPiece(x + [c] + t, c) == t
  {
    var s := x + [c] + t;
    var r := LastPiece(s, c);
    assert s[|x|] == c;
    assert forall k :: |s| - |r| <= k < |s| ==> s[k] != c by {
      forall k | |s| - |r| <= k < |s| ensures s[k] != c {
        assert s[k] == r[k - (|s| - |r|)];
      }
    }
    assert |r| <= |t|;
    assert forall k :: |x| < k < |s| ==> s[k] != c by {
      forall k | |x| < k < |s| ensures s[k] != c {
        assert s[k] == t[k - |x| - 1];
      }
    }
    assert |r| == |t|;
    assert s[|s| - |t|..] == t;
  }
}

=== FILE: tasks.dfy ===
/**
 * The task store behind controllers/taskController.js: owner-scoped to-do
 * items with a status whitelist, soft delete, and counting reports.
 */
module Tasks {
  import opened Common
  import Calendar
  import Sorting

  datatype Task = Task(
    id: Id,
    title: string,
    description: string,
    status: string,
    dueDate: Calendar.Timestamp,
    userId: Id,
    createdAt: Calendar.Timestamp,
    isDel: bool,
    comments: Option<string>)

  /** The schema default of `status`. */
  const DefaultStatus: string := "Pending"

  const ValidStatuses: seq<string> := ["Pending", "In Progress", "Completed"]

  function DueDate(t: Task): int {
    t.dueDate
  }

  function CreatedAt(t: Task): int {
    t.createdAt
  }

  /** The filter `{ userId, is_del: false }`. */
  predicate LiveFor(t: Task, uid: Id) {
    t.userId == uid && !t.isDel
  }

  /** `!userId || !taskId` */
  predicate MissingIds(caller: Option<Id>, taskId: Option<Id>) {
    !Truthy(caller) || !Truthy(taskId)
  }

  datatype TaskInput = TaskInput(
    title: Option<string>,
    description: Option<string>,
    dueDate: Option<Calendar.Timestamp>,
    comments: Option<string>)

  /** POST /api/tasks/addtask: the field check comes before the user-id check,
      and a new task is live and "Pending". */
  function AddTask(store: seq<Task>, caller: Option<Id>, input: TaskInput, newId: Id, now: Calendar.Timestamp): (r: (seq<Task>, Reply<Task>))
    ensures (!Truthy(input.title) || !Truthy(input.description) || input.dueDate.None? || !Truthy(caller)) <==> r.1 == Err(BadRequest)
    ensures r.1.Err? ==> r.1 == Err(BadRequest) && r.0 == store
    ensures r.1.Ok? ==> r.1.status == Created && r.0 == store + [r.1.data]
    ensures r.1.Ok? ==> r.1.data == Task(newId, input.title.value, input.description.value, DefaultStatus,
                                         input.dueDate.value, caller.value, now, false, input.comments)
  {
    if !Truthy(input.title) || !Truthy(input.description) || input.dueDate.None? then (store, Err(BadRequest))
    else if !Truthy(caller) then (store, Err(BadRequest))
    else
      var t := Task(newId, input.title.value, input.description.value, DefaultStatus, input.dueDate.value,
                    caller.value, now, false, input.comments);
      (store + [t], Ok(Created, t))
  }

  /** GET /api/tasks/mytasks: the caller's live tasks by ascending due date. */
  function ViewAllTasks(store: seq<Task>, caller: Option<Id>): (r: Reply<seq<Task>>)
    ensures r.Err? <==> !Truthy(caller)
    ensures r.Err? ==> r.status == BadRequest
    ensures r.Ok? ==> r.status == OK && Sorting.Ascending(r.data, DueDate)
    ensures r.Ok? ==> multiset(r.data) == multiset(Filter(store, (t: Task) => LiveFor(t, caller.value)))
  {
    if !Truthy(caller) then Err(BadRequest)
    else Ok(OK, Sorting.SortAscending(Filter(store, (t: Task) => LiveFor(t, caller.value)), DueDate))
  }

  /** The first task with this id that the caller owns and that is not deleted. */
  function FindLive(store: seq<Task>, caller: Id, taskId: Id): (r: Option<nat>)
    ensures r.Some? ==> r.value < |store| && store[r.value].id == taskId && LiveFor(store[r.value], caller)
    ensures r.Some? ==> forall j :: 0 <= j < r.value ==> !(store[j].id == taskId && LiveFor(store[j], caller))
    ensures r.None? <==> forall i :: 0 <= i < |store| ==> !(store[i].id == taskId && LiveFor(store[i], caller))
  {
    FirstWhere(store, (t: Task) => t.id == taskId && LiveFor(t, caller))
  }

  /** The first task with this id that the caller owns, deleted or not. */
  function FindOwned(store: seq<Task>, caller: Id, taskId: Id): (r: Option<nat>)
    ensures r.Some? ==> r.value < |store| && store[r.value].id == taskId && store[r.value].userId == caller
    ensures r.Some? ==> forall j :: 0 <= j < r.value ==> !(store[j].id == taskId && store[j].userId == caller)
    ensures r.None? <==> forall i :: 0 <= i < |store| ==> !(store[i].id == taskId && store[i].userId == caller)
  {
    FirstWhere(store, (t: Task) => t.id == taskId && t.userId == caller)
  }

  /** GET /api/tasks/task/:taskId */
  function ViewTaskDetails(store: seq<Task>, caller: Option<Id>, taskId: Option<Id>): (r: Reply<Task>)
    ensures MissingIds(caller, taskId) <==> r == Err(BadRequest)
    ensures !MissingIds(caller, taskId) ==>
              (r == Err(NotFound) <==> forall t :: t in store ==> !(t.id == taskId.value && LiveFor(t, caller.value)))
    ensures r.Ok? <==> !MissingIds(caller, taskId) && FindLive(store, caller.value, taskId.value).Some?
    ensures r.Ok? ==> r.status == OK && r.data == store[FindLive(store, caller.value, taskId.value).value]
    ensures r.Ok? ==> r.data in store && r.data.id == taskId.value && LiveFor(r.data, caller.value)
  {
    if MissingIds(caller, taskId) then Err(BadRequest)
    else match FindLive(store, caller.value, taskId.value)
      case None => Err(NotFound)
      case Some(i) => Ok(OK, store[i])
  }

  datatype TaskEdit = TaskEdit(
    title: Option<string>,
    description: Option<string>,
    dueDate: Option<Calendar.Timestamp>,
    comments: Patch<string>)

  /** Writes the fields present in the request; status, owner, creation time and
      the deletion flag are not among them. */
  function ApplyEdit(t: Task, e: TaskEdit): (t': Task)
    ensures t'.id == t.id && t'.status == t.status && t'.userId == t.userId
    ensures t'.createdAt == t.createdAt && t'.isDel == t.isDel
    ensures t'.title == (if e.title.Some? then e.title.value else t.title)
    ensures t'.description == (if e.description.Some? then e.description.value else t.description)
    ensures t'.dueDate == (if e.dueDate.Some? then e.dueDate.value else t.dueDate)
    ensures e.comments.Absent? ==> t'.comments == t.comments
    ensures e.comments.Null? ==> t'.comments == None
    ensures e.comments.Given? ==> t'.comments == Some(e.comments.value)
  {
    t.(title := if e.title.Some? then e.title.value else t.title,
       description := if e.description.Some? then e.description.value else t.description,
       dueDate := if e.dueDate.Some? then e.dueDate.value else t.dueDate,
       comments := Patched(t.comments, e.comments))
  }

  /** PUT /api/tasks/task/:taskId */
  function UpdateTask(store: seq<Task>, caller: Option<Id>, taskId: Option<Id>, e: TaskEdit): (r: (seq<Task>, Reply<Task>))
    ensures MissingIds(caller, taskId) <==> r.1 == Err(BadRequest)
    ensures !MissingIds(caller, taskId) ==> (r.1 == Err(NotFound) <==> FindLive(store, caller.value, taskId.value).None?)
    ensures r.1.Ok? <==> !MissingIds(caller, taskId) && FindLive(store, caller.value, taskId.value).Some?
    ensures r.1.Err? ==> r.0 == store
    ensures r.1.Ok? ==> var i := FindLive(store, caller.value, taskId.value).value;
                        r.1.status == OK && r.1.data == ApplyEdit(store[i], e) && r.0 == store[i := r.1.data]
  {
    if MissingIds(caller, taskId) then (store, Err(BadRequest))
    else match FindLive(store, caller.value, taskId.value)
      case None => (store, Err(NotFound))
      case Some(i) =>
        var t := ApplyEdit(store[i], e);
        (store[i := t], Ok(OK, t))
  }

  /** PATCH /api/tasks/task/status/:taskId: only the three known statuses pass. */
  function ChangeStatus(store: seq<Task>, caller: Option<Id>, taskId: Option<Id>, status: Option<string>): (r: (seq<Task>, Reply<Task>))
    ensures (MissingIds(caller, taskId) || status.None? || status.value !in ValidStatuses) <==> r.1 == Err(BadRequest)
    ensures r.1.Err? ==> r.0 == store
    ensures !MissingIds(caller, taskId) && status.Some? && status.value in ValidStatuses ==>
              (r.1 == Err(NotFound) <==> FindLive(store, caller.value, taskId.value).None?)
    ensures r.1.Ok? <==> && !MissingIds(caller, taskId) && status.Some? && status.value in ValidStatuses
                         && FindLive(store, caller.value, taskId.value).Some?
    ensures r.1.Ok? ==> var i := FindLive(store, caller.value, taskId.value).value;
                        r.1.status == OK && r.1.data == store[i].(status := status.value) && r.0 == store[i := r.1.data]
  {
    if MissingIds(caller, taskId) then (store, Err(BadRequest))
    else if status.None? || status.value !in ValidStatuses then (store, Err(BadRequest))
    else match FindLive(store, caller.value, taskId.value)
      case None => (store, Err(NotFound))
      case Some(i) =>
        var t := store[i].(status := status.value);
        (store[i := t], Ok(OK, t))
  }

  /** DELETE /api/tasks/task/:taskId: matches on id and owner only, so a deleted
      task can be deleted again; the record is flagged, never removed. */
  function DeleteTask(store: seq<Task>, caller: Option<Id>, taskId: Option<Id>): (r: (seq<Task>, Reply<Task>))
    ensures MissingIds(caller, taskId) <==> r.1 == Err(BadRequest)
    ensures !MissingIds(caller, taskId) ==> (r.1 == Err(NotFound) <==> FindOwned(store, caller.value, taskId.value).None?)
    ensures r.1.Ok? <==> !MissingIds(caller, taskId) && FindOwned(store, caller.value, taskId.value).Some?
    ensures r.1.Err? ==> r.0 == store
    ensures |r.0| == |store|
    ensures r.1.Ok? ==> var i := FindOwned(store, caller.value, taskId.value).value;
                        r.1.status == OK && r.1.data == store[i].(isDel := true) && r.0 == store[i := r.1.data]
  {
    if MissingIds(caller, taskId) then (store, Err(BadRequest))
    else match FindOwned(store, caller.value, taskId.value)
      case None => (store, Err(NotFound))
      case Some(i) =>
        var t := store[i].(isDel := true);
        (store[i := t], Ok(OK, t))
  }

  /** Deleting an already deleted task succeeds again and changes nothing more. */
  lemma DeleteIdempotent(store: seq<Task>, caller: Option<Id>, taskId: Option<Id>)
    requires DeleteTask(store, caller, taskId).1.Ok?
    ensures var once := DeleteTask(store, caller, taskId);
            var twice := DeleteTask(once.0, caller, taskId);
            twice.1.Ok? && twice.0 == once.0
  {
    var i := FindOwned(store, caller.value, taskId.value).value;
    var once := DeleteTask(store, caller, taskId).0;
    assert FindOwned(once, caller.value, taskId.value) == Some(i) by {
      assert once[i].id == taskId.value && once[i].userId == caller.value;
      assert forall j :: 0 <= j < i ==> once[j] == store[j];
    }
  }

  /** After a delete, the task is no longer visible to view, update or status
      change (when ids are unique). */
  lemma DeletedTaskNotFound(store: seq<Task>, caller: Option<Id>, taskId: Option<Id>, e: TaskEdit)
    requires forall i, j :: 0 <= i < j < |store| ==> store[i].id != store[j].id
    requires DeleteTask(store, caller, taskId).1.Ok?
    ensures ViewTaskDetails(DeleteTask(store, caller, taskId).0, caller, taskId) == Err(NotFound)
    ensures UpdateTask(DeleteTask(store, caller, taskId).0, caller, taskId, e).1 == Err(NotFound)
  {
    var i := FindOwned(store, caller.value, taskId.value).value;
    var s' := DeleteTask(store, caller, taskId).0;
    forall j | 0 <= j < |s'|
      ensures !(s'[j].id == taskId.value && LiveFor(s'[j], caller.value))
    {
      if j != i {
        assert s'[j] == store[j];
      }
    }
  }

  /** A created task, under a fresh non-empty id, is found by its owner. */
  lemma AddThenView(store: seq<Task>, caller: Option<Id>, input: TaskInput, newId: Id, now: Calendar.Timestamp)
    requires |newId| > 0
    requires forall t :: t in store ==> t.id != newId
    requires AddTask(store, caller, input, newId, now).1.Ok?
    ensures var r := AddTask(store, caller, input, newId, now);
            ViewTaskDetails(r.0, caller, Some(newId)) == Ok(OK, r.1.data)
  {
    var r := AddTask(store, caller, input, newId, now);
    assert r.0[|store|] == r.1.data;
    assert forall j :: 0 <= j < |store| ==> r.0[j] == store[j];
  }

  /** The task an update answers with is what a later view returns. */
  lemma UpdateThenView(store: seq<Task>, caller: Option<Id>, taskId: Option<Id>, e: TaskEdit)
    requires UpdateTask(store, caller, taskId, e).1.Ok?
    ensures var r := UpdateTask(store, caller, taskId, e);
            ViewTaskDetails(r.0, caller, taskId) == Ok(OK, r.1.data)
  {
    var i := FindLive(store, caller.value, taskId.value).value;
    var s' := UpdateTask(store, caller, taskId, e).0;
    assert FindLive(s', caller.value, taskId.value) == Some(i) by {
      assert s'[i].id == taskId.value && LiveFor(s'[i], caller.value);
      assert forall j :: 0 <= j < i ==> s'[j] == store[j];
    }
  }

  /** An explicit `null` for `comments` clears them, and an absent `comments`
      keeps them: a later view shows which. */
  lemma {:induction false} CommentsAfterUpdate(store: seq<Task>, caller: Option<Id>, taskId: Option<Id>, e: TaskEdit)
    requires UpdateTask(store, caller, taskId, e).1.Ok?
    ensures var v := ViewTaskDetails(UpdateTask(store, caller, taskId, e).0, caller, taskId);
            && v.Ok?
            && (e.comments.Null? ==> v.data.comments == None)
            && (e.comments.Absent? ==> v.data.comments == store[FindLive(store, caller.value, taskId.value).value].comments)
            && (e.comments.Given? ==> v.data.comments == Some(e.comments.value))
  {
    UpdateThenView(store, caller, taskId, e);
  }

  /** After a status change a view shows the new status, and a second change
      to the same status changes nothing further. */
  lemma ChangeStatusThenView(store: seq<Task>, caller: Option<Id>, taskId: Option<Id>, status: Option<string>)
    requires ChangeStatus(store, caller, taskId, status).1.Ok?
    ensures var r := ChangeStatus(store, caller, taskId, status);
            && ViewTaskDetails(r.0, caller, taskId) == Ok(OK, r.1.data)
            && ViewTaskDetails(r.0, caller, taskId).data.status == status.value
            && ChangeStatus(r.0, caller, taskId, status).0 == r.0
  {
    var i := FindLive(store, caller.value, taskId.value).value;
    var s' := ChangeStatus(store, caller, taskId, status).0;
    assert FindLive(s', caller.value, taskId.value) == Some(i) by {
      assert s'[i].id == taskId.value && LiveFor(s'[i], caller.value);
      assert forall j :: 0 <= j < i ==> s'[j] == store[j];
    }
  }

  /** A task is overdue when it is live, due strictly before `now`, and not completed. */
  predicate Overdue(t: Task, uid: Id, now: Calendar.Timestamp) {
    LiveFor(t, uid) && t.dueDate < now && t.status != "Completed"
  }

  datatype TaskSummary = TaskSummary(completed: nat, pending: nat, inProgress: nat)

  datatype TaskStatistics = TaskStatistics(totalTasks: nat, completedCount: nat, pendingCount: nat, inProgressCount: nat, overdueCount: nat)

  /** `countDocuments({ userId, is_del: false, status })`. */
  function StatusCount(store: seq<Task>, uid: Id, status: string): nat {
    CountOf(store, (t: Task) => LiveFor(t, uid) && t.status == status)
  }

  /** `find({ userId, is_del: false, status })`: the live tasks in one status. */
  function WithStatus(store: seq<Task>, uid: Id, status: string): seq<Task> {
    Filter(store, (t: Task) => LiveFor(t, uid) && t.status == status)
  }

  /** The live tasks of one owner. */
  function LiveTasks(store: seq<Task>, uid: Id): seq<Task> {
    Filter(store, (t: Task) => LiveFor(t, uid))
  }

  /** The live tasks of one owner that are overdue at `now`. */
  function OverdueTasks(store: seq<Task>, uid: Id, now: Calendar.Timestamp): seq<Task> {
    Filter(store, (t: Task) => Overdue(t, uid, now))
  }

  /** A status count is the number of live tasks in that status. */
  lemma StatusCountIsLength(store: seq<Task>, uid: Id, status: string)
    ensures StatusCount(store, uid, status) == |WithStatus(store, uid, status)|
  {
    CountIsFilterLength(store, (t: Task) => LiveFor(t, uid) && t.status == status);
  }

  /** GET /api/tasks/summary: the number of live tasks in each status. */
  function GetTaskSummary(store: seq<Task>, caller: Option<Id>): (r: Reply<TaskSummary>)
    ensures r.Err? <==> !Truthy(caller)
    ensures r.Err? ==> r.status == Unauthorized
    ensures r.Ok? ==> && r.status == OK
                      && r.data.completed == |WithStatus(store, caller.value, "Completed")|
                      && r.data.pending == |WithStatus(store, caller.value, "Pending")|
                      && r.data.inProgress == |WithStatus(store, caller.value, "In Progress")|
    ensures r.Ok? ==> r.data.completed + r.data.pending + r.data.inProgress <= |LiveTasks(store, caller.value)|
  {
    if !Truthy(caller) then Err(Unauthorized)
    else
      var uid := caller.value;
      StatusCountsBounded(store, uid);
      StatusCountIsLength(store, uid, "Completed");
      StatusCountIsLength(store, uid, "Pending");
      StatusCountIsLength(store, uid, "In Progress");
      CountIsFilterLength(store, (t: Task) => LiveFor(t, uid));
      Ok(OK, TaskSummary(StatusCount(store, uid, "Completed"), StatusCount(store, uid, "Pending"), StatusCount(store, uid, "In Progress")))
  }

  /** The three status counts never exceed the number of live tasks. */
  lemma StatusCountsBounded(store: seq<Task>, uid: Id)
    ensures StatusCount(store, uid, "Completed") + StatusCount(store, uid, "Pending") + StatusCount(store, uid, "In Progress")
            <= CountOf(store, (t: Task) => LiveFor(t, uid))
  {
    CountDisjoint3(store,
      (t: Task) => LiveFor(t, uid) && t.status == "Completed",
      (t: Task) => LiveFor(t, uid) && t.status == "Pending",
      (t: Task) => LiveFor(t, uid) && t.status == "In Progress",
      (t: Task) => LiveFor(t, uid));
  }

  /** Overdue tasks are live and not completed, so they are at most the live
      tasks that are not completed. */
  lemma OverdueBounded(store: seq<Task>, uid: Id, now: Calendar.Timestamp)
    ensures CountOf(store, (t: Task) => Overdue(t, uid, now)) + StatusCount(store, uid, "Completed")
            <= CountOf(store, (t: Task) => LiveFor(t, uid))
  {
    CountDisjoint2(store,
      (t: Task) => Overdue(t, uid, now),
      (t: Task) => LiveFor(t, uid) && t.status == "Completed",
      (t: Task) => LiveFor(t, uid));
  }

  /** GET /api/tasks/statistic: the live total, the count in each status, and
      the live tasks not completed whose due date has passed. */
  function GetTaskStatistics(store: seq<Task>, caller: Option<Id>, now: Calendar.Timestamp): (r: Reply<TaskStatistics>)
    ensures r.Err? <==> !Truthy(caller)
    ensures r.Err? ==> r.status == Unauthorized
    ensures r.Ok? ==> && r.status == OK
                      && r.data.totalTasks == |LiveTasks(store, caller.value)|
                      && r.data.completedCount == |WithStatus(store, caller.value, "Completed")|
                      && r.data.pendingCount == |WithStatus(store, caller.value, "Pending")|
                      && r.data.inProgressCount == |WithStatus(store, caller.value, "In Progress")|
                      && r.data.overdueCount == |OverdueTasks(store, caller.value, now)|
    ensures r.Ok? ==> r.data.completedCount + r.data.pendingCount + r.data.inProgressCount <= r.data.totalTasks
    ensures r.Ok? ==> r.data.overdueCount <= r.data.totalTasks - r.data.completedCount
  {
    if !Truthy(caller) then Err(Unauthorized)
    else
      var uid := caller.value;
      StatusCountsBounded(store, uid);
      OverdueBounded(store, uid, now);
      CountIsFilterLength(store, (t: Task) => LiveFor(t, uid));
      CountIsFilterLength(store, (t: Task) => Overdue(t, uid, now));
      StatusCountIsLength(store, uid, "Completed");
      StatusCountIsLength(store, uid, "Pending");
      StatusCountIsLength(store, uid, "In Progress");
      Ok(OK, TaskStatistics(
        CountOf(store, (t: Task) => LiveFor(t, uid)),
        StatusCount(store, uid, "Completed"),
        StatusCount(store, uid, "Pending"),
        StatusCount(store, uid, "In Progress"),
        CountOf(store, (t: Task) => Overdue(t, uid, now))))
  }

  /** `countDocuments(filter)` equals the length of `find(filter)`. */
  lemma {:induction false} CountIsFilterLength(store: seq<Task>, p: Task -> bool)
    ensures CountOf(store, p) == |Filter(store, p)|
  {
    if |store| > 0 {
      CountIsFilterLength(store[1..], p);
    }
  }

  /** The summary and the statistics report the same status counts. */
  lemma SummaryAgreesWithStatistics(store: seq<Task>, caller: Option<Id>, now: Calendar.Timestamp)
    requires Truthy(caller)
    ensures var s := GetTaskSummary(store, caller).data;
            var st := GetTaskStatistics(store, caller, now).data;
            s.completed == st.completedCount && s.pending == st.pendingCount && s.inProgress == st.inProgressCount
  {
  }

  /** A new task counts once more in the total and among the pending tasks,
      and among the overdue ones exactly when it is already due. */
  lemma AddTaskCounts(store: seq<Task>, caller: Option<Id>, input: TaskInput, newId: Id, now: Calendar.Timestamp, at: Calendar.Timestamp)
    requires AddTask(store, caller, input, newId, now).1.Ok?
    ensures var before := GetTaskStatistics(store, caller, at).data;
            var after := GetTaskStatistics(AddTask(store, caller, input, newId, now).0, caller, at).data;
            && after.totalTasks == before.totalTasks + 1
            && after.pendingCount == before.pendingCount + 1
            && after.completedCount == before.completedCount
            && after.inProgressCount == before.inProgressCount
            && after.overdueCount == before.overdueCount + (if input.dueDate.value < at then 1 else 0)
  {
    var r := AddTask(store, caller, input, newId, now);
    var uid := caller.value;
    assert r.0 == store + [r.1.data];
    CountAppend(store, [r.1.data], (t: Task) => LiveFor(t, uid));
    CountAppend(store, [r.1.data], (t: Task) => LiveFor(t, uid) && t.status == "Completed");
    CountAppend(store, [r.1.data], (t: Task) => LiveFor(t, uid) && t.status == "Pending");
    CountAppend(store, [r.1.data], (t: Task) => LiveFor(t, uid) && t.status == "In Progress");
    CountAppend(store, [r.1.data], (t: Task) => Overdue(t, uid, at));
  }

  /** A status change moves the task from its old status count to the new one
      and leaves the total alone. */
  lemma ChangeStatusMovesCount(store: seq<Task>, caller: Option<Id>, taskId: Option<Id>, status: Option<string>, which: string)
    requires ChangeStatus(store, caller, taskId, status).1.Ok?
    ensures var i := FindLive(store, caller.value, taskId.value).value;
            var after := ChangeStatus(store, caller, taskId, status).0;
            && |LiveTasks(after, caller.value)| == |LiveTasks(store, caller.value)|
            && |WithStatus(after, caller.value, which)|
               == |WithStatus(store, caller.value, which)|
                  - (if store[i].status == which then 1 else 0) + (if status.value == which then 1 else 0)
  {
    var i := FindLive(store, caller.value, taskId.value).value;
    var uid := caller.value;
    var t := store[i].(status := status.value);
    assert ChangeStatus(store, caller, taskId, status).0 == store[i := t];
    CountUpdate(store, i, t, (t: Task) => LiveFor(t, uid));
    CountUpdate(store, i, t, (t: Task) => LiveFor(t, uid) && t.status == which);
    CountIsFilterLength(store, (t: Task) => LiveFor(t, uid));
    CountIsFilterLength(store[i := t], (t: Task) => LiveFor(t, uid));
    StatusCountIsLength(store, uid, which);
    StatusCountIsLength(store[i := t], uid, which);
  }

  /** GET /api/tasks/recent: at most five live tasks, newest first, and no live
      task left out was created later than one returned. */
  function GetRecentTasks(store: seq<Task>, caller: Option<Id>): (r: Reply<seq<Task>>)
    ensures r.Err? <==> !Truthy(caller)
    ensures r.Err? ==> r.status == Unauthorized
    ensures r.Ok? ==> && r.status == OK
                      && |r.data| == (if |LiveTasks(store, caller.value)| < 5 then |LiveTasks(store, caller.value)| else 5)
                      && Sorting.Descending(r.data, CreatedAt)
                      && multiset(r.data) <= multiset(Filter(store, (t: Task) => LiveFor(t, caller.value)))
    ensures r.Ok? ==> forall t, i :: (t in multiset(Filter(store, (t: Task) => LiveFor(t, caller.value))) - multiset(r.data)
                                      && 0 <= i < |r.data|) ==> t.createdAt <= r.data[i].createdAt
  {
    if !Truthy(caller) then Err(Unauthorized)
    else Ok(OK, Sorting.TopBy(Filter(store, (t: Task) => LiveFor(t, caller.value)), CreatedAt, 5))
  }

  /** A task created later than every live task of its owner heads the recent
      list. */
  lemma AddedTaskIsMostRecent(store: seq<Task>, caller: Option<Id>, input: TaskInput, newId: Id, now: Calendar.Timestamp)
    requires AddTask(store, caller, input, newId, now).1.Ok?
    requires forall t :: t in store && LiveFor(t, caller.value) ==> t.createdAt < now
    ensures var r := AddTask(store, caller, input, newId, now);
            var recent := GetRecentTasks(r.0, caller);
            recent.Ok? && |recent.data| > 0 && recent.data[0] == r.1.data
  {
    var r := AddTask(store, caller, input, newId, now);
    var t := r.1.data;
    var live := LiveTasks(r.0, caller.value);
    assert r.0 == store + [t];
    assert t in live by {
      assert r.0[|store|] == t;
    }
    forall x | x in live
      ensures x == t || x.createdAt < t.createdAt
    {
      assert x in r.0 && LiveFor(x, caller.value);
    }
    NewestHeadsTop(live, t);
  }

  /** When one task was created strictly after all others, it comes first
      among the five newest. */
  lemma NewestHeadsTop(live: seq<Task>, t: Task)
    requires t in live
    requires forall x :: x in live ==> x == t || x.createdAt < t.createdAt
    ensures |Sorting.TopBy(live, CreatedAt, 5)| > 0 && Sorting.TopBy(live, CreatedAt, 5)[0] == t
  {
    var data := Sorting.TopBy(live, CreatedAt, 5);
    assert |data| > 0;
    assert data[0] in live by {
      assert data[0] in multiset(data);
    }
    if t !in multiset(data) {
      assert false;
    }
    var j :| 0 <= j < |data| && data[j] == t;
    assert CreatedAt(data[0]) >= CreatedAt(data[j]);
  }
}

=== FILE: users.dfy ===
/**
 * The account logic of controllers/userController.js: registration, login,
 * password change, profile update, soft delete and the profile-picture swap.
 * bcrypt hashing and comparison, token signing and the image upload are
 * abstract functions passed in by the caller.
 */
module Users {
  import opened Common
  import Strings

  datatype User = User(
    id: Id,
    name: string,
    email: string,
    password: string,
    phone: Option<string>,
    gender: Option<string>,
    profilePicture: Option<string>,
    isDel: bool)

  /** Stored passwords with this prefix are treated as bcrypt hashes. */
  const HashPrefix: string := "$2a$"

  /** The comparison shared by login and password change: a stored value that
      starts with "$2a$" is checked with the hash comparison, anything else by
      exact equality. */
  predicate PasswordMatches(given: string, stored: string, compare: (string, string) -> bool) {
    if StartsWith(stored, HashPrefix) then compare(given, stored) else given == stored
  }

  /** A stored value without the hash prefix accepts exactly itself, whatever the
      hash comparison would say. */
  lemma PlainPasswordExact(given: string, stored: string, compare: (string, string) -> bool)
    requires !StartsWith(stored, HashPrefix)
    ensures PasswordMatches(given, stored, compare) <==> given == stored
  {
  }

  /** A bcrypt hash with the "$2b$" prefix falls on the plain branch: only the
      hash text itself is accepted as the password. */
  lemma TwoBHashComparedAsText(rest: string, given: string, compare: (string, string) -> bool)
    ensures PasswordMatches(given, "$2b$" + rest, compare) <==> given == "$2b$" + rest
  {
    assert ("$2b$" + rest)[2] == 'b';
  }

  /** `User.findOne({ email })`: the first user with this email, deleted or not. */
  function FindByEmail(store: seq<User>, email: string): (r: Option<nat>)
    ensures r.Some? ==> r.value < |store| && store[r.value].email == email
    ensures r.None? <==> forall i :: 0 <= i < |store| ==> store[i].email != email
  {
    FirstWhere(store, (u: User) => u.email == email)
  }

  /** `User.findById(userId)`; an absent id finds nothing. */
  function FindById(store: seq<User>, caller: Option<Id>): (r: Option<nat>)
    ensures r.Some? ==> caller.Some? && r.value < |store| && store[r.value].id == caller.value
    ensures r.Some? ==> forall j :: 0 <= j < r.value ==> store[j].id != caller.value
    ensures r.None? <==> caller.None? || forall i :: 0 <= i < |store| ==> store[i].id != caller.value
  {
    if caller.None? then None
    else FirstWhere(store, (u: User) => u.id == caller.value)
  }

  /** No two users share an email address. */
  ghost predicate EmailsUnique(store: seq<User>) {
    forall i, j :: 0 <= i < j < |store| ==> store[i].email != store[j].email
  }

  datatype Registration = Registration(
    name: Option<string>,
    email: Option<string>,
    password: Option<string>,
    phone: Option<string>,
    gender: Option<string>)

  /** POST /api/users/register: missing name, email or password → 400; an email
      already on record (deleted or not) → 400 before anything is hashed;
      otherwise the user is stored with the hash of the password. */
  function RegisterUser(store: seq<User>, reg: Registration, hash: string -> string, newId: Id): (r: (seq<User>, Reply<User>))
    ensures (!Truthy(reg.name) || !Truthy(reg.email) || !Truthy(reg.password)) ==> r.1 == Err(BadRequest)
    ensures Truthy(reg.name) && Truthy(reg.email) && Truthy(reg.password) ==>
              (r.1 == Err(BadRequest) <==> FindByEmail(store, reg.email.value).Some?)
    ensures r.1.Err? ==> r.1.status == BadRequest && r.0 == store
    ensures r.1.Ok? ==> r.1.status == Created && r.0 == store + [r.1.data]
    ensures r.1.Ok? ==> && r.1.data.password == hash(reg.password.value)
                        && r.1.data.email == reg.email.value && r.1.data.name == reg.name.value
                        && !r.1.data.isDel && r.1.data.profilePicture.None?
  {
    if !Truthy(reg.name) || !Truthy(reg.email) || !Truthy(reg.password) then (store, Err(BadRequest))
    else if FindByEmail(store, reg.email.value).Some? then (store, Err(BadRequest))
    else
      var u := User(newId, reg.name.value, reg.email.value, hash(reg.password.value), reg.phone, reg.gender, None, false);
      (store + [u], Ok(Created, u))
  }

  /** Registration keeps email addresses unique. */
  lemma RegisterKeepsEmailsUnique(store: seq<User>, reg: Registration, hash: string -> string, newId: Id)
    requires EmailsUnique(store)
    ensures EmailsUnique(RegisterUser(store, reg, hash, newId).0)
  {
    var r := RegisterUser(store, reg, hash, newId);
    if r.1.Ok? {
      var s' := r.0;
      forall i, j | 0 <= i < j < |s'|
        ensures s'[i].email != s'[j].email
      {
        if j == |store| {
          assert s'[i] == store[i];
        }
      }
    }
  }

  datatype Session = Session(token: string, user: User)

  /** POST /api/users/login: an unknown email or a wrong password → 401. The
      deletion flag is not consulted. */
  function LoginUser(store: seq<User>, email: string, password: string,
                     compare: (string, string) -> bool, sign: Id -> string): (r: Reply<Session>)
    ensures r.Err? ==> r.status == Unauthorized
    ensures r.Ok? <==> exists i :: && 0 <= i < |store| && store[i].email == email
                                    && (forall j :: 0 <= j < i ==> store[j].email != email)
                                    && PasswordMatches(password, store[i].password, compare)
    ensures r.Ok? ==> && r.status == OK && r.data.user in store && r.data.user.email == email
                      && r.data.token == sign(r.data.user.id)
    ensures r.Ok? ==> FindByEmail(store, email).Some? && r.data.user == store[FindByEmail(store, email).value]
  {
    match FindByEmail(store, email)
    case None => Err(Unauthorized)
    case Some(i) =>
      if !PasswordMatches(password, store[i].password, compare) then Err(Unauthorized)
      else Ok(OK, Session(sign(store[i].id), store[i]))
  }

  /** A soft-deleted user with the right password still logs in. */
  lemma DeletedUserCanLogIn(store: seq<User>, i: nat, compare: (string, string) -> bool, sign: Id -> string)
    requires EmailsUnique(store)
    requires i < |store| && store[i].isDel
    requires !StartsWith(store[i].password, HashPrefix)
    ensures LoginUser(store, store[i].email, store[i].password, compare, sign).Ok?
  {
    assert FindByEmail(store, store[i].email) == Some(i);
  }

  /** PUT /api/users/change-password: missing or deleted user → 404; a wrong old
      password → 401; otherwise the stored value becomes the hash of the new one. */
  function ChangePassword(store: seq<User>, caller: Option<Id>, oldPassword: string, newPassword: string,
                          compare: (string, string) -> bool, hash: string -> string): (r: (seq<User>, Reply<()>))
    ensures r.1 == Err(NotFound) <==> FindById(store, caller).None? || store[FindById(store, caller).value].isDel
    ensures r.1 == Err(Unauthorized) <==> && FindById(store, caller).Some? && !store[FindById(store, caller).value].isDel
                                          && !PasswordMatches(oldPassword, store[FindById(store, caller).value].password, compare)
    ensures r.1.Ok? <==> && FindById(store, caller).Some? && !store[FindById(store, caller).value].isDel
                         && PasswordMatches(oldPassword, store[FindById(store, caller).value].password, compare)
    ensures r.1.Err? ==> r.0 == store
    ensures r.1.Ok? ==> var i := FindById(store, caller).value;
                        r.1.status == OK && r.0 == store[i := store[i].(password := hash(newPassword))]
  {
    match FindById(store, caller)
    case None => (store, Err(NotFound))
    case Some(i) =>
      if store[i].isDel then (store, Err(NotFound))
      else if !PasswordMatches(oldPassword, store[i].password, compare) then (store, Err(Unauthorized))
      else (store[i := store[i].(password := hash(newPassword))], Ok(OK, ()))
  }

  /** Login and password change judge a password the same way: for a live user
      with a unique email, the old password is accepted exactly when logging in
      with it succeeds. */
  lemma LoginAgreesWithChangePassword(store: seq<User>, i: nat, password: string, newPassword: string,
                                      compare: (string, string) -> bool, hash: string -> string, sign: Id -> string)
    requires EmailsUnique(store)
    requires forall a, b :: 0 <= a < b < |store| ==> store[a].id != store[b].id
    requires i < |store| && !store[i].isDel
    ensures ChangePassword(store, Some(store[i].id), password, newPassword, compare, hash).1.Ok?
            <==> LoginUser(store, store[i].email, password, compare, sign).Ok?
  {
    assert FindByEmail(store, store[i].email) == Some(i);
    assert FindById(store, Some(store[i].id)) == Some(i);
  }

  /** After a password change, logging in with the new password succeeds
      exactly when the shared comparison accepts it against its own hash. */
  lemma NewPasswordLogsIn(store: seq<User>, i: nat, oldPassword: string, newPassword: string,
                          compare: (string, string) -> bool, hash: string -> string, sign: Id -> string)
    requires EmailsUnique(store)
    requires forall a, b :: 0 <= a < b < |store| ==> store[a].id != store[b].id
    requires i < |store|
    requires ChangePassword(store, Some(store[i].id), oldPassword, newPassword, compare, hash).1.Ok?
    ensures LoginUser(ChangePassword(store, Some(store[i].id), oldPassword, newPassword, compare, hash).0,
                      store[i].email, newPassword, compare, sign).Ok?
            <==> PasswordMatches(newPassword, hash(newPassword), compare)
  {
    assert FindById(store, Some(store[i].id)) == Some(i);
    var s' := ChangePassword(store, Some(store[i].id), oldPassword, newPassword, compare, hash).0;
    assert s'[i].email == store[i].email && s'[i].password == hash(newPassword);
    assert FindByEmail(s', store[i].email) == Some(i) by {
      assert forall j :: 0 <= j < i ==> s'[j] == store[j];
      assert forall j :: i < j < |s'| ==> s'[j] == store[j];
    }
  }

  /** As written, a "$2b$" hash (what the bcrypt package produces by default)
      locks the user out after a password change: the new password is compared
      with its own hash as text and refused. */
  lemma ChangedPasswordRefused(store: seq<User>, i: nat, oldPassword: string, newPassword: string, rest: string,
                               compare: (string, string) -> bool, hash: string -> string, sign: Id -> string)
    requires EmailsUnique(store)
    requires forall a, b :: 0 <= a < b < |store| ==> store[a].id != store[b].id
    requires i < |store|
    requires ChangePassword(store, Some(store[i].id), oldPassword, newPassword, compare, hash).1.Ok?
    requires hash(newPassword) == "$2b$" + rest && newPassword != hash(newPassword)
    ensures LoginUser(ChangePassword(store, Some(store[i].id), oldPassword, newPassword, compare, hash).0,
                      store[i].email, newPassword, compare, sign) == Err(Unauthorized)
  {
    NewPasswordLogsIn(store, i, oldPassword, newPassword, compare, hash, sign);
    TwoBHashComparedAsText(rest, newPassword, compare);
  }

  /** As written, a freshly registered user whose password was hashed to a
      "$2b$" hash cannot log in with that password. */
  lemma RegisteredUserRefused(store: seq<User>, reg: Registration, hash: string -> string, newId: Id, rest: string,
                              compare: (string, string) -> bool, sign: Id -> string)
    requires RegisterUser(store, reg, hash, newId).1.Ok?
    requires hash(reg.password.value) == "$2b$" + rest && reg.password.value != hash(reg.password.value)
    ensures LoginUser(RegisterUser(store, reg, hash, newId).0, reg.email.value, reg.password.value, compare, sign)
            == Err(Unauthorized)
  {
    var s' := RegisterUser(store, reg, hash, newId).0;
    assert FindByEmail(s', reg.email.value) == Some(|store|) by {
      assert s'[|store|].email == reg.email.value;
      assert forall j :: 0 <= j < |store| ==> s'[j] == store[j];
    }
    TwoBHashComparedAsText(rest, reg.password.value, compare);
  }

  /** The prefixes of every bcrypt version: "$2a$", "$2b$" and "$2y$". */
  predicate IsBcryptHash(stored: string) {
    |stored| >= 4 && stored[0] == '$' && stored[1] == '2' && stored[2] in "aby" && stored[3] == '$'
  }

  /** The comparison with every bcrypt version recognised as a hash. */
  predicate PasswordMatchesFixed(given: string, stored: string, compare: (string, string) -> bool) {
    if IsBcryptHash(stored) then compare(given, stored) else given == stored
  }

  /** The corrected comparison differs from the written one only on "$2b$" and
      "$2y$" hashes. */
  lemma FixedAgreesOutsideNewVersions(given: string, stored: string, compare: (string, string) -> bool)
    requires !IsBcryptHash(stored) || StartsWith(stored, HashPrefix)
    ensures PasswordMatchesFixed(given, stored, compare) == PasswordMatches(given, stored, compare)
  {
    if StartsWith(stored, HashPrefix) {
      assert stored[..4] == HashPrefix;
      assert stored[0] == '$' && stored[1] == '2' && stored[2] == 'a' && stored[3] == '$';
    }
  }

  /** POST /api/users/login with the corrected comparison. */
  function LoginUserFixed(store: seq<User>, email: string, password: string,
                          compare: (string, string) -> bool, sign: Id -> string): (r: Reply<Session>)
    ensures r.Err? ==> r.status == Unauthorized
    ensures r.Ok? <==> FindByEmail(store, email).Some?
                       && PasswordMatchesFixed(password, store[FindByEmail(store, email).value].password, compare)
    ensures r.Ok? ==> && r.status == OK && r.data.user in store && r.data.user.email == email
                      && r.data.token == sign(r.data.user.id)
    ensures r.Ok? ==> r.data.user == store[FindByEmail(store, email).value]
  {
    match FindByEmail(store, email)
    case None => Err(Unauthorized)
    case Some(i) =>
      if !PasswordMatchesFixed(password, store[i].password, compare) then Err(Unauthorized)
      else Ok(OK, Session(sign(store[i].id), store[i]))
  }

  /** With the corrected comparison, a registered user logs in with the
      password whatever bcrypt version hashed it. */
  lemma FixedRegisterThenLogin(store: seq<User>, reg: Registration, hash: string -> string, newId: Id,
                               compare: (string, string) -> bool, sign: Id -> string)
    requires RegisterUser(store, reg, hash, newId).1.Ok?
    requires IsBcryptHash(hash(reg.password.value)) && compare(reg.password.value, hash(reg.password.value))
    ensures LoginUserFixed(RegisterUser(store, reg, hash, newId).0, reg.email.value, reg.password.value, compare, sign).Ok?
  {
    var s' := RegisterUser(store, reg, hash, newId).0;
    assert FindByEmail(s', reg.email.value) == Some(|store|) by {
      assert s'[|store|].email == reg.email.value;
      assert forall j :: 0 <= j < |store| ==> s'[j] == store[j];
    }
  }

  /** With the corrected comparison, the new password logs in after a change
      whatever bcrypt version hashed it. */
  lemma FixedNewPasswordLogsIn(store: seq<User>, i: nat, oldPassword: string, newPassword: string,
                               compare: (string, string) -> bool, hash: string -> string, sign: Id -> string)
    requires EmailsUnique(store)
    requires forall a, b :: 0 <= a < b < |store| ==> store[a].id != store[b].id
    requires i < |store|
    requires ChangePassword(store, Some(store[i].id), oldPassword, newPassword, compare, hash).1.Ok?
    requires IsBcryptHash(hash(newPassword)) && compare(newPassword, hash(newPassword))
    ensures LoginUserFixed(ChangePassword(store, Some(store[i].id), oldPassword, newPassword, compare, hash).0,
                           store[i].email, newPassword, compare, sign).Ok?
  {
    assert FindById(store, Some(store[i].id)) == Some(i);
    var s' := ChangePassword(store, Some(store[i].id), oldPassword, newPassword, compare, hash).0;
    assert s'[i].email == store[i].email && s'[i].password == hash(newPassword);
    assert FindByEmail(s', store[i].email) == Some(i) by {
      assert forall j :: 0 <= j < i ==> s'[j] == store[j];
      assert forall j :: i < j < |s'| ==> s'[j] == store[j];
    }
  }

  datatype Profile = Profile(name: Option<string>, email: Option<string>, phone: Option<string>)

  /** The unique index on `email`: writing an email that another record
      (deleted or not) already holds is refused. */
  predicate EmailClash(store: seq<User>, i: nat, p: Profile) {
    p.email.Some? && exists j :: 0 <= j < |store| && j != i && store[j].email == p.email.value
  }

  /** PUT /api/users/update: missing or deleted user → 404; an email another
      user holds breaks the unique index and the update fails → 500; otherwise
      the fields present in the request are written and nothing else changes. */
  function UpdateUser(store: seq<User>, caller: Option<Id>, p: Profile): (r: (seq<User>, Reply<User>))
    ensures r.1 == Err(NotFound) <==> FindById(store, caller).None? || store[FindById(store, caller).value].isDel
    ensures r.1 == Err(ServerError) <==> && FindById(store, caller).Some? && !store[FindById(store, caller).value].isDel
                                         && EmailClash(store, FindById(store, caller).value, p)
    ensures r.1.Err? ==> r.0 == store && r.1.status in {NotFound, ServerError}
    ensures r.1.Ok? ==> var i := FindById(store, caller).value;
                        && r.1.status == OK && r.0 == store[i := r.1.data]
                        && r.1.data.id == store[i].id && r.1.data.password == store[i].password
                        && r.1.data.isDel == store[i].isDel && r.1.data.profilePicture == store[i].profilePicture
                        && r.1.data.name == (if p.name.Some? then p.name.value else store[i].name)
                        && r.1.data.email == (if p.email.Some? then p.email.value else store[i].email)
                        && r.1.data.phone == (if p.phone.Some? then p.phone else store[i].phone)
  {
    match FindById(store, caller)
    case None => (store, Err(NotFound))
    case Some(i) =>
      if store[i].isDel then (store, Err(NotFound))
      else if EmailClash(store, i, p) then (store, Err(ServerError))
      else
        var u := store[i].(name := if p.name.Some? then p.name.value else store[i].name,
                           email := if p.email.Some? then p.email.value else store[i].email,
                           phone := if p.phone.Some? then p.phone else store[i].phone);
        (store[i := u], Ok(OK, u))
  }

  /** A profile update keeps email addresses unique. */
  lemma UpdateKeepsEmailsUnique(store: seq<User>, caller: Option<Id>, p: Profile)
    requires EmailsUnique(store)
    ensures EmailsUnique(UpdateUser(store, caller, p).0)
  {
    var r := UpdateUser(store, caller, p);
    if r.1.Ok? {
      var i := FindById(store, caller).value;
      var s' := r.0;
      forall a, b | 0 <= a < b < |s'|
        ensures s'[a].email != s'[b].email
      {
        if a == i {
          assert s'[b] == store[b];
        } else if b == i {
          assert s'[a] == store[a];
        } else {
          assert s'[a] == store[a] && s'[b] == store[b];
        }
      }
    }
  }

  /** DELETE /api/users/delete: missing or deleted user → 404; otherwise only the
      deletion flag is set. */
  function DeleteUser(store: seq<User>, caller: Option<Id>): (r: (seq<User>, Reply<()>))
    ensures r.1.Err? <==> FindById(store, caller).None? || store[FindById(store, caller).value].isDel
    ensures r.1.Err? ==> r.1.status == NotFound && r.0 == store
    ensures r.1.Ok? ==> var i := FindById(store, caller).value;
                        r.1.status == OK && !store[i].isDel && r.0 == store[i := store[i].(isDel := true)]
  {
    match FindById(store, caller)
    case None => (store, Err(NotFound))
    case Some(i) =>
      if store[i].isDel then (store, Err(NotFound))
      else (store[i := store[i].(isDel := true)], Ok(OK, ()))
  }

  /** A second delete of the same user is refused. */
  lemma DeleteUserOnce(store: seq<User>, caller: Option<Id>)
    requires DeleteUser(store, caller).1.Ok?
    ensures DeleteUser(DeleteUser(store, caller).0, caller).1 == Err(NotFound)
  {
    var i := FindById(store, caller).value;
    var s' := DeleteUser(store, caller).0;
    assert FindById(s', caller) == Some(i) by {
      assert s'[i].id == caller.value;
      assert forall j :: 0 <= j < i ==> s'[j] == store[j];
    }
  }

  /** The Cloudinary public id of an image URL: the last '/'-separated segment,
      cut at its first '.'. */
  function PublicId(url: string): (r: string)
    ensures '/' !in r && '.' !in r
    ensures var seg := Strings.LastPiece(url, '/');
            && |r| <= |seg| && seg[..|r|] == r
            && (|r| == |seg| || seg[|r|] == '.')
  {
    Strings.FirstPieceOf(Strings.LastPiece(url, '/'), '.')
  }

  const PictureFolder: string := "todo/uploads/profile_picture/"

  /** The image to destroy before the new one is stored: only when the old URL is
      truthy and its public id is non-empty. */
  function DestroyPath(oldPicture: Option<string>): (r: Option<string>)
    ensures r.Some? <==> Truthy(oldPicture) && PublicId(oldPicture.value) != ""
    ensures r.Some? ==> r.value == PictureFolder + PublicId(oldPicture.value)
  {
    if Truthy(oldPicture) && PublicId(oldPicture.value) != "" then Some(PictureFolder + PublicId(oldPicture.value))
    else None
  }

  /** A Cloudinary-style URL ".../<id>.<ext>" yields `id`. */
  lemma PublicIdOfImageUrl(base: string, id: string, ext: string)
    requires '/' !in id && '.' !in id && '/' !in ext
    ensures PublicId(base + "/" + id + "." + ext) == id
  {
    var tail := id + "." + ext;
    assert '/' !in tail;
    assert base + "/" + id + "." + ext == base + ['/'] + tail;
    Strings.LastPieceAfter(base, '/', tail);
    assert tail == id + ['.'] + ext;
    Strings.SplitAfter(id, '.', ext);
  }

  /** A URL that ends in '/' has an empty public id, so nothing is destroyed. */
  lemma TrailingSlashDestroysNothing(base: string)
    ensures DestroyPath(Some(base + "/")) == None
  {
    assert base + "/" == base + ['/'] + "";
    Strings.LastPieceAfter(base, '/', "");
  }

  datatype PictureChange = PictureChange(store: seq<User>, reply: Reply<string>, destroyed: Option<string>)

  /** PUT /api/users/profile-picture: no file → 400; unknown user → 404 (the
      deletion flag is not consulted); otherwise the old image is destroyed when
      it has a public id and the uploaded URL is stored. */
  function UpdateProfilePicture(store: seq<User>, caller: Option<Id>, hasFile: bool, uploadedUrl: string): (r: PictureChange)
    ensures !hasFile ==> r.reply == Err(BadRequest)
    ensures hasFile ==> (r.reply == Err(NotFound) <==> FindById(store, caller).None?)
    ensures r.reply.Ok? <==> hasFile && FindById(store, caller).Some?
    ensures r.reply.Err? ==> r.store == store && r.destroyed.None?
    ensures r.reply.Ok? ==> var i := FindById(store, caller).value;
                            && r.reply.status == OK && r.reply.data == uploadedUrl
                            && r.store == store[i := store[i].(profilePicture := Some(uploadedUrl))]
                            && r.destroyed == DestroyPath(store[i].profilePicture)
  {
    if !hasFile then PictureChange(store, Err(BadRequest), None)
    else match FindById(store, caller)
      case None => PictureChange(store, Err(NotFound), None)
      case Some(i) =>
        var u := store[i].(profilePicture := Some(uploadedUrl));
        PictureChange(store[i := u], Ok(OK, uploadedUrl), DestroyPath(store[i].profilePicture))
  }

  /** Uploading twice: the second upload destroys the image the first one
      stored, by the public id read back from its URL. */
  lemma SecondUploadDestroysFirst(store: seq<User>, caller: Option<Id>, base: string, id: string, ext: string, next: string)
    requires '/' !in id && '.' !in id && '/' !in ext && id != ""
    requires UpdateProfilePicture(store, caller, true, base + "/" + id + "." + ext).reply.Ok?
    ensures var first := UpdateProfilePicture(store, caller, true, base + "/" + id + "." + ext);
            var second := UpdateProfilePicture(first.store, caller, true, next);
            second.reply.Ok? && second.destroyed == Some(PictureFolder + id)
  {
    var url := base + "/" + id + "." + ext;
    var first := UpdateProfilePicture(store, caller, true, url);
    var i := FindById(store, caller).value;
    assert FindById(first.store, caller) == Some(i) by {
      assert first.store[i].id == caller.value;
      assert forall j :: 0 <= j < i ==> first.store[j] == store[j];
    }
    PublicIdOfImageUrl(base, id, ext);
  }
}
